=== FILE: README.md ===
# INCA isotopomer equations, script values and result import

This project models, in Dafny, the core of the genome-scale MFA interface to
the INCA isotopomer-fitting tool. It has three parts.

- **The equation builder** `make_isotopomerRxnEquations_INCA`. It turns a
  reaction into the text INCA reads, such as
  `1.0*a (C1:x) + 2.0*a <-> 1.0*b `, from these inputs:
  - the reactant and product ids and their stoichiometries;
  - the reversibility flag;
  - the parallel "tracked" arrays: ids, stoichiometries, elements,
    positions and atom mappings.
- **The script writer's value rules.** These are:
  - how measured MDV averages and standard deviations are cleaned;
  - when a reaction is switched on (`m.rates.on`);
  - which flux bounds are written when measured fluxes are given.
- **The result importer.** It reads the fitted measurements, residuals and
  parameters of a finished fit and files them as table rows. This covers:
  - un-escaping and parsing fragment names;
  - sanitising parameter values;
  - resolving the `Expt #1` alias;
  - placing every record by its experiment field.

Modules:

| file | module | contents |
|---|---|---|
| wrappers.dfy | Wrappers | `Option` |
| text.dfy | Text | string helpers: split, join, replace-all, integer text |
| atoms.dfy | AtomMapping | tracked entries and their atom clauses |
| plan.dfy | ReactionPlan | which clauses each side of an equation gets |
| equation.dfy | EquationText | the equation text, as built and in closed form |
| plan_props.dfy | PlanProperties | exchange synthesis and stoichiometric balance |
| equation_props.dfy | EquationProperties | the shape of the equation text |
| equation_examples.dfy | EquationExamples | worked equations for the builder's quirks |
| script_rules.dfy | ScriptRules | MDV cleaning, `rates.on`, bound selection |
| fragment_names.dfy | FragmentNames | escapes and the fields of a fragment name |
| import_values.dfy | ImportValues | per-cell sanitising, the alias, time points, placement |
| import_tables.dfy | ImportTables | the measurement, residual and parameter tables |

### Modelling choices

- **Numbers.** Python's `str(float)` is a parameter `fmt: real -> string`.
  Stoichiometries are `real` and are compared exactly.
- **Failures.** A Python `IndexError` becomes `None`. Examples:
  - a mapping with more labels than elements;
  - `exps[0]` taken from an empty list;
  - a fragment name with too few fields.
- **Plan and text.** The builder is split in two:
  - `ReactionPlan.PlanReaction` decides the clauses;
  - `EquationText.RawEquation` appends and trims text exactly as the
    source does.

  For equations whose clauses are all closed, `EquationText.Render` gives
  the same text as a join of the clause texts.
- **Append and trim.** The builder appends text piece by piece and then
  cuts characters off the end. The model keeps these consequences:
  - the trailing space;
  - the raw (signed) tracked stoichiometry printed for a product-side split;
  - the `(` left open when a mapping is empty;
  - the arrow cut to `<-` or `-` when product participants exist but emit
    no clause;
  - orphan tracked entries examined only while a tracked participant is
    processed.
- **Empty cells.** The importer tests a MATLAB cell with Python's `not d`.
  That is true for an empty cell and also for a 1x1 array holding 0. For
  values, deviations and lower bounds this changes nothing, since the
  result is 0 either way. An upper bound of 0, however, is reported as 1000.

## Model

| member | source | states |
|---|---|---|
| ReactionPlan.ParticipantClauses | genomeScale_MFA_INCA/INCA_api.py:910-982 | the closed clauses emitted for one participant add up to its absolute stoichiometry, and the pseudo-metabolite list only grows (the old list is a prefix of the new) |
| ReactionPlan.PseudoAtMostOnce | genomeScale_MFA_INCA/INCA_api.py:955-974 | across both sides of an equation, no orphan id receives more than one closed pseudo-metabolite clause, because the list is shared by the reactant and product loops |
| PlanProperties.ExchangeSymmetric | genomeScale_MFA_INCA/INCA_api.py:886-904 | exchange synthesis treats the two sides alike: swapping reactants and products before it gives the same reaction as swapping them after it |
| PlanProperties.ExchangeFillsEmptySide | genomeScale_MFA_INCA/INCA_api.py:886-904 | a reaction with one participant in all gets one `.EX` partner of the same stoichiometry on its empty side and keeps the other side; the partner takes a `.EX` copy of the first tracked entry when that entry has an id, and otherwise keeps the tracked entries its side already had; every other reaction is left unchanged |
| PlanProperties.UntrackedSide | genomeScale_MFA_INCA/INCA_api.py:980-982 | a side none of whose participants is tracked gives one bare `s*id` clause (s the absolute stoichiometry) per participant, in order, and leaves the pseudo list alone even when the tracked list holds orphans |
| PlanProperties.SideBalance | genomeScale_MFA_INCA/INCA_api.py:910-982 | for every participant id of a side, the closed clauses for that id add up to the sum of the absolute stoichiometries of its occurrences: tracked shares plus the untracked remainder |
| PlanProperties.ReactionBalance | genomeScale_MFA_INCA/INCA_api.py:934-979 | the stoichiometric balance holds on both sides of the whole equation, after exchange synthesis |
| PlanProperties.PlanFits | genomeScale_MFA_INCA/INCA_api.py:913-1054 | every clause is either for a participant of its side (printing the participant's remainder, or the tracked share; the product split may print the raw tracked value) or a pseudo clause for an orphan of its side that passes that side's rule: the `-1e-13` sentinel on reactants, `.balance` in the id on products |
| AtomMapping.BracketedRoundTrip | genomeScale_MFA_INCA/INCA_api.py:921-930 | a non-empty list of bracket-free labels written as `[a][b]...` is read back by the split-on-`][`-and-strip rule as the same labels |
| AtomMapping.PlainMappingLabels | genomeScale_MFA_INCA/INCA_api.py:921-930 | a mapping without `[` gives one label per character, and the labels concatenate back to the mapping |
| EquationProperties.BuildFailsOnlyOnShortMapping | genomeScale_MFA_INCA/INCA_api.py:913-1061 | the builder succeeds whenever every tracked entry of the input has an empty mapping or enough elements and positions for its labels; when it fails (IndexError), some tracked entry has a non-empty mapping with more labels than elements or positions |
| EquationText.RawMatchesRender | genomeScale_MFA_INCA/INCA_api.py:983-990 | when every clause is closed, the append-and-trim text is the reactant clause texts joined by ` + `, a space, the arrow, a space, and the product clause texts joined by ` + ` with a trailing space |
| EquationProperties.WellMappedOutput | genomeScale_MFA_INCA/INCA_api.py:913-1061 | when every tracked entry has a non-empty mapping with enough elements and positions, all clauses are closed and the builder returns exactly the rendered form |
| EquationProperties.ReversibilityOnlyArrow | genomeScale_MFA_INCA/INCA_api.py:984-987 | the reversible and the irreversible equation of a reaction both fail or both succeed, and the reversible text is the irreversible one with `<` inserted before the `-` of the arrow, at the position right after the reactant side's text |
| EquationProperties.UptakeEquation | genomeScale_MFA_INCA/INCA_api.py:887-895 | an uptake with no reactants prints as `s*id.EX <arrow> s*id `, s being the absolute stoichiometry |
| EquationProperties.SecretionEquation | genomeScale_MFA_INCA/INCA_api.py:896-904 | a secretion with no products prints as `s*id <arrow> s*id.EX `, s being the absolute stoichiometry |
| EquationExamples.SplitReactant | genomeScale_MFA_INCA/INCA_api.py:935-979 | for `3 a -> b` with one tracked `a` of stoichiometry 1, the mapped share is printed with its atoms and the untracked remainder 2 follows as a bare clause |
| EquationExamples.SplitProductPrintsRaw | genomeScale_MFA_INCA/INCA_api.py:1015-1019 | a product-side split prints the tracked stoichiometry as given, its sign included (`-1.0*c (C1:x)`), unlike the reactant side, which prints its absolute value |
| EquationExamples.UnclosedClause | genomeScale_MFA_INCA/INCA_api.py:1000-1001 | an entry with an empty mapping prints `coef*id (` with no atoms and no closing parenthesis, subtracts nothing, and the whole amount is repeated as the remainder |
| EquationExamples.PseudoReactant | genomeScale_MFA_INCA/INCA_api.py:955-974 | a reactant-side orphan with the `-1e-13` sentinel is printed once, with the literal coefficient `0.0000000000001`, at the point where the scan meets it |
| ScriptRules.CleanIdempotent | genomeScale_MFA_INCA/INCA_api.py:673-685 | cleaning an entry already written as numbers gives it back unchanged; no deviation below 1e-3 is written; a kept average is at least 1e-6 and always comes with a numeric deviation |
| ScriptRules.CleanStdev | genomeScale_MFA_INCA/INCA_api.py:678-685 | a standard deviation is NaN exactly when its average was blanked and it is below 1e-3; every number written is at least 1e-3; values of at least 1e-3 are kept |
| ScriptRules.CleanMdv | genomeScale_MFA_INCA/INCA_api.py:661-685 | the cleaned MDV has one entry per average, and entry k is cleaned from average k and deviation k; it fails exactly when there are fewer deviations than averages |
| ScriptRules.RateOnBounds | genomeScale_MFA_INCA/INCA_api.py:518-524 | a reaction whose bounds allow a flux other than 0 is switched on; a reaction switched off has bounds [0, 0] and initial flux 0; a reaction with bounds [0, 0] is on exactly when its initial flux is not 0 |
| ScriptRules.WrittenBounds | genomeScale_MFA_INCA/INCA_api.py:484-508 | one lower and one upper bound per reaction; they are the first measured record's bounds when its id is the reaction's, and the reaction's own bounds otherwise; no later record is consulted |
| ScriptRules.IntendedBound | genomeScale_MFA_INCA/INCA_api.py:484-494 | the bound is that of the first measured record whose id is the reaction's, or the reaction's own when no record has its id |
| ScriptRules.SecondRecordIgnored | genomeScale_MFA_INCA/INCA_api.py:486-493 | when the first measured flux for a reaction stands behind a record for another reaction, the bounds as written are the model's own, while the intended rule takes that measured flux's bounds |
| FragmentNames.Escape | genomeScale_MFA_INCA/INCA_i.py:278-280 | a re-escaped fragment id holds no `-`, `(` or `)` |
| FragmentNames.EscapeUnescape | genomeScale_MFA_INCA/INCA_i.py:263-280 | re-escaping undoes un-escaping for a name with no raw `-`, `(`, `)` and no escaped parenthesis |
| FragmentNames.ParenthesisNotRestored | genomeScale_MFA_INCA/INCA_i.py:264-280 | an escaped parenthesis is un-escaped to the literal `[(]` and re-escaped to `[_LPARANTHES_]`, so it does not come back as it was |
| FragmentNames.ParseFields | genomeScale_MFA_INCA/INCA_i.py:268-275 | parsing fails (IndexError) exactly when there are fewer than five fields; the formula is always the third field |
| FragmentNames.KeyRebuildsFields | genomeScale_MFA_INCA/INCA_i.py:268-275 | the id is the first three fields (four with a scan type), followed by the offset and time fields; id, offset and time joined by `_` are exactly the fields consumed |
| FragmentNames.KeyIsPrefixOfName | genomeScale_MFA_INCA/INCA_i.py:263-275 | the parsed id, offset and time, joined by `_`, are a prefix of the un-escaped name |
| FragmentNames.EscapedDashKeepsField | genomeScale_MFA_INCA/INCA_i.py:263-267 | an escaped dash between two underscore-free pieces stays inside one field, because un-escaping runs before the split on `_` |
| FragmentNames.ResidualFragmentId | genomeScale_MFA_INCA/INCA_i.py:262-280 | the stored id of an MS residual exists exactly when its name parses, and it holds no `-`, `(` or `)` |
| ImportValues.ValueWithinUpper | genomeScale_MFA_INCA/INCA_i.py:341-377 | the value read from a cell never exceeds the upper bound read from the same cell, and the two differ exactly when the cell is empty, 0 or NaN |
| ImportValues.ParLower | genomeScale_MFA_INCA/INCA_i.py:362-369 | an empty, 0 or NaN lower bound reads as 0 (a stored 0 is taken for a missing one and read back as 0); infinities and finite bounds are kept; the result is never NaN |
| ImportValues.ParUpper | genomeScale_MFA_INCA/INCA_i.py:370-377 | no upper bound of 0 is ever reported: an empty, 0, infinite or NaN bound reads as 1000, and any other finite bound is kept |
| ImportValues.SanitisedAreFixed | genomeScale_MFA_INCA/INCA_i.py:341-384 | a sanitised value, lower bound, upper bound or unit, read back as a cell, comes out unchanged |
| ImportValues.ParUnit | genomeScale_MFA_INCA/INCA_i.py:378-384 | no stored unit is empty: an empty cell or empty text takes the default flux unit `mmol*gDCW-1*hr-1`, and any other unit is kept |
| ImportValues.StdColumnLengths | genomeScale_MFA_INCA/INCA_i.py:352-358 | as written, the deviation column is one entry short for every NaN deviation, and the value column gains one 0 for each |
| ImportValues.NaNStdShiftsColumn | genomeScale_MFA_INCA/INCA_i.py:352-358 | for deviations [NaN, 0.5], as written the column is [0.5] plus a stray 0 value, while the intended column is [0, 0.5] |
| ImportValues.StdColumnAgreesWithoutNaN | genomeScale_MFA_INCA/INCA_i.py:352-358 | without NaN deviations, the column as written is the intended column (one entry per parameter: 0 for an empty or 0 cell, the cell otherwise) and no value is appended |
| ImportValues.ParId | genomeScale_MFA_INCA/INCA_i.py:334-339 | an id containing `Expt #1` has every occurrence replaced by the first experiment id, and fails (IndexError) when there is none; any other id is kept |
| ImportValues.AliasRulesAgree | genomeScale_MFA_INCA/INCA_i.py:211-214 | the residual rule and the parameter rule resolve the alias `Expt #1` alike, and agree on text without it; on longer text holding the alias, only the parameter rule rewrites it |
| ImportValues.InfiniteTimeLabel | genomeScale_MFA_INCA/INCA_i.py:207-210 | an infinite time point of either sign is labelled "0" whatever the number formatting, and it shares its label with a finite time point exactly when that point is formatted as "0" |
| ImportValues.Place | genomeScale_MFA_INCA/INCA_i.py:147-187 | a record whose field names an experiment is filed under it and the first sample; one whose field names a sample is filed under the first experiment and that sample; any other is dropped; it fails exactly when the needed first element is missing |
| ImportTables.MeasurementRowsSpec | genomeScale_MFA_INCA/INCA_i.py:147-187 | the import fails exactly when some record's placement fails; otherwise a row is present exactly when it comes from a Flux or MS record that is placed, with that record's id, kind and residual sum |
| ImportTables.ResidualRowsSpec | genomeScale_MFA_INCA/INCA_i.py:223-320 | among the failures modelled (the chemical formula and the mass offset are not parsed), the import fails exactly when some record's alias, placement or fragment parse fails; otherwise a row is present exactly when it comes from a placed Flux or MS record with its own values and time point |
| ImportTables.ParIds | genomeScale_MFA_INCA/INCA_i.py:334-339 | the id column fails exactly when some id's alias cannot be resolved; otherwise entry k is parameter k's resolved id |
| ImportTables.NormWords | genomeScale_MFA_INCA/INCA_i.py:419-424 | a Norm id yields exactly its first four space-separated words, and fails exactly when it has fewer than four |
| ImportTables.ImportParametersFails | genomeScale_MFA_INCA/INCA_i.py:398-481 | with one deviation per parameter (the corrected column), and among the failures modelled, the parameter import fails exactly when an id's alias cannot be resolved, or a Norm parameter's id is too short, its fragment too short, or its placement fails; without NaN deviations the import as written is the same (AsWrittenAgreesWithoutNaN) |
| ImportTables.NetFluxRowsPresent | genomeScale_MFA_INCA/INCA_i.py:398-417 | with one deviation per parameter (the corrected column), every Net flux parameter gives a flux row with its resolved id, its own sanitised value, its own deviation and its bounds and unit; without NaN deviations the import as written is the same (AsWrittenAgreesWithoutNaN) |
| ImportTables.NormRowsPresent | genomeScale_MFA_INCA/INCA_i.py:418-479 | with one deviation per parameter (the corrected column), every Norm parameter of a successful import has at least four words, a parsable fragment name and a placement; when placed, its fragment row carries the placement's experiment and sample, the parsed time point, word 2 as fragment id, word 4 as units, and its own value and deviation |
| ImportTables.ParameterRowsAligned | genomeScale_MFA_INCA/INCA_i.py:398-481 | every imported row comes from one parameter and carries that parameter's value and deviation, never another's |
| ImportTables.ParameterRowsSpec | genomeScale_MFA_INCA/INCA_i.py:398-481 | with one deviation per parameter (the corrected column), a row is in a successful import exactly when some parameter gives it: a Net flux parameter its flux row with resolved id, sanitised value, deviation, bounds and unit; a Norm parameter whose first word is placed its fragment row with that placement, the parsed time point, word 2 as fragment id and word 4 as units; a Norm parameter whose first word names neither an experiment nor a sample, and any other kind, give no row |
| ImportTables.AsWrittenAgreesWithoutNaN | genomeScale_MFA_INCA/INCA_i.py:352-358 | without NaN deviations, the import as written equals the intended import |
| ImportTables.NaNStdAbortsAsWritten | genomeScale_MFA_INCA/INCA_i.py:352-358 | as written, a NaN deviation followed by a finite one makes the last Net flux parameter index past the deviation column (IndexError) |
| ImportTables.NaNStdMisattributes | genomeScale_MFA_INCA/INCA_i.py:352-358 | as written, with a third parameter present, the NaN parameter PGI receives PFK's deviation 0.5 and PFK receives 0 |
| ImportTables.NaNStdIntended | genomeScale_MFA_INCA/INCA_i.py:352-358 | with the intended column, the same parameters import with deviations 0 and 0.5 in their own rows |

## Left out

- Loading the MATLAB `.mat` result, the simulation timestamps and the database writes are I/O. Records enter the model as sequences of datatypes.
- The constant row fields `simulation_id`, `simulation_dateAndTime`, `used_` and `comment_`, and the `None` sensitivities, are copied unchanged and not modelled.
- Fragment mass: `Formula(...).mass` calls a chemistry library, and `float(...)` parses the offset. The key keeps the formula and the offset as text.
- ImportTables.ResidualRowsSpec and ImportTables.ImportParametersFails: their "fails exactly when" leaves out the two parse failures above. The source also aborts when the chemistry library rejects a formula or `float()` rejects an offset.
- The builder's parallel input arrays (ids, stoichiometries, elements, positions, mappings) are zipped into `Participant` and `Tracked` records. The IndexError the source raises when those arrays differ in length cannot be represented. For instance, the element and position lists default to `[[]]` while the id lists default to `[]`.
- Python's `str(float)`, the `%f` formatting of the script writer and IEEE rounding are left out. `fmt` is a parameter, and reals are exact.
- The rest of the script writer is not modelled: biomass strings, assembly of the whole MATLAB script, and the other MATLAB generators. Only the value rules above are modelled.
- The sample-parallel MS writer (INCA_api.py:298-405, average threshold 1e-4) is not modelled. As soon as there is an MS record, it loops over the undefined name `snaalMS_data_I` and raises a NameError before writing any value. The cleaning rules are those of the live experiment-parallel writers.
- `print` calls ("type not recognized", "unaccounted for ...") are output only. The records they mention are dropped, as modelled.
- `chi2s`, `cor` and `cov` of the parameters, the fitted data and the `Echi2` statistics are read but never stored in a row, so they are not modelled.
- The residual `val`, `fit`, `std` and `data` go through `float()`. They are modelled as already being MATLAB doubles (`Float`).

## Findings

| source | as written | input that shows it | evidently intended | confidence | as-written member | corrected member |
|---|---|---|---|---|---|---|
| genomeScale_MFA_INCA/INCA_i.py:352-358 | a NaN standard deviation appends 0 to the value list, not to the deviation list, so every later deviation moves one index down | parameters PGI (deviation NaN), PFK (deviation 0.5) and a third: PGI gets 0.5 and PFK gets 0; with only PGI and PFK, reading PFK's deviation raises IndexError | a NaN deviation reads as 0 in the deviation list, one entry per parameter | not executed | ImportTables.NaNStdMisattributes | ImportTables.ParameterRowsAligned |
| genomeScale_MFA_INCA/INCA_api.py:484-508 | the inner loop over measured fluxes breaks on its first pass in both branches, so only the first measured flux is compared | reaction PGI with measured fluxes [GLCptspp, PGI]: PGI keeps its own bounds (-1000, 1000) | the bounds of the first measured flux for the reaction, here (2, 3) | not executed | ScriptRules.SecondRecordIgnored | ScriptRules.IntendedBound |

=== FILE: atoms.dfy ===
/** Tracked annotations and the atom clauses built from them
    (`make_isotopomerRxnEquations_INCA`, the mapping loop repeated in each
    of its six branches). */
module AtomMapping {
  import opened Text

  /** One tracked (atom-mapped) entry of a reaction side: the metabolite,
      the share of its stoichiometry that is mapped, and the parallel
      element / 0-based position / mapping data of its atoms. */
  datatype Tracked = Tracked(
    id: string,
    stoich: real,
    elements: seq<string>,
    positions: seq<int>,
    mapping: string)

  /** Python `str.split('][')` followed by deleting every `[` and `]`. */
  function StripBrackets(pieces: seq<string>): (r: seq<string>)
    ensures |r| == |pieces|
    ensures forall k :: 0 <= k < |r| ==> '[' !in r[k] && ']' !in r[k]
  {
    seq(|pieces|, k requires 0 <= k < |pieces| => RemoveChar(RemoveChar(pieces[k], '['), ']'))
  }

  /** The one-character strings of s, in order (iterating a Python string). */
  function Chars(s: string): (r: seq<string>)
    ensures |r| == |s|
  {
    seq(|s|, k requires 0 <= k < |s| => [s[k]])
  }

  /** The atom labels of a mapping: a mapping holding `[` is split on `][`
      and stripped of brackets, any other mapping gives one label per
      character. */
  function Labels(mapping: string): (ls: seq<string>)
  {
    if '[' in mapping then StripBrackets(SplitOn(mapping, "][")) else Chars(mapping)
  }

  /** Python `element + str(position + 1) + ':' + label`. */
  function AtomToken(element: string, position: int, lbl: string): (r: string)
  {
    element + IntToString(position + 1) + ":" + lbl
  }

  /** The atoms of an entry can be rendered: every label has an element
      and a position (otherwise the source raises IndexError). */
  predicate HasAtoms(t: Tracked)
  {
    |Labels(t.mapping)| <= |t.elements| && |Labels(t.mapping)| <= |t.positions|
  }

  function AtomTokens(t: Tracked): (toks: seq<string>)
    requires HasAtoms(t)
    ensures |toks| == |Labels(t.mapping)|
  {
    var ls := Labels(t.mapping);
    seq(|ls|, k requires 0 <= k < |ls| => AtomToken(t.elements[k], t.positions[k], ls[k]))
  }

  /** The parenthesised atom clause `(E1:a E2:b ...)`. */
  function AtomClause(t: Tracked): (r: string)
    requires HasAtoms(t)
  {
    "(" + Join(AtomTokens(t), " ") + ")"
  }

  // ---------------------------------------------------------------------
  // Lemmas

  /** A non-empty mapping always yields at least one label, so the
      source's token loop runs at least once. */
  lemma NonEmptyMappingHasLabels(mapping: string)
    requires mapping != ""
    ensures |Labels(mapping)| >= 1
  {
  }

  /** A mapping without brackets is read one character per atom, and the
      labels concatenate back to the mapping. */
  lemma {:induction false} PlainMappingLabels(mapping: string)
    requires '[' !in mapping
    ensures |Labels(mapping)| == |mapping|
    ensures forall k :: 0 <= k < |mapping| ==> Labels(mapping)[k] == [mapping[k]]
    ensures Concat(Labels(mapping)) == mapping
  {
    CharsConcat(mapping);
  }

  lemma {:induction false} CharsConcat(s: string)
    ensures Concat(Chars(s)) == s
    decreases |s|
  {
    if |s| > 0 {
      assert Chars(s)[1..] == Chars(s[1..]);
      CharsConcat(s[1..]);
      assert s == [s[0]] + s[1..];
    }
  }

  /** Splitting on `][` when the first part holds no `]`: the first part
      is exactly the text before the first separator. */
  lemma {:induction false} SplitAfterFirst(a: string, b: string)
    requires ']' !in a
    ensures SplitOn(a + "][" + b, "][") == [a] + SplitOn(b, "][")
    decreases |a|
  {
    var s := a + "][" + b;
    if |a| == 0 {
      assert s == "][" + b;
      assert s[..2] == "][";
      assert s[2..] == b;
    } else {
      assert s[0] == a[0] && a[0] in a;
      assert s[..2] != "][";
      assert s[1..] == a[1..] + "][" + b;
      SplitAfterFirst(a[1..], b);
      assert [a[0]] + a[1..] == a;
    }
  }

  /** The bracketed mapping written for a list of labels. */
  function Bracketed(ls: seq<string>): (r: string)
  {
    "[" + Join(ls, "][") + "]"
  }

  /** Splitting `x][l1][l2]...]` on `][` gives x, the inner labels and the
      last label with its closing bracket. */
  lemma {:induction false} SplitJoined(x: string, ls: seq<string>)
    requires ']' !in x
    requires forall k :: 0 <= k < |ls| ==> '[' !in ls[k] && ']' !in ls[k]
    ensures |ls| == 0 ==> SplitOn(x + "]", "][") == [x + "]"]
    ensures |ls| > 0 ==>
              SplitOn(x + "][" + Join(ls, "][") + "]", "][") == [x] + ls[..|ls| - 1] + [ls[|ls| - 1] + "]"]
    decreases |ls|
  {
    if |ls| == 0 {
      SplitEndingClose(x);
    } else {
      var rest := Join(ls, "][") + "]";
      assert x + "][" + Join(ls, "][") + "]" == x + "][" + rest;
      SplitAfterFirst(x, rest);
      if |ls| == 1 {
        SplitEndingClose(ls[0]);
        assert rest == ls[0] + "]";
      } else {
        JoinCons(ls[0], ls[1..], "][");
        assert ls == [ls[0]] + ls[1..];
        assert rest == ls[0] + "][" + Join(ls[1..], "][") + "]";
        SplitJoined(ls[0], ls[1..]);
        assert ls[..|ls| - 1] == [ls[0]] + ls[1..][..|ls[1..]| - 1];
      }
    }
  }

  /** A string with no `]` followed by one `]` is one piece. */
  lemma {:induction false} SplitEndingClose(x: string)
    requires ']' !in x
    ensures SplitOn(x + "]", "][") == [x + "]"]
    decreases |x|
  {
    var s := x + "]";
    if |s| >= 2 {
      assert s[0] == x[0] && x[0] in x;
      assert s[..2] != "][";
      assert s[1..] == x[1..] + "]";
      SplitEndingClose(x[1..]);
      var rest := SplitOn(s[1..], "][");
      assert rest == [x[1..] + "]"];
      assert SplitOn(s, "][") == [[s[0]] + rest[0]] + rest[1..];
      assert [s[0]] + (x[1..] + "]") == s;
    }
  }

  /** Stripping brackets removes them and nothing else. */
  lemma {:induction false} StripPlain(x: string)
    requires '[' !in x && ']' !in x
    ensures RemoveChar(RemoveChar(x, '['), ']') == x
  {
    RemoveAbsent(x, '[');
    RemoveAbsent(x, ']');
  }

  lemma {:induction false} RemoveAbsent(x: string, c: char)
    requires c !in x
    ensures RemoveChar(x, c) == x
    decreases |x|
  {
    if |x| > 0 {
      RemoveAbsent(x[1..], c);
      assert [x[0]] + x[1..] == x;
    }
  }

  lemma {:induction false} StripEnds(x: string, c: char)
    ensures RemoveChar([c] + x, c) == RemoveChar(x, c)
    ensures RemoveChar(x + [c], c) == RemoveChar(x, c)
    decreases |x|
  {
    assert ([c] + x)[1..] == x;
    if |x| > 0 {
      StripEnds(x[1..], c);
      assert (x + [c])[1..] == x[1..] + [c];
    } else {
      assert x + [c] == [c];
    }
  }

  /** Writing a list of bracket-free labels as `[a][b]...` and reading the
      mapping back gives the same labels. */
  lemma BracketedRoundTrip(ls: seq<string>)
    requires |ls| > 0
    requires forall k :: 0 <= k < |ls| ==> '[' !in ls[k] && ']' !in ls[k]
    ensures Labels(Bracketed(ls)) == ls
  {
    var m := Bracketed(ls);
    assert m[0] == '[';
    var pieces := SplitOn(m, "][");
    if |ls| == 1 {
      SinglePiece(ls[0]);
    } else {
      JoinedPieces(ls);
    }
    var r := StripBrackets(pieces);
    assert forall k :: 0 <= k < |ls| ==> r[k] == ls[k];
  }

  /** The pieces of the mapping strip to the labels, one for one. */
  predicate PiecesStripTo(pieces: seq<string>, ls: seq<string>)
  {
    |pieces| == |ls| && forall k :: 0 <= k < |ls| ==> RemoveChar(RemoveChar(pieces[k], '['), ']') == ls[k]
  }

  lemma SinglePiece(l: string)
    requires '[' !in l && ']' !in l
    ensures PiecesStripTo(SplitOn(Bracketed([l]), "]["), [l])
  {
    JoinSingle(l, "][");
    assert Bracketed([l]) == "[" + l + "]";
    SplitEndingClose("[" + l);
    assert "[" + l + "]" == ['['] + (l + "]");
    StripEnds(l + "]", '[');
    RemoveAbsent(l + "]", '[');
    StripEnds(l, ']');
    RemoveAbsent(l, ']');
  }

  lemma JoinedPieces(ls: seq<string>)
    requires |ls| > 1
    requires forall k :: 0 <= k < |ls| ==> '[' !in ls[k] && ']' !in ls[k]
    ensures PiecesStripTo(SplitOn(Bracketed(ls), "]["), ls)
  {
    var n := |ls|;
    JoinCons(ls[0], ls[1..], "][");
    assert ls == [ls[0]] + ls[1..];
    assert Bracketed(ls) == "[" + ls[0] + "][" + Join(ls[1..], "][") + "]";
    SplitJoined("[" + ls[0], ls[1..]);
    var pieces := SplitOn(Bracketed(ls), "][");
    assert pieces == ["[" + ls[0]] + ls[1..][..n - 2] + [ls[n - 1] + "]"];
    forall k | 0 <= k < n
      ensures RemoveChar(RemoveChar(pieces[k], '['), ']') == ls[k]
    {
      if k == 0 {
        OpenPiece(ls[0]);
      } else if k == n - 1 {
        ClosePiece(ls[k]);
      } else {
        assert pieces[k] == ls[k];
        StripPlain(ls[k]);
      }
    }
  }

  lemma OpenPiece(l: string)
    requires '[' !in l && ']' !in l
    ensures RemoveChar(RemoveChar("[" + l, '['), ']') == l
  {
    assert "[" + l == ['['] + l;
    StripEnds(l, '[');
    RemoveAbsent(l, '[');
    RemoveAbsent(l, ']');
  }

  lemma ClosePiece(l: string)
    requires '[' !in l && ']' !in l
    ensures RemoveChar(RemoveChar(l + "]", '['), ']') == l
  {
    assert l + "]" == l + [']'];
    RemoveAbsent(l + [']'], '[');
    StripEnds(l, ']');
    RemoveAbsent(l, ']');
  }
}

=== FILE: equation.dfy ===
/** The text of an isotopomer reaction equation. Two views of the same
    output: `RawEquation` follows the source's append-then-trim string
    building step by step (`s += ...`, `s = s[:-k]`), and `Render` states
    the resulting shape directly. `Build` is the whole of
    `make_isotopomerRxnEquations_INCA`. Python's `str` of a float is the
    parameter `fmt`. */
module EquationText {
  import opened Wrappers
  import opened Text
  import opened AtomMapping
  import opened ReactionPlan

  function CoefText(c: Coef, fmt: real -> string): (r: string)
  {
    match c
    case Num(x) => fmt(x)
    case PseudoTiny => PseudoReactantText
  }

  /** `coef*id`, the start of every clause. */
  function Head(c: Clause, fmt: real -> string): (r: string)
  {
    match c
    case Bare(x, i) => fmt(x) + "*" + i
    case Mapped(k, t) => CoefText(k, fmt) + "*" + t.id
    case Pseudo(k, t) => CoefText(k, fmt) + "*" + t.id
  }

  /** The source can print the clause: a non-empty mapping needs an
      element and a position for every label (otherwise IndexError). */
  predicate Printable(c: Clause)
  {
    c.Bare? || c.entry.mapping == "" || HasAtoms(c.entry)
  }

  predicate AllPrintable(cs: seq<Clause>)
  {
    forall k :: 0 <= k < |cs| ==> Printable(cs[k])
  }

  predicate AllClosed(cs: seq<Clause>)
  {
    forall k :: 0 <= k < |cs| ==> Closed(cs[k])
  }

  function Arrow(reversible: bool): (r: string)
  {
    if reversible then "<->" else "->"
  }

  // ---------------------------------------------------------------------
  // The source's string building

  /** The token loop: `s += token + ' '` for every token. */
  function AppendTokens(acc: string, toks: seq<string>): (r: string)
    decreases |toks|
  {
    if |toks| == 0 then acc else AppendTokens(acc + toks[0] + " ", toks[1..])
  }

  /** One clause appended to the equation text: a bare clause adds
      `coef*id + `; an atom clause adds `coef*id (`, then, when the mapping
      is non-empty, the tokens, drops the last space and adds `) + `. */
  function EmitClause(acc: string, c: Clause, fmt: real -> string): (r: string)
    requires Printable(c)
  {
    if c.Bare? then acc + Head(c, fmt) + " " + "+ "
    else
      var open := acc + Head(c, fmt) + " " + "(";
      if c.entry.mapping != "" then DropLast(AppendTokens(open, AtomTokens(c.entry)), 1) + ") " + "+ "
      else open
  }

  function EmitSide(acc: string, cs: seq<Clause>, fmt: real -> string): (r: string)
    requires AllPrintable(cs)
    decreases |cs|
  {
    if |cs| == 0 then acc else EmitSide(EmitClause(acc, cs[0], fmt), cs[1..], fmt)
  }

  /** Reactants, `[:-2]`, the arrow with two spaces, the products (the
      first product participant trims one character first), `[:-2]`. */
  function RawEquation(p: Plan, fmt: real -> string): (r: string)
    requires AllPrintable(p.reactants) && AllPrintable(p.products)
  {
    var afterReactants := DropLast(EmitSide("", p.reactants, fmt), 2) + Arrow(p.reversible) + "  ";
    var afterProducts :=
      if p.hasProducts then EmitSide(DropLast(afterReactants, 1), p.products, fmt) else afterReactants;
    DropLast(afterProducts, 2)
  }

  /** `make_isotopomerRxnEquations_INCA`: the equation text, or None where
      the source raises IndexError while printing an atom clause. */
  function Build(rx: Reaction, fmt: real -> string): (r: Option<string>)
    ensures r.Some? <==> AllPrintable(PlanReaction(rx).reactants) && AllPrintable(PlanReaction(rx).products)
  {
    var p := PlanReaction(rx);
    if AllPrintable(p.reactants) && AllPrintable(p.products) then Some(RawEquation(p, fmt)) else None
  }

  // ---------------------------------------------------------------------
  // The shape of the output

  /** The text of a closed clause: `coef*id` or `coef*id (atoms)`. */
  function ClauseText(c: Clause, fmt: real -> string): (r: string)
    requires Closed(c) && Printable(c)
  {
    if c.Bare? then Head(c, fmt) else Head(c, fmt) + " " + AtomClause(c.entry)
  }

  function Texts(cs: seq<Clause>, fmt: real -> string): (r: seq<string>)
    requires AllClosed(cs) && AllPrintable(cs)
    ensures |r| == |cs|
  {
    seq(|cs|, k requires 0 <= k < |cs| => ClauseText(cs[k], fmt))
  }

  /** The equation of a plan whose clauses are all closed: the reactant
      clauses joined by ` + ` and a space, the arrow, then a space, the
      product clauses joined by ` + ` and a trailing space. With no product
      participant the arrow ends the text; with product participants that
      emit no clause the arrow loses its last character. */
  function Render(p: Plan, fmt: real -> string): (r: string)
    requires AllClosed(p.reactants) && AllPrintable(p.reactants)
    requires AllClosed(p.products) && AllPrintable(p.products)
  {
    var left := if |p.reactants| > 0 then Join(Texts(p.reactants, fmt), " + ") + " " else "";
    var arrow := Arrow(p.reversible);
    if !p.hasProducts then left + arrow
    else if |p.products| == 0 then left + DropLast(arrow, 1)
    else left + arrow + " " + Join(Texts(p.products, fmt), " + ") + " "
  }

  // ---------------------------------------------------------------------
  // Lemmas

  /** One step of the clause loop. */
  lemma EmitSideCons(acc: string, cs: seq<Clause>, fmt: real -> string)
    requires |cs| > 0 && AllPrintable(cs)
    ensures Printable(cs[0]) && AllPrintable(cs[1..])
    ensures EmitSide(acc, cs, fmt) == EmitSide(EmitClause(acc, cs[0], fmt), cs[1..], fmt)
  {
  }


  /** The token loop adds the tokens separated and followed by a space. */
  lemma {:induction false} AppendTokensJoin(acc: string, toks: seq<string>)
    requires |toks| > 0
    ensures AppendTokens(acc, toks) == acc + Join(toks, " ") + " "
    decreases |toks|
  {
    if |toks| == 1 {
      assert AppendTokens(acc + toks[0] + " ", toks[1..]) == acc + toks[0] + " ";
    } else {
      AppendTokensJoin(acc + toks[0] + " ", toks[1..]);
      JoinCons(toks[0], toks[1..], " ");
      assert toks == [toks[0]] + toks[1..];
    }
  }

  /** A closed clause adds its text followed by ` + `. */
  lemma EmitClosedClause(acc: string, c: Clause, fmt: real -> string)
    requires Closed(c) && Printable(c)
    ensures EmitClause(acc, c, fmt) == acc + ClauseText(c, fmt) + " + "
  {
    if !c.Bare? {
      var h := Head(c, fmt);
      var toks := AtomTokens(c.entry);
      NonEmptyMappingHasLabels(c.entry.mapping);
      AppendTokensJoin(acc + h + " " + "(", toks);
      AtomClauseShape(acc, h, Join(toks, " "));
    }
  }

  /** The string arithmetic of one atom clause: dropping the space after
      the last token and adding `) + ` leaves `h (tokens)` followed by ` + `. */
  lemma AtomClauseShape(acc: string, h: string, j: string)
    ensures DropLast(acc + h + " " + "(" + j + " ", 1) + ") " + "+ " == acc + (h + " " + ("(" + j + ")")) + " + "
  {
    var open := acc + h + " " + "(";
    var full := open + j + " ";
    assert full[..|full| - 1] == open + j;
  }

  /** A non-empty list of closed clauses adds their texts joined by ` + `,
      followed by ` + `. */
  lemma {:induction false} EmitClosedSide(acc: string, cs: seq<Clause>, fmt: real -> string)
    requires |cs| > 0 && AllClosed(cs) && AllPrintable(cs)
    ensures EmitSide(acc, cs, fmt) == acc + Join(Texts(cs, fmt), " + ") + " + "
    decreases |cs|
  {
    EmitSideCons(acc, cs, fmt);
    ClosedCons(cs);
    var t0 := ClauseText(cs[0], fmt);
    EmitClosedClause(acc, cs[0], fmt);
    var acc1 := acc + t0 + " + ";
    TextsCons(cs, fmt);
    if |cs| == 1 {
      JoinSingle(t0, " + ");
    } else {
      var rest := Texts(cs[1..], fmt);
      EmitClosedSide(acc1, cs[1..], fmt);
      JoinCons(t0, rest, " + ");
      Reassociate(acc, t0, " + ", Join(rest, " + "));
    }
  }

  lemma ClosedCons(cs: seq<Clause>)
    requires |cs| > 0 && AllClosed(cs)
    ensures Closed(cs[0]) && AllClosed(cs[1..])
  {
  }

  /** The clause texts of a non-empty list: the first, then the rest. */
  lemma TextsCons(cs: seq<Clause>, fmt: real -> string)
    requires |cs| > 0 && AllClosed(cs) && AllPrintable(cs)
    ensures AllClosed(cs[1..]) && AllPrintable(cs[1..])
    ensures Texts(cs, fmt) == [ClauseText(cs[0], fmt)] + Texts(cs[1..], fmt)
  {
    assert Texts(cs, fmt)[1..] == Texts(cs[1..], fmt);
  }

  lemma TextsOne(cs: seq<Clause>, fmt: real -> string)
    requires |cs| == 1 && AllClosed(cs) && AllPrintable(cs)
    ensures Texts(cs, fmt) == [ClauseText(cs[0], fmt)]
  {
  }

  lemma TextsTwo(cs: seq<Clause>, fmt: real -> string)
    requires |cs| == 2 && AllClosed(cs) && AllPrintable(cs)
    ensures Texts(cs, fmt) == [ClauseText(cs[0], fmt), ClauseText(cs[1], fmt)]
  {
  }

  lemma Reassociate(a: string, b: string, sep: string, c: string)
    ensures a + b + sep + c + sep == a + (b + sep + c) + sep
  {
  }

  /** When every clause is closed, the source's string building produces
      exactly the rendered shape. */
  lemma RawMatchesRender(p: Plan, fmt: real -> string)
    requires AllClosed(p.reactants) && AllPrintable(p.reactants)
    requires AllClosed(p.products) && AllPrintable(p.products)
    ensures RawEquation(p, fmt) == Render(p, fmt)
  {
    var left := if |p.reactants| > 0 then Join(Texts(p.reactants, fmt), " + ") + " " else "";
    var arrow := Arrow(p.reversible);
    ReactantText(p.reactants, fmt);
    TrimOne(left + arrow);
    if !p.hasProducts {
      TrimTwo(left + arrow);
    } else if |p.products| == 0 {
      TrimArrow(left, arrow);
    } else {
      EmitClosedSide(left + arrow + " ", p.products, fmt);
      TrimSeparator(left + arrow + " " + Join(Texts(p.products, fmt), " + "));
    }
  }

  /** The reactant side after its final `[:-2]`. */
  lemma ReactantText(cs: seq<Clause>, fmt: real -> string)
    requires AllClosed(cs) && AllPrintable(cs)
    ensures DropLast(EmitSide("", cs, fmt), 2) == if |cs| > 0 then Join(Texts(cs, fmt), " + ") + " " else ""
  {
    if |cs| > 0 {
      var j := Join(Texts(cs, fmt), " + ");
      EmitClosedSide("", cs, fmt);
      EmptyTail(j);
      TrimSeparator(j);
    }
  }

  lemma TrimOne(x: string)
    ensures DropLast(x + "  ", 1) == x + " "
  {
    assert (x + "  ")[..|x| + 1] == x + " ";
  }

  lemma TrimTwo(x: string)
    ensures DropLast(x + "  ", 2) == x
  {
    assert (x + "  ")[..|x|] == x;
  }

  lemma TrimSeparator(x: string)
    ensures DropLast(x + " + ", 2) == x + " "
  {
    assert (x + " + ")[..|x| + 1] == x + " ";
  }

  lemma TrimArrow(left: string, arrow: string)
    requires |arrow| > 0
    ensures DropLast(left + arrow + " ", 2) == left + DropLast(arrow, 1)
  {
    assert (left + arrow + " ")[..|left| + |arrow| - 1] == left + arrow[..|arrow| - 1];
  }
}

=== FILE: equation_examples.dfy ===
/** Worked equations for fixed inputs, one per behaviour of the builder
    that the general lemmas leave implicit: a tracked participant split
    into a mapped part and an untracked remainder, the raw coefficient of
    a product split, the unclosed clause of an empty mapping, and a
    reactant-side pseudo-metabolite. `fmt` stays a parameter. */
module EquationExamples {
  import opened Wrappers
  import opened Text
  import opened AtomMapping
  import opened ReactionPlan
  import opened EquationText

  /** One carbon at position 0 carrying label `lbl`. */
  function OneCarbon(id: string, s: real, lbl: string): (t: Tracked)
  {
    Tracked(id, s, ["C"], [0], lbl)
  }

  lemma OneCarbonText(id: string, s: real, lbl: char)
    requires lbl != '['
    ensures HasAtoms(OneCarbon(id, s, [lbl]))
    ensures AtomClause(OneCarbon(id, s, [lbl])) == "(C1:" + [lbl] + ")"
  {
    var t := OneCarbon(id, s, [lbl]);
    assert '[' !in t.mapping;
    assert Labels(t.mapping) == Chars([lbl]) == [[lbl]];
    assert IntToString(0 + 1) == "1";
    var toks := AtomTokens(t);
    assert |toks| == 1;
    assert toks[0] == AtomToken("C", 0, [lbl]) == "C" + "1" + ":" + [lbl] == "C1:" + [lbl];
    assert toks == ["C1:" + [lbl]];
  }

  /** The text of a one-carbon clause. */
  lemma MappedText(k: Coef, id: string, s: real, lbl: char, fmt: real -> string)
    requires lbl != '['
    ensures var c := Mapped(k, OneCarbon(id, s, [lbl]));
      Closed(c) && Printable(c) && ClauseText(c, fmt) == CoefText(k, fmt) + "*" + id + " " + ("(C1:" + [lbl] + ")")
  {
    OneCarbonText(id, s, lbl);
  }

  lemma PseudoClauseText(k: Coef, id: string, s: real, lbl: char, fmt: real -> string)
    requires lbl != '['
    ensures var c := Pseudo(k, OneCarbon(id, s, [lbl]));
      Closed(c) && Printable(c) && ClauseText(c, fmt) == CoefText(k, fmt) + "*" + id + " " + ("(C1:" + [lbl] + ")")
  {
    OneCarbonText(id, s, lbl);
  }

  lemma BareText(x: real, id: string, fmt: real -> string)
    ensures Closed(Bare(x, id)) && Printable(Bare(x, id)) && ClauseText(Bare(x, id), fmt) == fmt(x) + "*" + id
  {
  }

  /** The text of a closed plan with two reactant clauses and one product clause. */
  lemma RenderTwoOne(p: Plan, fmt: real -> string, a: string, b: string, c: string)
    requires |p.reactants| == 2 && |p.products| == 1 && p.hasProducts
    requires AllClosed(p.reactants) && AllPrintable(p.reactants)
    requires AllClosed(p.products) && AllPrintable(p.products)
    requires ClauseText(p.reactants[0], fmt) == a && ClauseText(p.reactants[1], fmt) == b
    requires ClauseText(p.products[0], fmt) == c
    ensures RawEquation(p, fmt) == a + " + " + b + " " + Arrow(p.reversible) + " " + c + " "
  {
    RawMatchesRender(p, fmt);
    TextsTwo(p.reactants, fmt);
    TextsOne(p.products, fmt);
    JoinPair(a, b, " + ");
    JoinSingle(c, " + ");
  }

  /** The text of a closed plan with one reactant clause and two product clauses. */
  lemma RenderOneTwo(p: Plan, fmt: real -> string, a: string, b: string, c: string)
    requires |p.reactants| == 1 && |p.products| == 2 && p.hasProducts
    requires AllClosed(p.reactants) && AllPrintable(p.reactants)
    requires AllClosed(p.products) && AllPrintable(p.products)
    requires ClauseText(p.reactants[0], fmt) == a
    requires ClauseText(p.products[0], fmt) == b && ClauseText(p.products[1], fmt) == c
    ensures RawEquation(p, fmt) == a + " " + Arrow(p.reversible) + " " + b + " + " + c + " "
  {
    RawMatchesRender(p, fmt);
    TextsOne(p.reactants, fmt);
    TextsTwo(p.products, fmt);
    JoinSingle(a, " + ");
    JoinPair(b, c, " + ");
  }

  function SplitReactantRx(): (rx: Reaction)
  {
    Reaction(Side([Participant("a", 3.0)], [OneCarbon("a", 1.0, "x")]), Side([Participant("b", 1.0)], []), false)
  }

  lemma SplitReactantPlan()
    ensures PlanReaction(SplitReactantRx())
         == Plan([Mapped(Num(1.0), OneCarbon("a", 1.0, "x")), Bare(2.0, "a")], [Bare(1.0, "b")], false, true)
  {
    var t := OneCarbon("a", 1.0, "x");
    assert TrackedIds([t]) == ["a"];
  }

  lemma SplitReactantText(fmt: real -> string)
    ensures var p := Plan([Mapped(Num(1.0), OneCarbon("a", 1.0, "x")), Bare(2.0, "a")], [Bare(1.0, "b")], false, true);
      && AllPrintable(p.reactants) && AllPrintable(p.products)
      && RawEquation(p, fmt) == fmt(1.0) + "*a (C1:x) + " + fmt(2.0) + "*a -> " + fmt(1.0) + "*b "
  {
    var p := Plan([Mapped(Num(1.0), OneCarbon("a", 1.0, "x")), Bare(2.0, "a")], [Bare(1.0, "b")], false, true);
    MappedText(Num(1.0), "a", 1.0, 'x', fmt);
    BareText(2.0, "a", fmt);
    BareText(1.0, "b", fmt);
    RenderTwoOne(p, fmt, fmt(1.0) + "*" + "a" + " " + ("(C1:" + "x" + ")"), fmt(2.0) + "*" + "a", fmt(1.0) + "*" + "b");
    SplitReactantGlue(fmt(1.0), fmt(2.0), fmt(1.0));
  }

  lemma SplitReactantGlue(f: string, g: string, h: string)
    ensures (f + "*" + "a" + " " + ("(C1:" + "x" + ")")) + " + " + (g + "*" + "a") + " " + Arrow(false) + " " + (h + "*" + "b") + " "
         == f + "*a (C1:x) + " + g + "*a -> " + h + "*b "
  {
  }

  /** `3*a -> b` with one carbon of one a tracked: the mapped share is
      printed with its atoms and the untracked remainder 2 follows. */
  lemma SplitReactant(fmt: real -> string)
    ensures Build(SplitReactantRx(), fmt) == Some(fmt(1.0) + "*a (C1:x) + " + fmt(2.0) + "*a -> " + fmt(1.0) + "*b ")
  {
    SplitReactantPlan();
    SplitReactantText(fmt);
  }

  function SplitProductRx(): (rx: Reaction)
  {
    Reaction(Side([Participant("a", 1.0)], []), Side([Participant("c", 3.0)], [OneCarbon("c", -1.0, "x")]), true)
  }

  lemma SplitProductPlan()
    ensures PlanReaction(SplitProductRx())
         == Plan([Bare(1.0, "a")], [Mapped(Num(-1.0), OneCarbon("c", -1.0, "x")), Bare(2.0, "c")], true, true)
  {
    var t := OneCarbon("c", -1.0, "x");
    assert TrackedIds([t]) == ["c"];
  }

  lemma SplitProductText(fmt: real -> string)
    ensures var p := Plan([Bare(1.0, "a")], [Mapped(Num(-1.0), OneCarbon("c", -1.0, "x")), Bare(2.0, "c")], true, true);
      && AllPrintable(p.reactants) && AllPrintable(p.products)
      && RawEquation(p, fmt) == fmt(1.0) + "*a <-> " + fmt(-1.0) + "*c (C1:x) + " + fmt(2.0) + "*c "
  {
    var p := Plan([Bare(1.0, "a")], [Mapped(Num(-1.0), OneCarbon("c", -1.0, "x")), Bare(2.0, "c")], true, true);
    MappedText(Num(-1.0), "c", -1.0, 'x', fmt);
    BareText(1.0, "a", fmt);
    BareText(2.0, "c", fmt);
    RenderOneTwo(p, fmt, fmt(1.0) + "*" + "a", fmt(-1.0) + "*" + "c" + " " + ("(C1:" + "x" + ")"), fmt(2.0) + "*" + "c");
    SplitProductGlue(fmt(1.0), fmt(-1.0), fmt(2.0));
  }

  lemma SplitProductGlue(f: string, g: string, h: string)
    ensures (f + "*" + "a") + " " + Arrow(true) + " " + (g + "*" + "c" + " " + ("(C1:" + "x" + ")")) + " + " + (h + "*" + "c") + " "
         == f + "*a <-> " + g + "*c (C1:x) + " + h + "*c "
  {
  }

  /** On the product side a split prints the tracked stoichiometry as
      given, sign included. */
  lemma SplitProductPrintsRaw(fmt: real -> string)
    ensures Build(SplitProductRx(), fmt) == Some(fmt(1.0) + "*a <-> " + fmt(-1.0) + "*c (C1:x) + " + fmt(2.0) + "*c ")
  {
    SplitProductPlan();
    SplitProductText(fmt);
  }

  function UnclosedRx(): (rx: Reaction)
  {
    Reaction(Side([Participant("a", 2.0)], [Tracked("a", 2.0, [], [], "")]), Side([Participant("b", 1.0)], []), true)
  }

  lemma UnclosedPlan()
    ensures PlanReaction(UnclosedRx())
         == Plan([Mapped(Num(2.0), Tracked("a", 2.0, [], [], "")), Bare(2.0, "a")], [Bare(1.0, "b")], true, true)
  {
    var t := Tracked("a", 2.0, [], [], "");
    assert TrackedIds([t]) == ["a"];
  }

  /** An empty mapping leaves `(` open, subtracts nothing, and the whole
      amount is repeated as an untracked remainder right after it. */
  lemma UnclosedClause(fmt: real -> string)
    ensures Build(UnclosedRx(), fmt) == Some(fmt(2.0) + "*a (" + fmt(2.0) + "*a <-> " + fmt(1.0) + "*b ")
  {
    var p := PlanReaction(UnclosedRx());
    UnclosedPlan();
    var left := fmt(2.0) + "*a (" + fmt(2.0) + "*a ";
    UnclosedReactantSide(fmt);
    TrimTwo(left + "+");
    assert left + "+ " == (left + "+") + " ";
    assert DropLast(left + "+ ", 2) == left by {
      assert (left + "+ ")[..|left|] == left;
    }
    TrimOne(left + "<->");
    BareProductSide(left + "<->" + " ", fmt(1.0), fmt);
    assert DropLast(left + "<->" + " " + fmt(1.0) + "*b" + " " + "+ ", 2) == left + "<->" + " " + fmt(1.0) + "*b" + " " by {
      TrimTail(left + "<->" + " " + fmt(1.0) + "*b" + " ");
    }
    UnclosedGlue(fmt(2.0), fmt(1.0));
  }

  lemma UnclosedReactantSide(fmt: real -> string)
    ensures var cs := [Mapped(Num(2.0), Tracked("a", 2.0, [], [], "")), Bare(2.0, "a")];
      && AllPrintable(cs)
      && EmitSide("", cs, fmt) == fmt(2.0) + "*a (" + fmt(2.0) + "*a " + "+ "
  {
    var cs := [Mapped(Num(2.0), Tracked("a", 2.0, [], [], "")), Bare(2.0, "a")];
    EmitSideCons("", cs, fmt);
    var r1 := EmitClause("", cs[0], fmt);
    assert r1 == "" + (fmt(2.0) + "*" + "a") + " " + "(";
    assert cs[1..] == [Bare(2.0, "a")];
    EmitSideCons(r1, cs[1..], fmt);
    assert cs[1..][1..] == [];
    OpenThenBare(fmt(2.0));
  }

  lemma OpenThenBare(f: string)
    ensures "" + (f + "*" + "a") + " " + "(" + (f + "*" + "a") + " " + "+ " == f + "*a (" + f + "*a " + "+ "
  {
  }

  /** A single bare product after the arrow. */
  lemma BareProductSide(acc: string, h: string, fmt: real -> string)
    requires h == fmt(1.0)
    ensures AllPrintable([Bare(1.0, "b")])
    ensures EmitSide(acc, [Bare(1.0, "b")], fmt) == acc + h + "*b" + " " + "+ "
  {
    var cs := [Bare(1.0, "b")];
    EmitSideCons(acc, cs, fmt);
    assert cs[1..] == [];
    assert acc + (h + "*" + "b") + " " + "+ " == acc + h + "*b" + " " + "+ ";
  }

  lemma TrimTail(x: string)
    ensures DropLast(x + "+ ", 2) == x
  {
    assert (x + "+ ")[..|x|] == x;
  }

  lemma UnclosedGlue(f: string, h: string)
    ensures f + "*a (" + f + "*a " + "<->" + " " + h + "*b" + " " == f + "*a (" + f + "*a <-> " + h + "*b "
  {
  }

  function PseudoRx(): (rx: Reaction)
  {
    Reaction(
      Side([Participant("a", 1.0)], [OneCarbon("a", 1.0, "x"), OneCarbon("co2.p", PseudoReactantStoich, "y")]),
      Side([Participant("b", 1.0)], []),
      true)
  }

  lemma PseudoScan()
    ensures ScanAll(Reactants, "a", ["a"], [OneCarbon("a", 1.0, "x"), OneCarbon("co2.p", PseudoReactantStoich, "y")], Scan([], 1.0, []))
         == Scan([Mapped(Num(1.0), OneCarbon("a", 1.0, "x")), Pseudo(PseudoTiny, OneCarbon("co2.p", PseudoReactantStoich, "y"))], 0.0, ["co2.p"])
  {
    var t := OneCarbon("a", 1.0, "x");
    var u := OneCarbon("co2.p", PseudoReactantStoich, "y");
    var st1 := Step(Reactants, "a", ["a"], t, Scan([], 1.0, []));
    assert st1 == Scan([Mapped(Num(1.0), t)], 0.0, []);
    assert "co2.p" !in ["a"];
    var st2 := Step(Reactants, "a", ["a"], u, st1);
    assert st2 == Scan([Mapped(Num(1.0), t), Pseudo(PseudoTiny, u)], 0.0, ["co2.p"]);
    assert [t, u][1..] == [u];
    assert ScanAll(Reactants, "a", ["a"], [u], st1) == st2;
  }

  lemma PseudoPlan()
    ensures PlanReaction(PseudoRx())
         == Plan([Mapped(Num(1.0), OneCarbon("a", 1.0, "x")), Pseudo(PseudoTiny, OneCarbon("co2.p", PseudoReactantStoich, "y"))],
                 [Bare(1.0, "b")], true, true)
  {
    var t := OneCarbon("a", 1.0, "x");
    var u := OneCarbon("co2.p", PseudoReactantStoich, "y");
    assert TrackedIds([t, u]) == ["a", "co2.p"];
    assert Ids([Participant("a", 1.0)]) == ["a"];
    PseudoScan();
  }

  lemma PseudoText(fmt: real -> string)
    ensures var p := Plan([Mapped(Num(1.0), OneCarbon("a", 1.0, "x")), Pseudo(PseudoTiny, OneCarbon("co2.p", PseudoReactantStoich, "y"))],
                          [Bare(1.0, "b")], true, true);
      && AllPrintable(p.reactants) && AllPrintable(p.products)
      && RawEquation(p, fmt) == fmt(1.0) + "*a (C1:x)" + " + " + PseudoReactantText + "*co2.p (C1:y)" + " <-> " + fmt(1.0) + "*b" + " "
  {
    var p := Plan([Mapped(Num(1.0), OneCarbon("a", 1.0, "x")), Pseudo(PseudoTiny, OneCarbon("co2.p", PseudoReactantStoich, "y"))],
                  [Bare(1.0, "b")], true, true);
    MappedText(Num(1.0), "a", 1.0, 'x', fmt);
    PseudoClauseText(PseudoTiny, "co2.p", PseudoReactantStoich, 'y', fmt);
    BareText(1.0, "b", fmt);
    RenderTwoOne(p, fmt, fmt(1.0) + "*" + "a" + " " + ("(C1:" + "x" + ")"),
                 PseudoReactantText + "*" + "co2.p" + " " + ("(C1:" + "y" + ")"), fmt(1.0) + "*" + "b");
    PseudoGlue(fmt(1.0), PseudoReactantText);
  }

  lemma PseudoGlue(f: string, q: string)
    ensures (f + "*" + "a" + " " + ("(C1:" + "x" + ")")) + " + " + (q + "*" + "co2.p" + " " + ("(C1:" + "y" + ")")) + " " + Arrow(true) + " " + (f + "*" + "b") + " "
         == f + "*a (C1:x)" + " + " + q + "*co2.p (C1:y)" + " <-> " + f + "*b" + " "
  {
  }

  /** A reactant-side orphan with the sentinel stoichiometry is printed
      once with the literal coefficient, right where the scan meets it. */
  lemma PseudoReactant(fmt: real -> string)
    ensures Build(PseudoRx(), fmt) == Some(fmt(1.0) + "*a (C1:x)" + " + " + PseudoReactantText + "*co2.p (C1:y)" + " <-> " + fmt(1.0) + "*b" + " ")
  {
    PseudoPlan();
    PseudoText(fmt);
  }
}

=== FILE: equation_props.dfy ===
/** Properties of the equation text produced by `Build`: its shape when
    every mapping is usable, the role of the reversibility flag, and the
    output for exchange, split and unclosed cases. */
module EquationProperties {
  import opened Wrappers
  import opened Text
  import opened AtomMapping
  import opened ReactionPlan
  import opened EquationText
  import opened PlanProperties

  /** Every tracked entry has a non-empty mapping with an element and a
      position for each label. */
  predicate WellMapped(ts: seq<Tracked>)
  {
    forall k :: 0 <= k < |ts| ==> ts[k].mapping != "" && HasAtoms(ts[k])
  }

  lemma MirrorWellMapped(from: Side, own: Side)
    requires |from.participants| == 1
    requires WellMapped(from.tracked) && WellMapped(own.tracked)
    ensures WellMapped(Mirror(from, own).tracked)
  {
    if |from.tracked| > 0 && from.tracked[0].id != "" {
      var t := from.tracked[0];
      assert Labels(Exchange(t).mapping) == Labels(t.mapping);
    }
  }

  /** Exchange synthesis keeps every tracked list well mapped. */
  lemma NormaliseWellMapped(rx: Reaction)
    requires WellMapped(rx.reactants.tracked) && WellMapped(rx.products.tracked)
    ensures WellMapped(Normalise(rx).reactants.tracked) && WellMapped(Normalise(rx).products.tracked)
  {
    var rs := rx.reactants;
    var ps := rx.products;
    if |rs.participants| == 0 && |ps.participants| == 1 {
      MirrorWellMapped(ps, rs);
    } else if |ps.participants| == 0 && |rs.participants| == 1 {
      MirrorWellMapped(rs, ps);
    }
  }

  /** Clauses whose entries come from a well-mapped list are closed and
      printable. */
  lemma FittingClausesClosed(role: Role, sideIds: seq<string>, ts: seq<Tracked>, cs: seq<Clause>)
    requires WellMapped(ts) && SideFits(role, sideIds, ts, cs)
    ensures AllClosed(cs) && AllPrintable(cs)
  {
    forall k | 0 <= k < |cs|
      ensures Closed(cs[k]) && Printable(cs[k])
    {
      assert FitsSide(role, sideIds, ts, cs[k]);
      if !cs[k].Bare? {
        var i :| 0 <= i < |ts| && ts[i] == cs[k].entry;
      }
    }
  }

  /** When every tracked entry of the reaction has a usable, non-empty
      mapping, the source returns the rendered equation: reactant clauses
      joined by ` + `, the arrow, the product clauses joined by ` + ` and
      a trailing space. */
  lemma WellMappedOutput(rx: Reaction, fmt: real -> string)
    requires WellMapped(rx.reactants.tracked) && WellMapped(rx.products.tracked)
    ensures var p := PlanReaction(rx);
      && AllClosed(p.reactants) && AllPrintable(p.reactants)
      && AllClosed(p.products) && AllPrintable(p.products)
      && Build(rx, fmt) == Some(Render(p, fmt))
  {
    var n := Normalise(rx);
    var p := PlanReaction(rx);
    NormaliseWellMapped(rx);
    PlanFits(rx);
    FittingClausesClosed(Reactants, Ids(n.reactants.participants), n.reactants.tracked, p.reactants);
    FittingClausesClosed(Products, Ids(n.products.participants), n.products.tracked, p.products);
    RawMatchesRender(p, fmt);
  }

  /** The source can print an entry: an empty mapping prints nothing,
      a non-empty one needs an element and a position per label. */
  predicate Usable(t: Tracked)
  {
    t.mapping == "" || HasAtoms(t)
  }

  predicate AllUsable(ts: seq<Tracked>)
  {
    forall k :: 0 <= k < |ts| ==> Usable(ts[k])
  }

  lemma MirrorUsable(from: Side, own: Side)
    requires |from.participants| == 1
    requires AllUsable(from.tracked) && AllUsable(own.tracked)
    ensures AllUsable(Mirror(from, own).tracked)
  {
    if |from.tracked| > 0 && from.tracked[0].id != "" {
      var t := from.tracked[0];
      assert Usable(t);
      assert Labels(Exchange(t).mapping) == Labels(t.mapping);
    }
  }

  lemma NormaliseUsable(rx: Reaction)
    requires AllUsable(rx.reactants.tracked) && AllUsable(rx.products.tracked)
    ensures AllUsable(Normalise(rx).reactants.tracked) && AllUsable(Normalise(rx).products.tracked)
  {
    var rs := rx.reactants;
    var ps := rx.products;
    if |rs.participants| == 0 && |ps.participants| == 1 {
      MirrorUsable(ps, rs);
    } else if |ps.participants| == 0 && |rs.participants| == 1 {
      MirrorUsable(rs, ps);
    }
  }

  /** Clauses whose entries come from a usable list can be printed. */
  lemma UsableClausesPrintable(role: Role, sideIds: seq<string>, ts: seq<Tracked>, cs: seq<Clause>)
    requires AllUsable(ts) && SideFits(role, sideIds, ts, cs)
    ensures AllPrintable(cs)
  {
    forall k | 0 <= k < |cs|
      ensures Printable(cs[k])
    {
      assert FitsSide(role, sideIds, ts, cs[k]);
      if !cs[k].Bare? {
        var i :| 0 <= i < |ts| && ts[i] == cs[k].entry;
        assert Usable(ts[i]);
      }
    }
  }

  /** The builder fails (IndexError) only on atom data: when it fails, some
      tracked entry of the input has a non-empty mapping with more labels
      than elements or positions. */
  lemma BuildFailsOnlyOnShortMapping(rx: Reaction, fmt: real -> string)
    ensures AllUsable(rx.reactants.tracked) && AllUsable(rx.products.tracked) ==> Build(rx, fmt).Some?
    ensures Build(rx, fmt).None? ==>
      exists t :: (t in rx.reactants.tracked || t in rx.products.tracked) && t.mapping != "" && !HasAtoms(t)
  {
    if AllUsable(rx.reactants.tracked) && AllUsable(rx.products.tracked) {
      var n := Normalise(rx);
      var p := PlanReaction(rx);
      NormaliseUsable(rx);
      PlanFits(rx);
      UsableClausesPrintable(Reactants, Ids(n.reactants.participants), n.reactants.tracked, p.reactants);
      UsableClausesPrintable(Products, Ids(n.products.participants), n.products.tracked, p.products);
    } else if !AllUsable(rx.reactants.tracked) {
      var k :| 0 <= k < |rx.reactants.tracked| && !Usable(rx.reactants.tracked[k]);
      assert rx.reactants.tracked[k] in rx.reactants.tracked;
    } else {
      var k :| 0 <= k < |rx.products.tracked| && !Usable(rx.products.tracked[k]);
      assert rx.products.tracked[k] in rx.products.tracked;
    }
  }

  // ---------------------------------------------------------------------
  // Reversibility

  lemma AppendTokensShift(acc: string, x: string, toks: seq<string>)
    ensures AppendTokens(acc + x, toks) == acc + AppendTokens(x, toks)
    decreases |toks|
  {
    if |toks| > 0 {
      AppendTokensShift(acc, x + toks[0] + " ", toks[1..]);
      assert acc + x + toks[0] + " " == acc + (x + toks[0] + " ");
    }
  }

  lemma AppendTokensGrows(x: string, toks: seq<string>)
    ensures |AppendTokens(x, toks)| >= |x|
    decreases |toks|
  {
    if |toks| > 0 {
      AppendTokensGrows(x + toks[0] + " ", toks[1..]);
    }
  }

  lemma DropLastShift(acc: string, y: string, k: nat)
    requires |y| >= k
    ensures DropLast(acc + y, k) == acc + DropLast(y, k)
  {
    assert (acc + y)[..|acc + y| - k] == acc + y[..|y| - k];
  }

  /** What a clause appends does not depend on the text before it. */
  lemma EmitClauseShift(acc: string, c: Clause, fmt: real -> string)
    requires Printable(c)
    ensures EmitClause(acc, c, fmt) == acc + EmitClause("", c, fmt)
  {
    var h := Head(c, fmt);
    if !c.Bare? {
      assert acc + h + " " + "(" == acc + (h + " " + "(");
      assert "" + h + " " + "(" == h + " " + "(";
      if c.entry.mapping != "" {
        var toks := AtomTokens(c.entry);
        AppendTokensShift(acc, h + " " + "(", toks);
        AppendTokensGrows(h + " " + "(", toks);
        DropLastShift(acc, AppendTokens(h + " " + "(", toks), 1);
      }
    }
  }

  lemma {:induction false} EmitSideShift(acc: string, cs: seq<Clause>, fmt: real -> string)
    requires AllPrintable(cs)
    ensures EmitSide(acc, cs, fmt) == acc + EmitSide("", cs, fmt)
    decreases |cs|
  {
    if |cs| > 0 {
      var e := EmitClause("", cs[0], fmt);
      EmitSideCons(acc, cs, fmt);
      EmitSideCons("", cs, fmt);
      EmitClauseShift(acc, cs[0], fmt);
      EmitSideShift(acc + e, cs[1..], fmt);
      EmitSideShift(e, cs[1..], fmt);
      AppendAssoc(acc, e, EmitSide("", cs[1..], fmt));
    }
  }

  /** The text after the reactants, before the final `[:-2]`. */
  function ArrowTail(p: Plan, fmt: real -> string): (y: string)
    requires AllPrintable(p.products)
    ensures |y| >= |Arrow(p.reversible)| + 1
  {
    if p.hasProducts then Arrow(p.reversible) + " " + EmitSide("", p.products, fmt)
    else Arrow(p.reversible) + "  "
  }

  /** The raw equation is the reactant text followed by the arrow tail. */
  lemma RawShape(p: Plan, fmt: real -> string)
    requires AllPrintable(p.reactants) && AllPrintable(p.products)
    ensures RawEquation(p, fmt) == DropLast(EmitSide("", p.reactants, fmt), 2) + DropLast(ArrowTail(p, fmt), 2)
  {
    var left := DropLast(EmitSide("", p.reactants, fmt), 2);
    var arrow := Arrow(p.reversible);
    var y := ArrowTail(p, fmt);
    var afterReactants := left + arrow + "  ";
    var afterProducts :=
      if p.hasProducts then EmitSide(DropLast(afterReactants, 1), p.products, fmt) else afterReactants;
    assert RawEquation(p, fmt) == DropLast(afterProducts, 2);
    if p.hasProducts {
      ProductsAfterArrow(left, arrow, p.products, fmt);
    }
    assert afterProducts == left + y;
    DropLastShift(left, y, 2);
  }

  /** The first product trims one of the arrow's two spaces, then the
      product clauses follow. */
  lemma ProductsAfterArrow(left: string, arrow: string, cs: seq<Clause>, fmt: real -> string)
    requires AllPrintable(cs)
    ensures EmitSide(DropLast(left + arrow + "  ", 1), cs, fmt) == left + (arrow + " " + EmitSide("", cs, fmt))
  {
    var x := left + arrow + "  ";
    assert DropLast(x, 1) == left + arrow + " " by {
      assert x[..|x| - 1] == left + arrow + " ";
    }
    EmitSideShift(left + arrow + " ", cs, fmt);
    var e := EmitSide("", cs, fmt);
    assert left + arrow + " " + e == left + (arrow + " " + e);
  }

  /** The tail of the reversible arrow is the irreversible one behind `<`. */
  lemma TailInsert(p: Plan, fmt: real -> string)
    requires AllPrintable(p.products)
    ensures DropLast(ArrowTail(p.(reversible := true), fmt), 2) == "<" + DropLast(ArrowTail(p.(reversible := false), fmt), 2)
    ensures |DropLast(ArrowTail(p.(reversible := false), fmt), 2)| > 0
    ensures DropLast(ArrowTail(p.(reversible := false), fmt), 2)[0] == '-'
  {
    var yt := ArrowTail(p.(reversible := true), fmt);
    var yf := ArrowTail(p.(reversible := false), fmt);
    assert yt == "<" + yf;
    DropLastShift("<", yf, 2);
    assert yf[0] == '-';
  }

  /** The reversible and the irreversible equation of the same reaction
      differ only by the `<` of the arrow: both fail or both succeed, and
      the reversible text is the irreversible one with `<` inserted before
      the `-` of its arrow, which comes right after the reactant side's
      text (the side's clauses without their last separator). */
  lemma ReversibilityOnlyArrow(rx: Reaction, fmt: real -> string)
    ensures var a := Build(rx.(reversible := true), fmt);
      var b := Build(rx.(reversible := false), fmt);
      && a.Some? == b.Some?
      && (a.Some? ==> var k := |DropLast(EmitSide("", PlanReaction(rx).reactants, fmt), 2)|;
            k < |b.value| && b.value[k] == '-' && a.value == b.value[..k] + "<" + b.value[k..])
  {
    var p := PlanReaction(rx);
    PlanIgnoresReversibility(rx, true);
    PlanIgnoresReversibility(rx, false);
    var pt := p.(reversible := true);
    var pf := p.(reversible := false);
    if AllPrintable(p.reactants) && AllPrintable(p.products) {
      var left := DropLast(EmitSide("", p.reactants, fmt), 2);
      RawShape(pt, fmt);
      RawShape(pf, fmt);
      TailInsert(p, fmt);
      var tf := DropLast(ArrowTail(pf, fmt), 2);
      var b := RawEquation(pf, fmt);
      assert b == left + tf;
      assert RawEquation(pt, fmt) == left + ("<" + tf);
      assert tf[0] == '-';
      InsertBeforeDash(left, tf, RawEquation(pt, fmt), b);
    }
  }

  lemma InsertBeforeDash(left: string, tf: string, a: string, b: string)
    requires b == left + tf && a == left + ("<" + tf) && |tf| > 0 && tf[0] == '-'
    ensures |left| < |b| && b[|left|] == '-' && a == b[..|left|] + "<" + b[|left|..]
  {
    assert b[..|left|] == left && b[|left|..] == tf;
  }

  // ---------------------------------------------------------------------
  // Exchange reactions and fixed examples

  /** The text of a plan with one bare clause on each side. */
  lemma OneBareEach(p: Plan, a: real, x: string, b: real, y: string, fmt: real -> string)
    requires p.reactants == [Bare(a, x)] && p.products == [Bare(b, y)] && p.hasProducts
    ensures AllPrintable(p.reactants) && AllPrintable(p.products)
    ensures RawEquation(p, fmt) == fmt(a) + "*" + x + " " + Arrow(p.reversible) + " " + fmt(b) + "*" + y + " "
  {
    RawMatchesRender(p, fmt);
    assert Texts(p.reactants, fmt) == [fmt(a) + "*" + x];
    assert Texts(p.products, fmt) == [fmt(b) + "*" + y];
  }

  /** An uptake written with no reactants: the reactant side becomes the
      `.EX` partner with the same |s|. */
  lemma UptakeEquation(id: string, s: real, reversible: bool, fmt: real -> string)
    ensures var rx := Reaction(Side([], []), Side([Participant(id, s)], []), reversible);
      Build(rx, fmt) == Some(fmt(Abs(s)) + "*" + id + ".EX " + Arrow(reversible) + " " + fmt(Abs(s)) + "*" + id + " ")
  {
    var rx := Reaction(Side([], []), Side([Participant(id, s)], []), reversible);
    var n := Normalise(rx);
    assert n.reactants == Side([Participant(id + ".EX", s)], []);
    UntrackedSide(Reactants, n.reactants.participants, Ids(n.reactants.participants), [], []);
    UntrackedSide(Products, n.products.participants, Ids(n.products.participants), [], []);
    var p := PlanReaction(rx);
    assert p.reactants == [Bare(Abs(s), id + ".EX")];
    assert p.products == [Bare(Abs(s), id)];
    OneBareEach(p, Abs(s), id + ".EX", Abs(s), id, fmt);
    var f := fmt(Abs(s));
    assert f + "*" + (id + ".EX") + " " == f + "*" + id + ".EX ";
    assert Build(rx, fmt) == Some(RawEquation(p, fmt));
  }

  /** A secretion written with no products: the product side becomes the
      `.EX` partner with the same |s|. */
  lemma SecretionEquation(id: string, s: real, reversible: bool, fmt: real -> string)
    ensures var rx := Reaction(Side([Participant(id, s)], []), Side([], []), reversible);
      Build(rx, fmt) == Some(fmt(Abs(s)) + "*" + id + " " + Arrow(reversible) + " " + fmt(Abs(s)) + "*" + id + ".EX ")
  {
    var rx := Reaction(Side([Participant(id, s)], []), Side([], []), reversible);
    var n := Normalise(rx);
    assert n.products == Side([Participant(id + ".EX", s)], []);
    UntrackedSide(Reactants, n.reactants.participants, Ids(n.reactants.participants), [], []);
    UntrackedSide(Products, n.products.participants, Ids(n.products.participants), [], []);
    var p := PlanReaction(rx);
    assert p.reactants == [Bare(Abs(s), id)];
    assert p.products == [Bare(Abs(s), id + ".EX")];
    OneBareEach(p, Abs(s), id, Abs(s), id + ".EX", fmt);
    var f := fmt(Abs(s));
    var head := f + "*" + id + " " + Arrow(reversible) + " ";
    assert head + f + "*" + (id + ".EX") + " " == head + f + "*" + id + ".EX ";
    assert Build(rx, fmt) == Some(RawEquation(p, fmt));
  }
}

=== FILE: fragment_names.dfy ===
/** Fragment names of the fitting tool: the escape scheme for characters
    the tool cannot hold in an id, and the underscore fields of a measured
    fragment name (`<met>_<comp>_<formula>[_<scan>]_<offset>_<time>`). */
module FragmentNames {
  import opened Wrappers
  import opened Text

  const DashEscape := "_DASH_"
  const LeftParenEscape := "_LPARANTHES_"
  const RightParenEscape := "_RPARANTHES_"

  /** The importer's unescaping. The replacement texts are literal, so an
      escaped parenthesis becomes the three characters `[(]` or `[)]`. */
  function Unescape(s: string): (r: string)
  {
    ReplaceAll(ReplaceAll(ReplaceAll(s, DashEscape, "-"), LeftParenEscape, "[(]"), RightParenEscape, "[)]")
  }

  /** The importer's re-escaping of a parsed fragment id: every `-`, `(`
      and `)` becomes its escape. */
  function Escape(s: string): (r: string)
    ensures '-' !in r && '(' !in r && ')' !in r
  {
    var a := ReplaceAll(s, "-", DashEscape);
    var b := ReplaceAll(a, "(", LeftParenEscape);
    var c := ReplaceAll(b, ")", RightParenEscape);
    ReplaceRemovesChar(s, '-', DashEscape);
    ReplaceNoChar(a, "(", LeftParenEscape, '-');
    ReplaceRemovesChar(a, '(', LeftParenEscape);
    ReplaceNoChar(b, ")", RightParenEscape, '-');
    ReplaceNoChar(b, ")", RightParenEscape, '(');
    ReplaceRemovesChar(b, ')', RightParenEscape);
    c
  }

  /** Re-escaping undoes unescaping for a name that holds no raw `-`, `(`
      or `)` and no escaped parenthesis. */
  lemma EscapeUnescape(s: string)
    requires '-' !in s && '(' !in s && ')' !in s
    requires !Contains(s, LeftParenEscape) && !Contains(s, RightParenEscape)
    ensures Escape(Unescape(s)) == s
  {
    var u := ReplaceAll(s, DashEscape, "-");
    ReplaceKeepsAbsent(s, LeftParenEscape, DashEscape, '-');
    ReplaceAbsent(u, LeftParenEscape, "[(]");
    ReplaceKeepsAbsent(s, RightParenEscape, DashEscape, '-');
    ReplaceAbsent(u, RightParenEscape, "[)]");
    assert Unescape(s) == u;
    ReplaceRoundTrip(s, DashEscape, '-');
    ContainsChar(s, '(');
    ReplaceAbsent(s, "(", LeftParenEscape);
    ContainsChar(s, ')');
    ReplaceAbsent(s, ")", RightParenEscape);
  }

  /** An escaped parenthesis does not come back as it was: `[(]` is
      re-escaped to `[_LPARANTHES_]`. */
  lemma ParenthesisNotRestored()
    ensures Unescape(LeftParenEscape) == "[(]"
    ensures Escape("[(]") == "[_LPARANTHES_]"
    ensures Escape(Unescape(LeftParenEscape)) != LeftParenEscape
  {
    UnescapeLeftParen();
    EscapeBracketedParen();
    assert "[_LPARANTHES_]"[0] != LeftParenEscape[0];
  }

  lemma UnescapeLeftParen()
    ensures Unescape(LeftParenEscape) == "[(]"
  {
    NoEscapeWithout(LeftParenEscape, DashEscape, "-", 'D');
    ReplaceWhole(LeftParenEscape, "[(]");
    NoEscapeWithout("[(]", RightParenEscape, "[)]", 'R');
  }

  /** A string lacking a character of the escape has nothing to unescape. */
  lemma NoEscapeWithout(s: string, esc: string, rep: string, c: char)
    requires c in esc && c !in s
    ensures ReplaceAll(s, esc, rep) == s
  {
    MissingCharNotContained(s, esc, c);
    ReplaceAbsent(s, esc, rep);
  }

  lemma EscapeBracketedParen()
    ensures Escape("[(]") == "[_LPARANTHES_]"
  {
    MissingCharNotContained("[(]", "-", '-');
    ReplaceAbsent("[(]", "-", DashEscape);
    ReplaceParenInBrackets();
    NoRightParen("[_LPARANTHES_]");
  }

  lemma ReplaceParenInBrackets()
    ensures ReplaceAll("[(]", "(", LeftParenEscape) == "[_LPARANTHES_]"
  {
    ReplaceWhole("(", LeftParenEscape);
    assert ReplaceAll("]", "(", LeftParenEscape) == "]";
    assert ReplaceAll("(]", "(", LeftParenEscape) == LeftParenEscape + ReplaceAll("]", "(", LeftParenEscape);
    assert ReplaceAll("[(]", "(", LeftParenEscape) == "[" + ReplaceAll("(]", "(", LeftParenEscape);
  }

  lemma NoRightParen(e: string)
    requires e == "[_LPARANTHES_]"
    ensures ReplaceAll(e, ")", RightParenEscape) == e
  {
    assert forall i :: 0 <= i < |e| ==> e[i] != ')';
    MissingCharNotContained(e, ")", ')');
    ReplaceAbsent(e, ")", RightParenEscape);
  }

  // ---------------------------------------------------------------------
  // Underscore fields

  /** What a fragment name denotes: its id, the formula field, the mass
      offset and the time point, all as text. */
  datatype FragmentKey = FragmentKey(fragmentId: string, formula: string, massOffset: string, timePoint: string)

  /** A name with more than five fields one of which is `MRM` or `EPI`
      carries a scan-type field after the formula. */
  predicate LongForm(fields: seq<string>)
  {
    |fields| > 5 && ("MRM" in fields || "EPI" in fields)
  }

  /** The number of leading fields the key is read from. */
  function Consumed(fields: seq<string>): (r: nat)
  {
    if LongForm(fields) then 6 else 5
  }

  /** The field rule. Short form: id = fields 1-3, offset = field 4, time
      = field 5; long form: id = fields 1-4, offset = field 5, time =
      field 6. A short-form name with fewer than five fields raises
      IndexError (None). */
  function ParseFields(fields: seq<string>): (r: Option<FragmentKey>)
    ensures r.None? <==> |fields| < 5
    ensures r.Some? ==> r.value.formula == fields[2]
  {
    if !(|fields| > 5) || !("MRM" in fields || "EPI" in fields) then
      if |fields| < 5 then None
      else Some(FragmentKey(Join(fields[..3], "_"), fields[2], fields[3], fields[4]))
    else Some(FragmentKey(Join(fields[..4], "_"), fields[2], fields[4], fields[5]))
  }

  /** The fields of a name: unescaped first, then split on `_`. */
  function Fields(name: string): (fs: seq<string>)
    ensures Join(fs, "_") == Unescape(name)
  {
    JoinSplit(Unescape(name), "_");
    SplitOn(Unescape(name), "_")
  }

  /** The importer's parse of a fragment name. */
  function ParseFragmentName(name: string): (r: Option<FragmentKey>)
  {
    ParseFields(Fields(name))
  }

  /** The fragment id stored with a residual: the parsed id, re-escaped. */
  function ResidualFragmentId(name: string): (r: Option<string>)
    ensures r.Some? ==> '-' !in r.value && '(' !in r.value && ')' !in r.value
    ensures r.Some? <==> ParseFragmentName(name).Some?
  {
    match ParseFragmentName(name)
    case None => None
    case Some(k) => Some(Escape(k.fragmentId))
  }

  /** The key loses nothing of the fields it is read from: id, offset and
      time joined by `_` are exactly the leading fields joined by `_`. */
  lemma KeyRebuildsFields(fields: seq<string>)
    requires |fields| >= 5
    ensures Consumed(fields) <= |fields|
    ensures var k := ParseFields(fields).value; var n := Consumed(fields);
      && k.fragmentId == Join(fields[..n - 2], "_")
      && k.massOffset == fields[n - 2] && k.timePoint == fields[n - 1]
      && Join(fields[..n], "_") == k.fragmentId + "_" + k.massOffset + "_" + k.timePoint
  {
    var n := Consumed(fields);
    var k := ParseFields(fields).value;
    var idFields := fields[..n - 2];
    assert fields[..n] == idFields + [fields[n - 2]] + [fields[n - 1]];
    JoinAppend(idFields, [fields[n - 2]], "_");
    JoinSingle(fields[n - 2], "_");
    JoinAppend(idFields + [fields[n - 2]], [fields[n - 1]], "_");
    JoinSingle(fields[n - 1], "_");
    if LongForm(fields) {
      assert idFields == fields[..4];
    } else {
      assert idFields == fields[..3];
    }
  }

  /** The parsed key, written back with underscores, starts the unescaped
      name: the parse reads a prefix of the name and never reorders it. */
  lemma KeyIsPrefixOfName(name: string)
    requires ParseFragmentName(name).Some?
    ensures var k := ParseFragmentName(name).value;
      IsPrefix(k.fragmentId + "_" + k.massOffset + "_" + k.timePoint, Unescape(name))
  {
    var fs := Fields(name);
    KeyRebuildsFields(fs);
    ConsumedFieldsPrefix(fs);
  }

  /** The fields a key is read from, joined, start the joined fields. */
  lemma ConsumedFieldsPrefix(fs: seq<string>)
    requires Consumed(fs) <= |fs|
    ensures IsPrefix(Join(fs[..Consumed(fs)], "_"), Join(fs, "_"))
  {
    JoinPrefix(fs, Consumed(fs), "_");
  }

  /** A name with a scan-type field and six fields takes the long form. */
  lemma LongFormExample()
    ensures ParseFields(["ala-L", "c", "C3H6NO2", "MRM", "1", "0"]) == Some(FragmentKey("ala-L_c_C3H6NO2_MRM", "C3H6NO2", "1", "0"))
    ensures ParseFields(["ala-L", "c", "C3H6NO2", "MRM", "1"]) == Some(FragmentKey("ala-L_c_C3H6NO2", "C3H6NO2", "MRM", "1"))
  {
    var fs := ["ala-L", "c", "C3H6NO2", "MRM", "1", "0"];
    assert fs[3] == "MRM";
    assert Join(["ala-L", "c", "C3H6NO2", "MRM"], "_") == "ala-L_c_C3H6NO2_MRM";
    assert Join(["ala-L", "c", "C3H6NO2"], "_") == "ala-L_c_C3H6NO2";
  }

  /** An escaped dash between two underscore-free pieces stays inside one
      field: unescaping runs before the split on `_`. */
  lemma EscapedDashKeepsField(a: string, b: string)
    requires '_' !in a && '_' !in b
    ensures Fields(a + DashEscape + b) == [a + "-" + b]
  {
    var u := a + "-" + b;
    ReplaceAfterPrefix(a, DashEscape + b, DashEscape, "-");
    assert (DashEscape + b)[..|DashEscape|] == DashEscape;
    assert (DashEscape + b)[|DashEscape|..] == b;
    NoEscapeWithout(b, DashEscape, "-", '_');
    assert ReplaceAll(DashEscape + b, DashEscape, "-") == "-" + b;
    assert a + ("-" + b) == u;
    assert a + DashEscape + b == a + (DashEscape + b);
    assert ReplaceAll(a + DashEscape + b, DashEscape, "-") == u;
    assert '_' !in u;
    NoEscapeWithout(u, LeftParenEscape, "[(]", '_');
    NoEscapeWithout(u, RightParenEscape, "[)]", '_');
    assert Unescape(a + DashEscape + b) == u;
    SplitWithoutSep(u, '_');
  }
}

=== FILE: import_tables.dfy ===
/** The table rows the result importer builds from the fitted
    measurements, the residuals and the fitted parameters of one
    simulation. Each list is walked in order; a record yields no row, one
    row, or an IndexError that aborts the whole import (None). */
module ImportTables {
  import opened Wrappers
  import opened Text
  import opened FragmentNames
  import opened ImportValues

  const FluxKind := "Flux"
  const MsKind := "MS"
  const NetFluxKind := "Net flux"
  const NormKind := "Norm"

  /** Measurements of these two kinds are filed; any other kind is
      reported and skipped. */
  predicate Routed(kind: string)
  {
    kind == FluxKind || kind == MsKind
  }

  // ---------------------------------------------------------------------
  // Walking a list

  /** The rows of records 0 .. n-1 in order, or None as soon as one record
      fails. */
  function Collect<T>(n: nat, f: nat -> Option<seq<T>>): (r: Option<seq<T>>)
    decreases n
  {
    if n == 0 then Some([])
    else
      match Collect(n - 1, f)
      case None => None
      case Some(rows) =>
        match f(n - 1)
        case None => None
        case Some(more) => Some(rows + more)
  }

  /** The walk fails exactly when some record fails. */
  lemma {:induction false} CollectFails<T>(n: nat, f: nat -> Option<seq<T>>)
    ensures Collect(n, f).None? <==> exists k :: 0 <= k < n && f(k).None?
    decreases n
  {
    if n > 0 {
      CollectFails(n - 1, f);
    }
  }

  /** A row is produced exactly when some record produces it. */
  lemma {:induction false} CollectMembers<T>(n: nat, f: nat -> Option<seq<T>>, x: T)
    requires Collect(n, f).Some?
    ensures x in Collect(n, f).value <==> exists k :: 0 <= k < n && f(k).Some? && x in f(k).value
    decreases n
  {
    if n > 0 {
      CollectMembers(n - 1, f, x);
    }
  }

  // ---------------------------------------------------------------------
  // Fitted measurements (sum of squared residuals)

  /** One entry of the fitted measurement list. */
  datatype Measurement = Measurement(id: string, sres: Float, expt: string, kind: string)

  /** A row of the fitted measured flux table (kind Flux) or fragment table
      (kind MS); `id` is the reaction or the fragment id as given. */
  datatype FitRow = FitRow(kind: string, experimentId: string, sample: string, id: string, sres: Float)

  function MeasurementRow(m: Measurement, exps: seq<string>, samples: seq<string>): (r: Option<seq<FitRow>>)
  {
    if !Routed(m.kind) then Some([])
    else
      match Place(m.expt, exps, samples)
      case None => None
      case Some(Dropped) => Some([])
      case Some(Placed(e, s)) => Some([FitRow(m.kind, e, s, m.id, m.sres)])
  }

  function MeasurementStep(ms: seq<Measurement>, exps: seq<string>, samples: seq<string>): (r: nat -> Option<seq<FitRow>>)
  {
    (k: nat) => if k < |ms| then MeasurementRow(ms[k], exps, samples) else Some([])
  }

  function MeasurementRows(ms: seq<Measurement>, exps: seq<string>, samples: seq<string>): (r: Option<seq<FitRow>>)
  {
    Collect(|ms|, MeasurementStep(ms, exps, samples))
  }

  /** The measurement import fails exactly when a Flux or MS record's
      placement does; otherwise a row is in the tables exactly when a Flux
      or MS measurement is placed under that experiment and sample. */
  lemma MeasurementRowsSpec(ms: seq<Measurement>, exps: seq<string>, samples: seq<string>, row: FitRow)
    ensures MeasurementRows(ms, exps, samples).None? <==>
      exists k :: 0 <= k < |ms| && Routed(ms[k].kind) && Place(ms[k].expt, exps, samples).None?
    ensures MeasurementRows(ms, exps, samples).Some? ==>
      (row in MeasurementRows(ms, exps, samples).value <==>
        exists k :: 0 <= k < |ms| && Routed(ms[k].kind)
          && Place(ms[k].expt, exps, samples) == Some(Placed(row.experimentId, row.sample))
          && row == FitRow(ms[k].kind, row.experimentId, row.sample, ms[k].id, ms[k].sres))
  {
    var f := MeasurementStep(ms, exps, samples);
    CollectFails(|ms|, f);
    assert forall k :: 0 <= k < |ms| ==> f(k) == MeasurementRow(ms[k], exps, samples);
    if MeasurementRows(ms, exps, samples).Some? {
      CollectMembers(|ms|, f, row);
    }
  }

  // ---------------------------------------------------------------------
  // Residuals

  /** One residual of the fit. */
  datatype Residual = Residual(val: Float, fit: Float, kind: string, id: string, std: Float,
                               time: Float, expt: string, data: Float, peak: Cell<string>)

  /** A row of the flux residual table (kind Flux, id the reaction) or the
      fragment residual table (kind MS, id the re-escaped fragment id). */
  datatype ResidualRow = ResidualRow(kind: string, experimentId: string, sample: string, timePoint: string,
                                     id: string, data: Float, fit: Float, peak: Cell<string>, stdev: Float, val: Float)

  /** The id a residual is filed under: a flux residual's own id, or the
      fragment id parsed from an MS residual's name and escaped again. */
  function ResidualId(r: Residual): (res: Option<string>)
  {
    if r.kind == MsKind then ResidualFragmentId(r.id) else Some(r.id)
  }

  /** The rows of one residual. The experiment alias is resolved for every
      residual, whatever its kind; an MS name is parsed before the
      placement is looked at. */
  function ResidualRowOf(r: Residual, exps: seq<string>, samples: seq<string>, fmt: real -> string): (res: Option<seq<ResidualRow>>)
  {
    match ResidualExpt(r.expt, exps)
    case None => None
    case Some(expt) =>
      if !Routed(r.kind) then Some([])
      else
        match ResidualId(r)
        case None => None
        case Some(id) =>
          match Place(expt, exps, samples)
          case None => None
          case Some(Dropped) => Some([])
          case Some(Placed(e, s)) =>
            Some([ResidualRow(r.kind, e, s, ResidualTime(r.time, fmt), id, r.data, r.fit, r.peak, r.std, r.val)])
  }

  function ResidualStep(rs: seq<Residual>, exps: seq<string>, samples: seq<string>, fmt: real -> string): (r: nat -> Option<seq<ResidualRow>>)
  {
    (k: nat) => if k < |rs| then ResidualRowOf(rs[k], exps, samples, fmt) else Some([])
  }

  function ResidualRows(rs: seq<Residual>, exps: seq<string>, samples: seq<string>, fmt: real -> string): (r: Option<seq<ResidualRow>>)
  {
    Collect(|rs|, ResidualStep(rs, exps, samples, fmt))
  }

  /** Why a residual aborts the import: its experiment is the alias and
      there is no experiment, or it is Flux/MS and its name does not parse
      or its placement fails. */
  predicate ResidualFails(r: Residual, exps: seq<string>, samples: seq<string>)
  {
    || ResidualExpt(r.expt, exps).None?
    || (Routed(r.kind) && ResidualId(r).None?)
    || (Routed(r.kind) && Place(ResidualExpt(r.expt, exps).value, exps, samples).None?)
  }

  /** The residual import fails exactly when some residual fails; otherwise
      a row is in the tables exactly when a Flux or MS residual, with its
      alias resolved, is placed under that experiment and sample, and the
      row carries that residual's time text, id and values. */
  lemma ResidualRowsSpec(rs: seq<Residual>, exps: seq<string>, samples: seq<string>, fmt: real -> string, row: ResidualRow)
    ensures ResidualRows(rs, exps, samples, fmt).None? <==>
      exists k :: 0 <= k < |rs| && ResidualFails(rs[k], exps, samples)
    ensures ResidualRows(rs, exps, samples, fmt).Some? ==>
      (row in ResidualRows(rs, exps, samples, fmt).value <==>
        exists k :: 0 <= k < |rs| && Routed(rs[k].kind)
          && ResidualExpt(rs[k].expt, exps).Some? && ResidualId(rs[k]) == Some(row.id)
          && Place(ResidualExpt(rs[k].expt, exps).value, exps, samples) == Some(Placed(row.experimentId, row.sample))
          && row == ResidualRow(rs[k].kind, row.experimentId, row.sample, ResidualTime(rs[k].time, fmt),
                                row.id, rs[k].data, rs[k].fit, rs[k].peak, rs[k].std, rs[k].val))
  {
    var f := ResidualStep(rs, exps, samples, fmt);
    CollectFails(|rs|, f);
    assert forall k :: 0 <= k < |rs| ==> f(k) == ResidualRowOf(rs[k], exps, samples, fmt);
    assert forall k :: 0 <= k < |rs| ==> (f(k).None? <==> ResidualFails(rs[k], exps, samples));
    if ResidualRows(rs, exps, samples, fmt).Some? {
      CollectMembers(|rs|, f, row);
    }
  }

  /** A residual of the first experiment under its alias is filed under
      the first experiment id and the first sample. */
  lemma AliasResidualFiled(r: Residual, exps: seq<string>, samples: seq<string>, fmt: real -> string)
    requires r.kind == FluxKind && r.expt == FirstExperimentAlias
    requires |exps| > 0 && |samples| > 0
    ensures ResidualRowOf(r, exps, samples, fmt) ==
      Some([ResidualRow(FluxKind, exps[0], samples[0], ResidualTime(r.time, fmt), r.id, r.data, r.fit, r.peak, r.std, r.val)])
  {
  }

  // ---------------------------------------------------------------------
  // Fitted parameters

  /** One fitted parameter as read: its cells before sanitising. */
  datatype Parameter = Parameter(id: string, val: Cell<Float>, std: Cell<Float>, kind: string,
                                 lb: Cell<Float>, ub: Cell<Float>, unit: Cell<string>, alf: real, free: bool)

  /** A row of the fitted flux table. */
  datatype FluxFit = FluxFit(rxnId: string, flux: real, stdev: Float, lb: Float, ub: real, units: string, alf: real, free: bool)

  /** A row of the fitted fragment table. */
  datatype FragmentFit = FragmentFit(experimentId: string, sample: string, timePoint: string, fragmentId: string,
                                     val: real, stdev: Float, units: string, alf: real, free: bool)

  datatype ParameterRow = FluxRow(flux: FluxFit) | FragmentRow(fragment: FragmentFit)

  /** The ids of all parameters with the experiment alias resolved; any
      alias with no experiment aborts. */
  function ParIds(ps: seq<Parameter>, exps: seq<string>): (r: Option<seq<string>>)
    ensures r.None? <==> exists k :: 0 <= k < |ps| && ParId(ps[k].id, exps).None?
    ensures r.Some? ==> |r.value| == |ps| && forall k :: 0 <= k < |ps| ==> Some(r.value[k]) == ParId(ps[k].id, exps)
    decreases |ps|
  {
    if |ps| == 0 then Some([])
    else
      match ParId(ps[0].id, exps)
      case None => None
      case Some(id) =>
        match ParIds(ps[1..], exps)
        case None =>
          var k :| 1 <= k + 1 < |ps| && ParId(ps[1..][k].id, exps).None?;
          assert ParId(ps[k + 1].id, exps).None?;
          None
        case Some(rest) =>
          assert forall k :: 1 <= k < |ps| ==> ps[k] == ps[1..][k - 1];
          Some([id] + rest)
  }

  /** The standard-deviation cells of the parameters. */
  function StdCells(ps: seq<Parameter>): (cs: seq<Cell<Float>>)
    ensures |cs| == |ps| && forall k :: 0 <= k < |ps| ==> cs[k] == ps[k].std
  {
    seq(|ps|, k requires 0 <= k < |ps| => ps[k].std)
  }

  /** The words of a Norm parameter id: experiment, fragment id, fragment
      name and units. Fewer than four words is an IndexError. */
  function NormWords(id: string): (w: Option<seq<string>>)
    ensures w.Some? <==> |SplitOn(id, " ")| >= 4
    ensures w.Some? ==> |w.value| == 4 && w.value == SplitOn(id, " ")[..4]
  {
    var words := SplitOn(id, " ");
    if |words| < 4 then None else Some(words[..4])
  }

  /** The rows of parameter p with resolved id, sanitised value and the
      entry of the standard-deviation column at its index (None when the
      column is too short). A Net flux parameter always makes a flux row;
      a Norm parameter is parsed and placed by its first word; any other
      kind is skipped. The deviation is read only for a row being made. */
  function ParameterRowOf(p: Parameter, id: string, val: real, std: Option<Float>,
                          exps: seq<string>, samples: seq<string>): (r: Option<seq<ParameterRow>>)
    ensures r.Some? ==> |r.value| <= 1
  {
    if p.kind == NetFluxKind then
      match std
      case None => None
      case Some(sd) => Some([FluxRow(FluxFit(id, val, sd, ParLower(p.lb), ParUpper(p.ub), ParUnit(p.unit), p.alf, p.free))])
    else if p.kind == NormKind then
      match NormWords(id)
      case None => None
      case Some(words) =>
        match ParseFragmentName(words[2])
        case None => None
        case Some(key) =>
          match Place(words[0], exps, samples)
          case None => None
          case Some(Dropped) => Some([])
          case Some(Placed(e, s)) =>
            match std
            case None => None
            case Some(sd) => Some([FragmentRow(FragmentFit(e, s, key.timePoint, words[1], val, sd, words[3], p.alf, p.free))])
    else Some([])
  }

  /** The entry at index k of a column, or None past its end. */
  function At<T>(col: seq<T>, k: nat): (r: Option<T>)
    ensures r.Some? <==> k < |col|
  {
    if k < |col| then Some(col[k]) else None
  }

  /** All parameter rows, reading the standard deviations from `stds`. */
  function ParameterRows(ps: seq<Parameter>, stds: seq<Float>, exps: seq<string>, samples: seq<string>): (r: Option<seq<ParameterRow>>)
  {
    match ParIds(ps, exps)
    case None => None
    case Some(ids) => Collect(|ps|, ParameterStep(ps, ids, stds, exps, samples))
  }

  function ParameterStep(ps: seq<Parameter>, ids: seq<string>, stds: seq<Float>, exps: seq<string>, samples: seq<string>): (r: nat -> Option<seq<ParameterRow>>)
  {
    (k: nat) => if k < |ps| && k < |ids| then ParameterRowOf(ps[k], ids[k], ParValue(ps[k].val), At(stds, k), exps, samples) else Some([])
  }

  /** The importer as written: the standard-deviation column loses an
      entry for every NaN deviation. */
  function ImportParametersAsWritten(ps: seq<Parameter>, exps: seq<string>, samples: seq<string>): (r: Option<seq<ParameterRow>>)
  {
    ParameterRows(ps, StdColumnAsWritten(StdCells(ps)).0, exps, samples)
  }

  /** The importer as evidently intended: one deviation per parameter. */
  function ImportParameters(ps: seq<Parameter>, exps: seq<string>, samples: seq<string>): (r: Option<seq<ParameterRow>>)
  {
    ParameterRows(ps, StdColumn(StdCells(ps)), exps, samples)
  }

  /** Why a Norm parameter with resolved id aborts the import: too few
      words, a fragment name that does not parse, or a failed placement. */
  predicate NormFails(id: string, exps: seq<string>, samples: seq<string>)
  {
    || NormWords(id).None?
    || ParseFragmentName(NormWords(id).value[2]).None?
    || Place(NormWords(id).value[0], exps, samples).None?
  }

  /** Given its deviation, one parameter fails exactly when it is a Norm
      parameter that fails. */
  lemma RowOfFails(p: Parameter, id: string, val: real, sd: Float, exps: seq<string>, samples: seq<string>)
    ensures ParameterRowOf(p, id, val, Some(sd), exps, samples).None? <==> p.kind == NormKind && NormFails(id, exps, samples)
  {
  }

  /** The rows of one parameter carry its id, value and deviation. */
  lemma RowOfAligned(p: Parameter, id: string, val: real, sd: Float, exps: seq<string>, samples: seq<string>, row: ParameterRow)
    requires ParameterRowOf(p, id, val, Some(sd), exps, samples).Some?
    requires row in ParameterRowOf(p, id, val, Some(sd), exps, samples).value
    ensures row.FluxRow? ==> p.kind == NetFluxKind && row.flux.rxnId == id && row.flux.flux == val && row.flux.stdev == sd
    ensures row.FragmentRow? ==> p.kind == NormKind && row.fragment.val == val && row.fragment.stdev == sd
  {
  }

  /** With one deviation per parameter, the import fails exactly when an
      id names the alias with no experiment or a Norm parameter fails;
      Net flux parameters never abort it. */
  lemma ImportParametersFails(ps: seq<Parameter>, exps: seq<string>, samples: seq<string>)
    ensures ImportParameters(ps, exps, samples).None? <==>
      || (exists k :: 0 <= k < |ps| && ParId(ps[k].id, exps).None?)
      || (exists k :: 0 <= k < |ps| && ps[k].kind == NormKind && ParId(ps[k].id, exps).Some?
                       && NormFails(ParId(ps[k].id, exps).value, exps, samples))
  {
    var stds := StdColumn(StdCells(ps));
    match ParIds(ps, exps)
    case None =>
    case Some(ids) =>
      var f := ParameterStep(ps, ids, stds, exps, samples);
      CollectFails(|ps|, f);
      forall k | 0 <= k < |ps|
        ensures f(k).None? <==> ps[k].kind == NormKind && NormFails(ParId(ps[k].id, exps).value, exps, samples)
      {
        assert f(k) == ParameterRowOf(ps[k], ids[k], ParValue(ps[k].val), Some(ParStd(ps[k].std)), exps, samples);
        RowOfFails(ps[k], ids[k], ParValue(ps[k].val), ParStd(ps[k].std), exps, samples);
      }
  }

  /** Every Net flux parameter makes a flux row, with no experiment
      filter, carrying its own resolved id, value, deviation and bounds. */
  lemma NetFluxRowsPresent(ps: seq<Parameter>, exps: seq<string>, samples: seq<string>, k: nat)
    requires ImportParameters(ps, exps, samples).Some?
    requires k < |ps| && ps[k].kind == NetFluxKind
    ensures ParId(ps[k].id, exps).Some?
    ensures var p := ps[k];
      FluxRow(FluxFit(ParId(p.id, exps).value, ParValue(p.val), ParStd(p.std), ParLower(p.lb), ParUpper(p.ub), ParUnit(p.unit), p.alf, p.free))
        in ImportParameters(ps, exps, samples).value
  {
    var stds := StdColumn(StdCells(ps));
    var ids := ParIds(ps, exps).value;
    var f := ParameterStep(ps, ids, stds, exps, samples);
    var p := ps[k];
    var row := FluxRow(FluxFit(ids[k], ParValue(p.val), ParStd(p.std), ParLower(p.lb), ParUpper(p.ub), ParUnit(p.unit), p.alf, p.free));
    assert At(stds, k) == Some(ParStd(p.std));
    assert f(k) == Some([row]);
    CollectMembers(|ps|, f, row);
  }

  /** Every Norm parameter of a successful import has a resolved id of at
      least four words whose third parses as a fragment name and whose
      first is placed; when it is placed rather than dropped, the import
      holds its fragment row: experiment and sample from the placement,
      time point from the parsed name, fragment id from the second word,
      units from the fourth, and its own value and deviation. */
  lemma NormRowsPresent(ps: seq<Parameter>, exps: seq<string>, samples: seq<string>, k: nat)
    requires ImportParameters(ps, exps, samples).Some?
    requires k < |ps| && ps[k].kind == NormKind
    ensures ParId(ps[k].id, exps).Some?
    ensures NormWords(ParId(ps[k].id, exps).value).Some?
    ensures var w := NormWords(ParId(ps[k].id, exps).value).value;
      ParseFragmentName(w[2]).Some? && Place(w[0], exps, samples).Some?
    ensures var p := ps[k];
      var w := NormWords(ParId(p.id, exps).value).value;
      var key := ParseFragmentName(w[2]).value;
      var pl := Place(w[0], exps, samples).value;
      pl.Placed? ==>
        FragmentRow(FragmentFit(pl.experimentId, pl.sample, key.timePoint, w[1], ParValue(p.val), ParStd(p.std), w[3], p.alf, p.free))
          in ImportParameters(ps, exps, samples).value
  {
    ImportParametersFails(ps, exps, samples);
    var stds := StdColumn(StdCells(ps));
    var ids := ParIds(ps, exps).value;
    var f := ParameterStep(ps, ids, stds, exps, samples);
    var p := ps[k];
    assert ids[k] == ParId(p.id, exps).value;
    assert !NormFails(ids[k], exps, samples);
    var w := NormWords(ids[k]).value;
    var key := ParseFragmentName(w[2]).value;
    var pl := Place(w[0], exps, samples).value;
    if pl.Placed? {
      var row := FragmentRow(FragmentFit(pl.experimentId, pl.sample, key.timePoint, w[1], ParValue(p.val), ParStd(p.std), w[3], p.alf, p.free));
      assert At(stds, k) == Some(ParStd(p.std));
      assert f(k) == Some([row]);
      CollectMembers(|ps|, f, row);
    }
  }

  /** Whether `row` is the row a parameter with resolved id `id` gives: a
      Net flux parameter its flux row with sanitised value, deviation,
      bounds and unit; a Norm parameter, when its words parse and its
      first word places it under an experiment and sample, the fragment
      row with the parsed time point, fragment id and units. */
  predicate GivesRow(p: Parameter, id: string, exps: seq<string>, samples: seq<string>, row: ParameterRow)
  {
    || (p.kind == NetFluxKind
        && row == FluxRow(FluxFit(id, ParValue(p.val), ParStd(p.std), ParLower(p.lb), ParUpper(p.ub), ParUnit(p.unit), p.alf, p.free)))
    || (p.kind == NormKind && row.FragmentRow? && NormWords(id).Some?
        && ParseFragmentName(NormWords(id).value[2]).Some?
        && Place(NormWords(id).value[0], exps, samples) == Some(Placed(row.fragment.experimentId, row.fragment.sample))
        && row == FragmentRow(FragmentFit(row.fragment.experimentId, row.fragment.sample,
                                          ParseFragmentName(NormWords(id).value[2]).value.timePoint,
                                          NormWords(id).value[1], ParValue(p.val), ParStd(p.std),
                                          NormWords(id).value[3], p.alf, p.free)))
  }

  /** The rows of one parameter, given its own deviation, are exactly the
      rows it gives. */
  lemma RowOfMembers(p: Parameter, id: string, exps: seq<string>, samples: seq<string>, row: ParameterRow)
    requires ParameterRowOf(p, id, ParValue(p.val), Some(ParStd(p.std)), exps, samples).Some?
    ensures row in ParameterRowOf(p, id, ParValue(p.val), Some(ParStd(p.std)), exps, samples).value
      <==> GivesRow(p, id, exps, samples, row)
  {
  }

  /** With one deviation per parameter, a row is in a successful import
      exactly when some parameter gives it: nothing else is imported, a
      dropped Norm parameter gives no row, and every row carries its own
      parameter's placement, words, bounds and unit. */
  lemma ParameterRowsSpec(ps: seq<Parameter>, exps: seq<string>, samples: seq<string>, row: ParameterRow)
    ensures ImportParameters(ps, exps, samples).Some? ==>
      (row in ImportParameters(ps, exps, samples).value <==>
        exists k :: 0 <= k < |ps| && ParId(ps[k].id, exps).Some?
          && GivesRow(ps[k], ParId(ps[k].id, exps).value, exps, samples, row))
  {
    if ImportParameters(ps, exps, samples).Some? {
      var stds := StdColumn(StdCells(ps));
      var ids := ParIds(ps, exps).value;
      var f := ParameterStep(ps, ids, stds, exps, samples);
      CollectFails(|ps|, f);
      CollectMembers(|ps|, f, row);
      forall k | 0 <= k < |ps|
        ensures (f(k).Some? && row in f(k).value) <==>
          (ParId(ps[k].id, exps).Some? && GivesRow(ps[k], ParId(ps[k].id, exps).value, exps, samples, row))
      {
        assert At(stds, k) == Some(ParStd(ps[k].std));
        assert f(k) == ParameterRowOf(ps[k], ids[k], ParValue(ps[k].val), Some(ParStd(ps[k].std)), exps, samples);
        assert Some(ids[k]) == ParId(ps[k].id, exps);
        RowOfMembers(ps[k], ids[k], exps, samples, row);
      }
    }
  }

  /** Every row of the intended import comes from one parameter: a flux
      row from a Net flux parameter with its own deviation, a fragment row
      from a placed Norm parameter with its own deviation. */
  lemma ParameterRowsAligned(ps: seq<Parameter>, exps: seq<string>, samples: seq<string>, row: ParameterRow)
    requires ImportParameters(ps, exps, samples).Some?
    requires row in ImportParameters(ps, exps, samples).value
    ensures exists k :: (0 <= k < |ps| && ParId(ps[k].id, exps).Some?
      && (row.FluxRow? ==> ps[k].kind == NetFluxKind && row.flux.rxnId == ParId(ps[k].id, exps).value
                           && row.flux.flux == ParValue(ps[k].val) && row.flux.stdev == ParStd(ps[k].std))
      && (row.FragmentRow? ==> ps[k].kind == NormKind && row.fragment.val == ParValue(ps[k].val)
                               && row.fragment.stdev == ParStd(ps[k].std)))
  {
    var stds := StdColumn(StdCells(ps));
    var ids := ParIds(ps, exps).value;
    var f := ParameterStep(ps, ids, stds, exps, samples);
    CollectMembers(|ps|, f, row);
    var k :| 0 <= k < |ps| && f(k).Some? && row in f(k).value;
    assert f(k) == ParameterRowOf(ps[k], ids[k], ParValue(ps[k].val), Some(ParStd(ps[k].std)), exps, samples);
    RowOfAligned(ps[k], ids[k], ParValue(ps[k].val), ParStd(ps[k].std), exps, samples, row);
    assert Some(ids[k]) == ParId(ps[k].id, exps);
  }

  /** Without NaN deviations the importer as written and as intended agree. */
  lemma AsWrittenAgreesWithoutNaN(ps: seq<Parameter>, exps: seq<string>, samples: seq<string>)
    requires forall k :: 0 <= k < |ps| ==> ps[k].std != Val(NaN)
    ensures ImportParametersAsWritten(ps, exps, samples) == ImportParameters(ps, exps, samples)
  {
    StdColumnAgreesWithoutNaN(StdCells(ps));
  }

  const ExampleNaN := Parameter("PGI", Val(Fin(1.0)), Val(NaN), NetFluxKind, Empty, Empty, Empty, 0.05, true)
  const ExampleFinite := Parameter("PFK", Val(Fin(2.0)), Val(Fin(0.5)), NetFluxKind, Empty, Empty, Empty, 0.05, true)

  lemma ExampleIds()
    ensures ParIds([ExampleNaN, ExampleFinite], ["e1"]) == Some(["PGI", "PFK"])
  {
    var ps := [ExampleNaN, ExampleFinite];
    AliasAbsent("PGI");
    AliasAbsent("PFK");
    assert ParId(ps[0].id, ["e1"]).Some? && ParId(ps[1].id, ["e1"]).Some?;
    var ids := ParIds(ps, ["e1"]).value;
    assert |ids| == 2 && ids[0] == "PGI" && ids[1] == "PFK";
    assert ids == ["PGI", "PFK"];
  }

  /** A NaN deviation on a Net flux parameter followed by a second Net flux
      parameter: as written, the second row reads past the shortened
      deviation column and the import aborts with an IndexError. */
  lemma NaNStdAbortsAsWritten()
    ensures ImportParametersAsWritten([ExampleNaN, ExampleFinite], ["e1"], ["s1"]).None?
  {
    var ps := [ExampleNaN, ExampleFinite];
    ExampleIds();
    NaNStdShiftsColumn();
    assert StdCells(ps) == [Val(NaN), Val(Fin(0.5))];
    var written := StdColumnAsWritten(StdCells(ps)).0;
    var f := ParameterStep(ps, ["PGI", "PFK"], written, ["e1"], ["s1"]);
    assert At(written, 1).None?;
    assert f(1).None?;
    CollectFails(2, f);
  }

  /** The same two parameters as intended: each flux row has its own
      deviation, 0 for the NaN. */
  lemma NaNStdIntended()
    ensures ImportParameters([ExampleNaN, ExampleFinite], ["e1"], ["s1"]) == Some([
      FluxRow(FluxFit("PGI", 1.0, Fin(0.0), Fin(0.0), DefaultUpper, DefaultUnit, 0.05, true)),
      FluxRow(FluxFit("PFK", 2.0, Fin(0.5), Fin(0.0), DefaultUpper, DefaultUnit, 0.05, true))])
  {
    var ps := [ExampleNaN, ExampleFinite];
    ExampleIds();
    var stds := StdColumn(StdCells(ps));
    var f := ParameterStep(ps, ["PGI", "PFK"], stds, ["e1"], ["s1"]);
    var row0 := FluxRow(FluxFit("PGI", 1.0, Fin(0.0), Fin(0.0), DefaultUpper, DefaultUnit, 0.05, true));
    var row1 := FluxRow(FluxFit("PFK", 2.0, Fin(0.5), Fin(0.0), DefaultUpper, DefaultUnit, 0.05, true));
    assert f(0) == Some([row0]);
    assert f(1) == Some([row1]);
    assert Collect(0, f) == Some([]);
    assert [] + [row0] == [row0];
    assert Collect(1, f) == Some([row0]);
    assert Collect(2, f) == Some([row0] + [row1]);
    assert [row0] + [row1] == [row0, row1];
    assert ImportParameters(ps, ["e1"], ["s1"]) == Collect(2, f);
  }

  /** An id with no `E` holds no alias. */
  lemma AliasAbsent(id: string)
    requires 'E' !in id
    ensures ParId(id, ["e1"]) == Some(id)
  {
    MissingCharNotContained(id, FirstExperimentAlias, 'E');
  }

  /** A third parameter of another kind with an empty deviation. */
  const ExampleOther := Parameter("Glc", Val(Fin(3.0)), Empty, "Other", Empty, Empty, Empty, 0.05, true)

  /** With a third parameter behind them, the shortened column no longer
      runs out: as written, the first flux row takes the second parameter's
      deviation and the second takes the third's, and nothing fails. */
  lemma NaNStdMisattributes()
    ensures ImportParametersAsWritten([ExampleNaN, ExampleFinite, ExampleOther], ["e1"], ["s1"]) == Some([
      FluxRow(FluxFit("PGI", 1.0, Fin(0.5), Fin(0.0), DefaultUpper, DefaultUnit, 0.05, true)),
      FluxRow(FluxFit("PFK", 2.0, Fin(0.0), Fin(0.0), DefaultUpper, DefaultUnit, 0.05, true))])
  {
    var ps := [ExampleNaN, ExampleFinite, ExampleOther];
    var ids := ThreeIds();
    var written := WrittenColumnExample(StdCells(ps));
    var f := ParameterStep(ps, ids, written, ["e1"], ["s1"]);
    MisattributedSteps(ps, ids, written);
    CollectTwoRows(f, FluxRow(FluxFit("PGI", 1.0, Fin(0.5), Fin(0.0), DefaultUpper, DefaultUnit, 0.05, true)),
      FluxRow(FluxFit("PFK", 2.0, Fin(0.0), Fin(0.0), DefaultUpper, DefaultUnit, 0.05, true)));
  }

  lemma ThreeIds() returns (ids: seq<string>)
    ensures ParIds([ExampleNaN, ExampleFinite, ExampleOther], ["e1"]) == Some(ids)
    ensures ids == ["PGI", "PFK", "Glc"]
  {
    var ps := [ExampleNaN, ExampleFinite, ExampleOther];
    AliasAbsent("PGI");
    AliasAbsent("PFK");
    AliasAbsent("Glc");
    ids := ParIds(ps, ["e1"]).value;
    assert |ids| == 3 && ids[0] == "PGI" && ids[1] == "PFK" && ids[2] == "Glc";
  }

  lemma MisattributedSteps(ps: seq<Parameter>, ids: seq<string>, written: seq<Float>)
    requires ps == [ExampleNaN, ExampleFinite, ExampleOther] && ids == ["PGI", "PFK", "Glc"]
    requires written == [Fin(0.5), Fin(0.0)]
    ensures var f := ParameterStep(ps, ids, written, ["e1"], ["s1"]);
      && f(0) == Some([FluxRow(FluxFit("PGI", 1.0, Fin(0.5), Fin(0.0), DefaultUpper, DefaultUnit, 0.05, true))])
      && f(1) == Some([FluxRow(FluxFit("PFK", 2.0, Fin(0.0), Fin(0.0), DefaultUpper, DefaultUnit, 0.05, true))])
      && f(2) == Some([])
  {
  }

  lemma CollectTwoRows<T>(f: nat -> Option<seq<T>>, row0: T, row1: T)
    requires f(0) == Some([row0]) && f(1) == Some([row1]) && f(2) == Some([])
    ensures Collect(3, f) == Some([row0, row1])
  {
    assert Collect(1, f) == Some([] + [row0]);
    assert [] + [row0] == [row0];
    assert Collect(2, f) == Some([row0] + [row1]);
    assert [row0] + [row1] == [row0, row1];
    assert [row0, row1] + [] == [row0, row1];
  }

  lemma WrittenColumnExample(cells: seq<Cell<Float>>) returns (written: seq<Float>)
    requires cells == [Val(NaN), Val(Fin(0.5)), Empty]
    ensures written == StdColumnAsWritten(cells).0 == [Fin(0.5), Fin(0.0)]
  {
    var c2: seq<Cell<Float>> := [Empty];
    assert c2[1..] == [];
    assert StdColumnAsWritten(c2).0 == [Fin(0.0)];
    var c1: seq<Cell<Float>> := [Val(Fin(0.5)), Empty];
    assert c1[1..] == c2;
    assert StdColumnAsWritten(c1).0 == [Fin(0.5), Fin(0.0)];
    assert cells[1..] == c1;
    written := StdColumnAsWritten(cells).0;
  }
}

=== FILE: import_values.dfy ===
/** Per-value rules of the result importer: how fitted parameter cells
    read from the MATLAB result are sanitised, how the `Expt #1` alias of
    the fitting tool is resolved, how residual time points become text,
    and where a record is placed by its experiment field. */
module ImportValues {
  import opened Wrappers
  import opened Text

  /** A MATLAB double: finite, infinite (either sign), or NaN. */
  datatype Float = Fin(r: real) | Inf(negative: bool) | NaN

  /** A MATLAB cell, which may be empty. */
  datatype Cell<T> = Empty | Val(v: T)

  /** The replacement for an infinite value or a missing upper bound. */
  const DefaultUpper: real := 1000.0
  /** The unit given to a parameter whose unit cell is empty. */
  const DefaultUnit := "mmol*gDCW-1*hr-1"
  /** The fitting tool's name for the first experiment of a simulation. */
  const FirstExperimentAlias := "Expt #1"

  // ---------------------------------------------------------------------
  // Parameter cells

  /** Python's `not d` on a cell: true for an empty cell and for a 1x1
      array holding 0 (a NaN or an infinity is truthy). */
  predicate Falsy(c: Cell<Float>)
  {
    c.Empty? || c == Val(Fin(0.0))
  }

  /** A fitted value: empty, 0 or NaN reads as 0, an infinity of either
      sign as 1000, any other finite value as itself. */
  function ParValue(c: Cell<Float>): (x: real)
    ensures c.Val? && c.v.Fin? ==> x == c.v.r
    ensures c.Val? && c.v.Inf? ==> x == DefaultUpper
    ensures !(c.Val? && (c.v.Fin? || c.v.Inf?)) ==> x == 0.0
  {
    if Falsy(c) then 0.0
    else match c.v
      case NaN => 0.0
      case Inf(_) => DefaultUpper
      case Fin(x) => x
  }

  /** A lower bound: empty, 0 or NaN reads as 0; infinities are kept. */
  function ParLower(c: Cell<Float>): (b: Float)
    ensures b != NaN
    ensures c.Val? && c.v != NaN ==> b == c.v
    ensures c == Empty || c == Val(NaN) ==> b == Fin(0.0)
  {
    if Falsy(c) then Fin(0.0)
    else if c.v.NaN? then Fin(0.0)
    else c.v
  }

  /** An upper bound: empty, infinite or NaN reads as 1000, and so does a
      bound of 0, which `not d` also takes for a missing one. No upper
      bound of 0 is ever reported. */
  function ParUpper(c: Cell<Float>): (x: real)
    ensures x != 0.0
    ensures c.Val? && c.v.Fin? && c.v.r != 0.0 ==> x == c.v.r
    ensures !(c.Val? && c.v.Fin?) ==> x == DefaultUpper
    ensures Falsy(c) ==> x == DefaultUpper
  {
    if Falsy(c) then DefaultUpper
    else if c.v.Fin? then c.v.r
    else DefaultUpper
  }

  /** A unit: an empty cell or an empty text takes the default flux unit.
      No stored unit is empty. */
  function ParUnit(c: Cell<string>): (u: string)
    ensures u != ""
    ensures c.Val? && c.v != "" ==> u == c.v
    ensures c.Empty? || c.v == "" ==> u == DefaultUnit
  {
    if c.Empty? || c.v == "" then DefaultUnit else c.v
  }

  /** The upper bound read from a cell is never below the value read from
      the same cell, and the two differ exactly when the cell is empty, 0
      or NaN (value 0, bound 1000). */
  lemma ValueWithinUpper(c: Cell<Float>)
    ensures ParValue(c) <= ParUpper(c)
    ensures ParValue(c) != ParUpper(c) <==> Falsy(c) || c == Val(NaN)
  {
  }

  /** Sanitised values are fixed points: a value, bound or unit read back
      as a cell comes out unchanged. */
  lemma SanitisedAreFixed(c: Cell<Float>, u: Cell<string>)
    ensures ParValue(Val(Fin(ParValue(c)))) == ParValue(c)
    ensures ParUpper(Val(Fin(ParUpper(c)))) == ParUpper(c)
    ensures ParLower(Val(ParLower(c))) == ParLower(c)
    ensures ParUnit(Val(ParUnit(u))) == ParUnit(u)
  {
  }

  // ---------------------------------------------------------------------
  // The value and standard-deviation columns

  /** The sanitised values of a list of value cells. */
  function Values(cs: seq<Cell<Float>>): (xs: seq<real>)
    ensures |xs| == |cs|
    ensures forall k :: 0 <= k < |cs| ==> xs[k] == ParValue(cs[k])
  {
    seq(|cs|, k requires 0 <= k < |cs| => ParValue(cs[k]))
  }

  /** The standard-deviation cells of a list read as the importer reads
      them: an empty cell adds 0 to the standard deviations, a NaN adds 0
      to the VALUES, anything else adds itself to the standard deviations.
      The result is (standard deviations, values appended). */
  function StdColumnAsWritten(cs: seq<Cell<Float>>): (r: (seq<Float>, seq<real>))
    decreases |cs|
  {
    if |cs| == 0 then ([], [])
    else
      var rest := StdColumnAsWritten(cs[1..]);
      if Falsy(cs[0]) then ([Fin(0.0)] + rest.0, rest.1)
      else if cs[0].v.NaN? then (rest.0, [0.0] + rest.1)
      else ([cs[0].v] + rest.0, rest.1)
  }

  /** The number of NaN cells. */
  function CountNaN(cs: seq<Cell<Float>>): (n: nat)
    ensures n <= |cs|
    decreases |cs|
  {
    if |cs| == 0 then 0 else (if cs[0] == Val(NaN) then 1 else 0) + CountNaN(cs[1..])
  }

  /** As written, the standard-deviation column is one entry short for
      every NaN, and the value column one entry long. */
  lemma {:induction false} StdColumnLengths(cs: seq<Cell<Float>>)
    ensures |StdColumnAsWritten(cs).0| == |cs| - CountNaN(cs)
    ensures |StdColumnAsWritten(cs).1| == CountNaN(cs)
    ensures forall k :: 0 <= k < |StdColumnAsWritten(cs).1| ==> StdColumnAsWritten(cs).1[k] == 0.0
    decreases |cs|
  {
    if |cs| > 0 {
      StdColumnLengths(cs[1..]);
    }
  }

  /** The value column the importer indexes: the sanitised values, then a
      0 for every NaN standard deviation. */
  function ValueColumn(vals: seq<Cell<Float>>, stds: seq<Cell<Float>>): (r: seq<real>)
  {
    Values(vals) + StdColumnAsWritten(stds).1
  }

  /** The zeros a NaN standard deviation appends land after every real
      value, so the value of parameter k is still its own. */
  lemma ValueColumnAligned(vals: seq<Cell<Float>>, stds: seq<Cell<Float>>, k: nat)
    requires k < |vals|
    ensures k < |ValueColumn(vals, stds)| && ValueColumn(vals, stds)[k] == ParValue(vals[k])
  {
  }

  /** The evidently intended standard deviation: empty, 0 or NaN reads as
      0, anything else as itself. */
  function ParStd(c: Cell<Float>): (f: Float)
    ensures f != NaN
    ensures c.Val? && c.v != NaN ==> f == c.v
  {
    if Falsy(c) || c.v.NaN? then Fin(0.0) else c.v
  }

  /** The intended standard-deviation column: one entry per parameter. */
  function StdColumn(cs: seq<Cell<Float>>): (r: seq<Float>)
    ensures |r| == |cs|
    ensures forall k :: 0 <= k < |cs| ==> r[k] == ParStd(cs[k])
  {
    seq(|cs|, k requires 0 <= k < |cs| => ParStd(cs[k]))
  }

  /** Without NaN cells, what is written is what is intended. */
  lemma {:induction false} StdColumnAgreesWithoutNaN(cs: seq<Cell<Float>>)
    requires forall k :: 0 <= k < |cs| ==> cs[k] != Val(NaN)
    ensures StdColumnAsWritten(cs) == (StdColumn(cs), [])
    decreases |cs|
  {
    if |cs| > 0 {
      StdColumnAgreesWithoutNaN(cs[1..]);
      assert StdColumn(cs) == [ParStd(cs[0])] + StdColumn(cs[1..]);
    }
  }

  /** A NaN followed by a finite deviation: the finite deviation moves to
      the first parameter's index and the second index is past the end. */
  lemma NaNStdShiftsColumn()
    ensures var cs := [Val(NaN), Val(Fin(0.5))];
      && StdColumnAsWritten(cs) == ([Fin(0.5)], [0.0])
      && StdColumn(cs) == [Fin(0.0), Fin(0.5)]
  {
    var cs: seq<Cell<Float>> := [Val(NaN), Val(Fin(0.5))];
    assert cs[1..] == [Val(Fin(0.5))];
    assert cs[1..][1..] == [];
    var tail: seq<Cell<Float>> := [Val(Fin(0.5))];
    assert tail[1..] == [];
    assert StdColumnAsWritten(tail[1..]) == ([], []);
    assert StdColumnAsWritten(tail).0 == [Fin(0.5)] + StdColumnAsWritten(tail[1..]).0;
    assert StdColumnAsWritten(tail).1 == StdColumnAsWritten(tail[1..]).1;
    assert StdColumnAsWritten(tail).0 == [Fin(0.5)];
    assert StdColumnAsWritten(tail).1 == [];
    assert cs[1..] == tail;
    assert StdColumnAsWritten(cs).0 == [Fin(0.5)];
    assert StdColumnAsWritten(cs).1 == [0.0];
    assert StdColumn(cs)[0] == Fin(0.0) && StdColumn(cs)[1] == Fin(0.5);
    assert StdColumnAsWritten(tail) == ([Fin(0.5)], []);
  }

  // ---------------------------------------------------------------------
  // Experiments, samples and time points

  /** A parameter id: every `Expt #1` in it becomes the first experiment
      id. Looking up that experiment in an empty list is an IndexError. */
  function ParId(id: string, exps: seq<string>): (r: Option<string>)
    ensures r.None? <==> Contains(id, FirstExperimentAlias) && |exps| == 0
    ensures r.Some? && !Contains(id, FirstExperimentAlias) ==> r.value == id
    ensures r.Some? && Contains(id, FirstExperimentAlias) ==>
      r.value == Join(SplitOn(id, FirstExperimentAlias), exps[0])
  {
    if Contains(id, FirstExperimentAlias) then
      if |exps| == 0 then None
      else
        ReplaceIsSplitJoin(id, FirstExperimentAlias, exps[0]);
        Some(ReplaceAll(id, FirstExperimentAlias, exps[0]))
    else Some(id)
  }

  /** A residual's experiment: exactly `Expt #1` names the first
      experiment; any other text is kept. */
  function ResidualExpt(expt: string, exps: seq<string>): (r: Option<string>)
    ensures r.None? <==> expt == FirstExperimentAlias && |exps| == 0
    ensures r.Some? && expt == FirstExperimentAlias ==> r.value == exps[0] && r.value in exps
    ensures r.Some? && expt != FirstExperimentAlias ==> r.value == expt
  {
    if expt == FirstExperimentAlias then
      if |exps| == 0 then None else Some(exps[0])
    else Some(expt)
  }

  /** A residual time point as text: an infinity of either sign is "0",
      NaN is Python's "nan", a finite time is its `str`. */
  function ResidualTime(t: Float, fmt: real -> string): (s: string)
    ensures t.Inf? ==> s == "0"
    ensures t.Fin? ==> s == fmt(t.r)
  {
    match t
    case Inf(_) => "0"
    case NaN => "nan"
    case Fin(x) => fmt(x)
  }

  /** The parameter rule and the residual rule agree on the alias itself
      and on text without it; they differ only on longer text holding the
      alias, which only the parameter rule rewrites. */
  lemma AliasRulesAgree(id: string, exps: seq<string>)
    ensures id == FirstExperimentAlias || !Contains(id, FirstExperimentAlias) ==> ParId(id, exps) == ResidualExpt(id, exps)
    ensures |exps| > 0 && exps[0] != FirstExperimentAlias && id == "x" + FirstExperimentAlias ==>
      ParId(id, exps) != ResidualExpt(id, exps)
  {
    if id == FirstExperimentAlias {
      assert IsPrefix(FirstExperimentAlias, FirstExperimentAlias);
      if |exps| > 0 {
        ReplaceWhole(FirstExperimentAlias, exps[0]);
      }
    }
    if |exps| > 0 && exps[0] != FirstExperimentAlias && id == "x" + FirstExperimentAlias {
      assert id[1..] == FirstExperimentAlias;
      assert IsPrefix(FirstExperimentAlias, id[1..]);
      assert Contains(id[1..], FirstExperimentAlias);
      assert Contains(id, FirstExperimentAlias);
      ReplaceAfterPrefix("x", FirstExperimentAlias, FirstExperimentAlias, exps[0]);
      ReplaceWhole(FirstExperimentAlias, exps[0]);
      assert ReplaceAll(id, FirstExperimentAlias, exps[0]) == "x" + exps[0];
      assert ParId(id, exps).value == "x" + exps[0];
      assert ("x" + exps[0])[1..] == exps[0];
    }
  }

  /** An infinite time point of either sign is labelled "0" whatever the
      number formatting, and it shares its label with a finite time point
      exactly when that point is formatted as "0". */
  lemma InfiniteTimeLabel(negative: bool, t: real, fmt: real -> string, fmt2: real -> string)
    ensures ResidualTime(Inf(negative), fmt) == ResidualTime(Inf(!negative), fmt2)
    ensures ResidualTime(Inf(negative), fmt) == ResidualTime(Fin(t), fmt) <==> fmt(t) == "0"
  {
  }

  /** Where a record goes: the experiment and sample it is filed under, or
      nowhere. */
  datatype Placement = Placed(experimentId: string, sample: string) | Dropped

  /** An experiment field found among the experiment ids files the record
      under it and the first sample; one found among the sample names
      files it under the first experiment and that sample; any other
      field drops it. Taking the first of an empty list is an IndexError. */
  function Place(expt: string, exps: seq<string>, samples: seq<string>): (r: Option<Placement>)
    ensures r == Some(Dropped) <==> expt !in exps && expt !in samples
    ensures r.None? <==> (expt in exps && |samples| == 0) || (expt !in exps && expt in samples && |exps| == 0)
    ensures r.Some? && r.value.Placed? && expt in exps ==> r.value == Placed(expt, samples[0])
    ensures r.Some? && r.value.Placed? && expt !in exps ==> r.value == Placed(exps[0], expt)
  {
    if expt in exps then
      if |samples| == 0 then None else Some(Placed(expt, samples[0]))
    else if expt in samples then
      if |exps| == 0 then None else Some(Placed(exps[0], expt))
    else Some(Dropped)
  }

  /** A placed record is filed under a known experiment and a known
      sample, and its own field is one of the two. */
  lemma PlacedIsKnown(expt: string, exps: seq<string>, samples: seq<string>)
    requires Place(expt, exps, samples).Some? && Place(expt, exps, samples).value.Placed?
    ensures var p := Place(expt, exps, samples).value;
      && p.experimentId in exps && p.sample in samples
      && (p.experimentId == expt || p.sample == expt)
  {
  }
}

=== FILE: plan.dfy ===
/** The decisions of `make_isotopomerRxnEquations_INCA`: which clauses
    each side of a reaction gets, with which coefficient, threading the
    remaining stoichiometry of each participant and the pseudo-metabolite
    list shared by both sides. Rendering the clauses to text lives in
    module EquationText. */
module ReactionPlan {
  import opened Text
  import opened AtomMapping

  /** One reactant or product with its (signed) stoichiometry. */
  datatype Participant = Participant(id: string, stoich: real)

  /** One side of a reaction: its participants and its tracked entries
      (the parallel `*_tracked_I` / `*_mapping_I` arrays, zipped). */
  datatype Side = Side(participants: seq<Participant>, tracked: seq<Tracked>)

  datatype Reaction = Reaction(reactants: Side, products: Side, reversible: bool)

  datatype Role = Reactants | Products

  /** Suffix of the synthesised partner of an exchange reaction. */
  const ExchangeSuffix: string := ".EX"
  /** Raw stoichiometry that marks a reactant-side pseudo-metabolite. */
  const PseudoReactantStoich: real := -0.0000000000001
  /** Coefficient text printed for a reactant-side pseudo-metabolite. */
  const PseudoReactantText: string := "0.0000000000001"
  /** Substring that marks a product-side pseudo-metabolite. */
  const BalanceMarker: string := ".balance"

  /** A printed coefficient: a number formatted with `str`, or the fixed
      literal used for reactant-side pseudo-metabolites. */
  datatype Coef = Num(x: real) | PseudoTiny

  /** One clause of an equation side.
      Bare:   `coef*id`, untracked;
      Mapped: `coef*id (atoms)` for a tracked entry of a participant;
      Pseudo: `coef*id (atoms)` for an orphan tracked entry.
      A Mapped or Pseudo clause whose entry has an empty mapping is left
      unclosed by the source (`coef*id (`). */
  datatype Clause =
    | Bare(amount: real, id: string)
    | Mapped(coef: Coef, entry: Tracked)
    | Pseudo(coef: Coef, entry: Tracked)

  /** The clauses of both sides, in output order. `hasProducts` records
      whether the product side has any participant at all (a participant
      can emit no clause, and the text then differs). */
  datatype Plan = Plan(reactants: seq<Clause>, products: seq<Clause>, reversible: bool, hasProducts: bool)

  /** State threaded through the tracked entries of one participant. */
  datatype Scan = Scan(clauses: seq<Clause>, remaining: real, pseudo: seq<string>)

  /** What one participant (or one side) emits, and the pseudo list after it. */
  datatype Emitted = Emitted(clauses: seq<Clause>, pseudo: seq<string>)

  function Abs(x: real): (r: real)
    ensures r >= 0.0 && (r == x || r == -x)
  {
    if x < 0.0 then -x else x
  }

  function Ids(ps: seq<Participant>): (r: seq<string>)
    ensures |r| == |ps| && forall k :: 0 <= k < |ps| ==> r[k] == ps[k].id
  {
    seq(|ps|, k requires 0 <= k < |ps| => ps[k].id)
  }

  function TrackedIds(ts: seq<Tracked>): (r: seq<string>)
    ensures |r| == |ts| && forall k :: 0 <= k < |ts| ==> r[k] == ts[k].id
  {
    seq(|ts|, k requires 0 <= k < |ts| => ts[k].id)
  }

  predicate NoDup(xs: seq<string>)
  {
    forall i, j :: 0 <= i < j < |xs| ==> xs[i] != xs[j]
  }

  // ---------------------------------------------------------------------
  // Exchange reactions

  function Exchange(t: Tracked): (r: Tracked)
  {
    t.(id := t.id + ExchangeSuffix)
  }

  /** The side synthesised for an exchange reaction from the single
      participant of the other side `from`: `id.EX` with the same
      stoichiometry; its first tracked entry is mirrored only when that
      list is non-empty and its first id is non-empty, otherwise the
      synthesised side keeps the tracked entries it was given. */
  function Mirror(from: Side, own: Side): (r: Side)
    requires |from.participants| == 1
  {
    var p := from.participants[0];
    var tracked :=
      if |from.tracked| > 0 && from.tracked[0].id != "" then [Exchange(from.tracked[0])]
      else own.tracked;
    Side([Participant(p.id + ExchangeSuffix, p.stoich)], tracked)
  }

  /** Adds the `.EX` partner when one side is empty and the other has
      exactly one participant. */
  function Normalise(rx: Reaction): (n: Reaction)
    ensures n.reversible == rx.reversible
  {
    if |rx.reactants.participants| == 0 && |rx.products.participants| == 1 then
      rx.(reactants := Mirror(rx.products, rx.reactants))
    else if |rx.products.participants| == 0 && |rx.reactants.participants| == 1 then
      rx.(products := Mirror(rx.reactants, rx.products))
    else rx
  }

  // ---------------------------------------------------------------------
  // Clause bookkeeping

  /** The clause ends with `) + ` (or is bare); an empty mapping leaves it open. */
  predicate Closed(c: Clause)
  {
    c.Bare? || c.entry.mapping != ""
  }

  function ClauseId(c: Clause): (r: string)
  {
    if c.Bare? then c.id else c.entry.id
  }

  function CoefValue(c: Coef): (r: real)
  {
    match c
    case Num(x) => x
    case PseudoTiny => 0.0000000000001
  }

  /** The amount of the metabolite a clause stands for. */
  function Magnitude(c: Clause): (r: real)
  {
    if c.Bare? then c.amount else Abs(CoefValue(c.coef))
  }

  /** Sum of the magnitudes of the closed clauses for metabolite x. */
  function ClosedSum(x: string, cs: seq<Clause>): (r: real)
    decreases |cs|
  {
    if |cs| == 0 then 0.0
    else
      var c := cs[|cs| - 1];
      ClosedSum(x, cs[..|cs| - 1]) + (if Closed(c) && ClauseId(c) == x then Magnitude(c) else 0.0)
  }

  /** The ids of the closed pseudo-metabolite clauses, in order. */
  function ClosedPseudoIds(cs: seq<Clause>): (r: seq<string>)
    decreases |cs|
  {
    if |cs| == 0 then []
    else
      var c := cs[|cs| - 1];
      ClosedPseudoIds(cs[..|cs| - 1]) + (if c.Pseudo? && Closed(c) then [c.entry.id] else [])
  }

  /** The orphan rule of each side: a reactant-side orphan is injected only
      with the sentinel stoichiometry, a product-side orphan only when its
      id contains `.balance`. */
  predicate OrphanRule(role: Role, t: Tracked)
  {
    match role
    case Reactants => t.stoich == PseudoReactantStoich
    case Products => Contains(t.id, BalanceMarker)
  }

  function OrphanCoef(role: Role, t: Tracked): (r: Coef)
  {
    match role
    case Reactants => PseudoTiny
    case Products => Num(t.stoich)
  }

  /** Coefficient of a partial split: |t| on reactants, raw t on products. */
  function PartialCoef(role: Role, t: Tracked): (r: Coef)
  {
    match role
    case Reactants => Num(Abs(t.stoich))
    case Products => Num(t.stoich)
  }

  /** What every clause emitted while processing participant `id` looks
      like: untracked clauses and tracked splits are for `id` itself and
      print |t| (raw t allowed on products); pseudo clauses are orphans of
      the side that satisfy the orphan rule. Every entry comes from `ts`. */
  predicate FitsParticipant(role: Role, id: string, sideIds: seq<string>, ts: seq<Tracked>, c: Clause)
  {
    match c
    case Bare(x, i) => i == id && x >= 0.0
    case Mapped(coef, t) =>
      && t in ts && t.id == id && coef.Num?
      && (coef.x == Abs(t.stoich) || (role == Products && coef.x == t.stoich))
    case Pseudo(coef, t) =>
      t in ts && t.id !in sideIds && OrphanRule(role, t) && coef == OrphanCoef(role, t)
  }

  predicate AllFit(role: Role, id: string, sideIds: seq<string>, ts: seq<Tracked>, cs: seq<Clause>)
  {
    forall k :: 0 <= k < |cs| ==> FitsParticipant(role, id, sideIds, ts, cs[k])
  }

  /** The same shape without naming the participant: bare and mapped
      clauses are for some participant of the side. */
  predicate FitsSide(role: Role, sideIds: seq<string>, ts: seq<Tracked>, c: Clause)
  {
    FitsParticipant(role, ClauseId(c), sideIds, ts, c) && (!c.Pseudo? ==> ClauseId(c) in sideIds)
  }

  predicate SideFits(role: Role, sideIds: seq<string>, ts: seq<Tracked>, cs: seq<Clause>)
  {
    forall k :: 0 <= k < |cs| ==> FitsSide(role, sideIds, ts, cs[k])
  }

  // ---------------------------------------------------------------------
  // The scan

  /** One tracked entry t examined while processing participant `id`
      whose remaining amount is st.remaining:
      - |t| equal to the remainder: a clause with the remainder, which
        drops to 0;
      - |t| smaller: a clause with |t| (raw t on products), subtracted;
      - an orphan of the side that passes the orphan rule and is not yet in
        the pseudo list: a pseudo clause, and its id joins the list;
      - otherwise nothing.
      An empty mapping still emits its (unclosed) clause but neither
      subtracts nor records the pseudo id. */
  function Step(role: Role, id: string, sideIds: seq<string>, t: Tracked, st: Scan): (r: Scan)
    requires 0.0 <= st.remaining
    ensures 0.0 <= r.remaining <= st.remaining
    ensures |st.clauses| <= |r.clauses| <= |st.clauses| + 1 && r.clauses[..|st.clauses|] == st.clauses
    ensures |st.pseudo| <= |r.pseudo| && r.pseudo[..|st.pseudo|] == st.pseudo
  {
    var a := Abs(t.stoich);
    var keep := t.mapping != "";
    if t.id == id && st.remaining == a then
      var c := Mapped(Num(st.remaining), t);
      Scan(st.clauses + [c], if keep then st.remaining - a else st.remaining, st.pseudo)
    else if t.id == id && st.remaining > a then
      var c := Mapped(PartialCoef(role, t), t);
      Scan(st.clauses + [c], if keep then st.remaining - a else st.remaining, st.pseudo)
    else if t.id !in sideIds && OrphanRule(role, t) && t.id !in st.pseudo then
      var c := Pseudo(OrphanCoef(role, t), t);
      Scan(st.clauses + [c], st.remaining, if keep then st.pseudo + [t.id] else st.pseudo)
    else st
  }

  /** A step keeps the pseudo list equal to the closed pseudo clauses
      emitted, without duplicates. */
  lemma StepPseudo(role: Role, id: string, sideIds: seq<string>, t: Tracked, st: Scan)
    requires 0.0 <= st.remaining
    ensures var r := Step(role, id, sideIds, t, st);
      && ClosedPseudoIds(r.clauses) == ClosedPseudoIds(st.clauses) + r.pseudo[|st.pseudo|..]
      && (NoDup(st.pseudo) ==> NoDup(r.pseudo))
  {
    var r := Step(role, id, sideIds, t, st);
    if |r.clauses| == |st.clauses| {
      assert r == st;
      assert st.pseudo[|st.pseudo|..] == [];
    } else {
      var c := r.clauses[|st.clauses|];
      assert r.clauses == st.clauses + [c];
      AppendClause(st.clauses, c);
      if c.Pseudo? && Closed(c) {
        assert r.pseudo == st.pseudo + [t.id];
        assert r.pseudo[|st.pseudo|..] == [t.id];
      } else {
        assert r.pseudo == st.pseudo;
        assert r.pseudo[|st.pseudo|..] == [];
      }
    }
  }

  /** A step moves amount between the remainder and the closed clauses
      for `id` without changing their total, and what it emits fits. */
  lemma StepBalance(role: Role, id: string, sideIds: seq<string>, t: Tracked, st: Scan)
    requires 0.0 <= st.remaining
    ensures var r := Step(role, id, sideIds, t, st);
      id in sideIds ==> ClosedSum(id, r.clauses) + r.remaining == ClosedSum(id, st.clauses) + st.remaining
  {
    var r := Step(role, id, sideIds, t, st);
    if |r.clauses| > |st.clauses| {
      var c := r.clauses[|st.clauses|];
      assert r.clauses == st.clauses + [c];
      AppendClause(st.clauses, c);
    }
  }

  lemma StepFits(role: Role, id: string, sideIds: seq<string>, t: Tracked, st: Scan)
    requires 0.0 <= st.remaining
    ensures var r := Step(role, id, sideIds, t, st);
      forall k :: |st.clauses| <= k < |r.clauses| ==> FitsParticipant(role, id, sideIds, [t], r.clauses[k])
  {
  }

  /** What appending one clause does to the bookkeeping functions. */
  lemma AppendClause(cs: seq<Clause>, c: Clause)
    ensures (cs + [c])[..|cs|] == cs
    ensures forall x :: ClosedSum(x, cs + [c]) == ClosedSum(x, cs) + (if Closed(c) && ClauseId(c) == x then Magnitude(c) else 0.0)
    ensures ClosedPseudoIds(cs + [c]) == ClosedPseudoIds(cs) + (if c.Pseudo? && Closed(c) then [c.entry.id] else [])
  {
    assert (cs + [c])[..|cs|] == cs;
  }

  /** Examines the tracked entries ts in order. The remainder never goes
      below 0 nor above where it started; the clauses and the pseudo list
      only grow. */
  function ScanAll(role: Role, id: string, sideIds: seq<string>, ts: seq<Tracked>, st: Scan): (r: Scan)
    requires 0.0 <= st.remaining
    ensures 0.0 <= r.remaining <= st.remaining
    ensures |st.clauses| <= |r.clauses| && r.clauses[..|st.clauses|] == st.clauses
    ensures |st.pseudo| <= |r.pseudo| && r.pseudo[..|st.pseudo|] == st.pseudo
    decreases |ts|
  {
    if |ts| == 0 then st
    else
      var st1 := Step(role, id, sideIds, ts[0], st);
      var r := ScanAll(role, id, sideIds, ts[1..], st1);
      assert r.clauses[..|st.clauses|] == st1.clauses[..|st.clauses|];
      assert r.pseudo[..|st.pseudo|] == st1.pseudo[..|st.pseudo|];
      r
  }

  /** The pseudo list grows by exactly the ids of the closed pseudo
      clauses the scan emits, and never gains a duplicate. */
  lemma {:induction false} ScanPseudo(role: Role, id: string, sideIds: seq<string>, ts: seq<Tracked>, st: Scan)
    requires 0.0 <= st.remaining
    ensures var r := ScanAll(role, id, sideIds, ts, st);
      && ClosedPseudoIds(r.clauses) == ClosedPseudoIds(st.clauses) + r.pseudo[|st.pseudo|..]
      && (NoDup(st.pseudo) ==> NoDup(r.pseudo))
    decreases |ts|
  {
    if |ts| > 0 {
      var st1 := Step(role, id, sideIds, ts[0], st);
      ScanCons(role, id, sideIds, ts, st);
      StepPseudo(role, id, sideIds, ts[0], st);
      ScanPseudo(role, id, sideIds, ts[1..], st1);
      var r := ScanAll(role, id, sideIds, ts[1..], st1);
      ExtendTail(st.pseudo, st1.pseudo, r.pseudo);
      SeqAssoc(ClosedPseudoIds(st.clauses), st1.pseudo[|st.pseudo|..], r.pseudo[|st1.pseudo|..]);
    } else {
      EmptyTail(st.pseudo);
      EmptyTail(ClosedPseudoIds(st.clauses));
    }
  }

  /** One step of the scan. */
  lemma ScanCons(role: Role, id: string, sideIds: seq<string>, ts: seq<Tracked>, st: Scan)
    requires 0.0 <= st.remaining && |ts| > 0
    ensures ScanAll(role, id, sideIds, ts, st) == ScanAll(role, id, sideIds, ts[1..], Step(role, id, sideIds, ts[0], st))
  {
  }

  /** Closed clauses for `id` plus the remainder keep their total. */
  lemma {:induction false} ScanBalance(role: Role, id: string, sideIds: seq<string>, ts: seq<Tracked>, st: Scan)
    requires 0.0 <= st.remaining
    requires id in sideIds
    ensures var r := ScanAll(role, id, sideIds, ts, st);
      ClosedSum(id, r.clauses) + r.remaining == ClosedSum(id, st.clauses) + st.remaining
    decreases |ts|
  {
    if |ts| > 0 {
      StepBalance(role, id, sideIds, ts[0], st);
      ScanBalance(role, id, sideIds, ts[1..], Step(role, id, sideIds, ts[0], st));
    }
  }

  /** The clauses of cs from index `from` on all fit participant `id`. */
  predicate FitFrom(role: Role, id: string, sideIds: seq<string>, all: seq<Tracked>, cs: seq<Clause>, from: nat)
  {
    forall k :: from <= k < |cs| ==> FitsParticipant(role, id, sideIds, all, cs[k])
  }

  lemma {:induction false} ScanFits(role: Role, id: string, sideIds: seq<string>, all: seq<Tracked>, ts: seq<Tracked>, st: Scan)
    requires 0.0 <= st.remaining
    requires forall t :: t in ts ==> t in all
    ensures FitFrom(role, id, sideIds, all, ScanAll(role, id, sideIds, ts, st).clauses, |st.clauses|)
    decreases |ts|
  {
    if |ts| > 0 {
      var st1 := Step(role, id, sideIds, ts[0], st);
      StepFits(role, id, sideIds, ts[0], st);
      ScanFits(role, id, sideIds, all, ts[1..], st1);
      var r := ScanAll(role, id, sideIds, ts[1..], st1);
      assert FitFrom(role, id, sideIds, all, r.clauses, |st1.clauses|);
      forall k | |st.clauses| <= k < |st1.clauses|
        ensures FitsParticipant(role, id, sideIds, all, r.clauses[k])
      {
        assert r.clauses[k] == st1.clauses[k];
        assert FitsParticipant(role, id, sideIds, [ts[0]], st1.clauses[k]);
      }
    }
  }

  /** All clauses of one participant occurrence: untracked, it is one bare
      clause with |s|; tracked, it is the scan of the side's tracked entries
      plus one bare clause with the remainder when that is still > 0. The
      closed clauses for the participant's id sum to |s|. */
  function ParticipantClauses(role: Role, p: Participant, sideIds: seq<string>, ts: seq<Tracked>, pseudo: seq<string>): (r: Emitted)
    requires p.id in sideIds
    ensures ClosedSum(p.id, r.clauses) == Abs(p.stoich)
    ensures |pseudo| <= |r.pseudo| && r.pseudo[..|pseudo|] == pseudo
  {
    var s := Abs(p.stoich);
    if p.id in TrackedIds(ts) then
      var sc := ScanAll(role, p.id, sideIds, ts, Scan([], s, pseudo));
      ScanBalance(role, p.id, sideIds, ts, Scan([], s, pseudo));
      var cs := sc.clauses + (if sc.remaining > 0.0 then [Bare(sc.remaining, p.id)] else []);
      ClosedSumAppend(p.id, sc.clauses, if sc.remaining > 0.0 then [Bare(sc.remaining, p.id)] else []);
      Emitted(cs, sc.pseudo)
    else
      Emitted([Bare(s, p.id)], pseudo)
  }

  lemma ParticipantPseudo(role: Role, p: Participant, sideIds: seq<string>, ts: seq<Tracked>, pseudo: seq<string>)
    requires p.id in sideIds
    ensures var r := ParticipantClauses(role, p, sideIds, ts, pseudo);
      && ClosedPseudoIds(r.clauses) == r.pseudo[|pseudo|..]
      && (NoDup(pseudo) ==> NoDup(r.pseudo))
  {
    var s := Abs(p.stoich);
    if p.id in TrackedIds(ts) {
      var st := Scan([], s, pseudo);
      var sc := ScanAll(role, p.id, sideIds, ts, st);
      ScanPseudo(role, p.id, sideIds, ts, st);
      EmptyTail(sc.pseudo[|pseudo|..]);
      if sc.remaining > 0.0 {
        AppendClause(sc.clauses, Bare(sc.remaining, p.id));
      } else {
        EmptyTail(sc.clauses);
      }
    } else {
      AppendClause([], Bare(s, p.id));
      EmptyTail(pseudo);
    }
  }

  lemma ParticipantFits(role: Role, p: Participant, sideIds: seq<string>, ts: seq<Tracked>, pseudo: seq<string>)
    requires p.id in sideIds
    ensures AllFit(role, p.id, sideIds, ts, ParticipantClauses(role, p, sideIds, ts, pseudo).clauses)
  {
    if p.id in TrackedIds(ts) {
      var st := Scan([], Abs(p.stoich), pseudo);
      ScanFits(role, p.id, sideIds, ts, ts, st);
      var sc := ScanAll(role, p.id, sideIds, ts, st);
      assert FitFrom(role, p.id, sideIds, ts, sc.clauses, 0);
      var cs := ParticipantClauses(role, p, sideIds, ts, pseudo).clauses;
      forall k | 0 <= k < |cs|
        ensures FitsParticipant(role, p.id, sideIds, ts, cs[k])
      {
        if k < |sc.clauses| {
          assert cs[k] == sc.clauses[k];
        }
      }
    }
  }

  /** The clauses of the participants ps (a suffix of the side whose ids
      are sideIds), in order. */
  function SideClauses(role: Role, ps: seq<Participant>, sideIds: seq<string>, ts: seq<Tracked>, pseudo: seq<string>): (r: Emitted)
    requires forall k :: 0 <= k < |ps| ==> ps[k].id in sideIds
    ensures |pseudo| <= |r.pseudo| && r.pseudo[..|pseudo|] == pseudo
    decreases |ps|
  {
    if |ps| == 0 then Emitted([], pseudo)
    else
      var first := ParticipantClauses(role, ps[0], sideIds, ts, pseudo);
      var rest := SideClauses(role, ps[1..], sideIds, ts, first.pseudo);
      assert rest.pseudo[..|pseudo|] == first.pseudo[..|pseudo|];
      Emitted(first.clauses + rest.clauses, rest.pseudo)
  }

  lemma {:induction false} SidePseudo(role: Role, ps: seq<Participant>, sideIds: seq<string>, ts: seq<Tracked>, pseudo: seq<string>)
    requires forall k :: 0 <= k < |ps| ==> ps[k].id in sideIds
    ensures var r := SideClauses(role, ps, sideIds, ts, pseudo);
      && ClosedPseudoIds(r.clauses) == r.pseudo[|pseudo|..]
      && (NoDup(pseudo) ==> NoDup(r.pseudo))
    decreases |ps|
  {
    if |ps| == 0 {
      EmptyTail(pseudo);
    } else {
      var first := ParticipantClauses(role, ps[0], sideIds, ts, pseudo);
      var rest := SideClauses(role, ps[1..], sideIds, ts, first.pseudo);
      SideCons(role, ps, sideIds, ts, pseudo);
      ParticipantPseudo(role, ps[0], sideIds, ts, pseudo);
      SidePseudo(role, ps[1..], sideIds, ts, first.pseudo);
      ClosedPseudoIdsAppend(first.clauses, rest.clauses);
      ExtendTail(pseudo, first.pseudo, rest.pseudo);
    }
  }

  /** One participant of the side loop. */
  lemma SideCons(role: Role, ps: seq<Participant>, sideIds: seq<string>, ts: seq<Tracked>, pseudo: seq<string>)
    requires |ps| > 0 && forall k :: 0 <= k < |ps| ==> ps[k].id in sideIds
    ensures var first := ParticipantClauses(role, ps[0], sideIds, ts, pseudo);
      var rest := SideClauses(role, ps[1..], sideIds, ts, first.pseudo);
      SideClauses(role, ps, sideIds, ts, pseudo) == Emitted(first.clauses + rest.clauses, rest.pseudo)
  {
  }

  /** Every clause of a side has the shape of FitsSide. */
  lemma {:induction false} SideClausesFit(role: Role, ps: seq<Participant>, sideIds: seq<string>, ts: seq<Tracked>, pseudo: seq<string>)
    requires forall k :: 0 <= k < |ps| ==> ps[k].id in sideIds
    ensures SideFits(role, sideIds, ts, SideClauses(role, ps, sideIds, ts, pseudo).clauses)
    decreases |ps|
  {
    if |ps| > 0 {
      var first := ParticipantClauses(role, ps[0], sideIds, ts, pseudo);
      var rest := SideClauses(role, ps[1..], sideIds, ts, first.pseudo);
      ParticipantFits(role, ps[0], sideIds, ts, pseudo);
      SideClausesFit(role, ps[1..], sideIds, ts, first.pseudo);
      var cs := first.clauses + rest.clauses;
      forall k | 0 <= k < |cs|
        ensures FitsSide(role, sideIds, ts, cs[k])
      {
        if k < |first.clauses| {
          assert FitsParticipant(role, ps[0].id, sideIds, ts, first.clauses[k]);
        } else {
          assert cs[k] == rest.clauses[k - |first.clauses|];
        }
      }
    }
  }

  /** The clauses of a whole side. */
  function SideOf(role: Role, side: Side, pseudo: seq<string>): (r: Emitted)
    ensures |pseudo| <= |r.pseudo| && r.pseudo[..|pseudo|] == pseudo
  {
    SideClauses(role, side.participants, Ids(side.participants), side.tracked, pseudo)
  }

  /** The clause lists of a reaction: reactants first, then products, the
      pseudo list starting empty and shared by both sides. */
  function PlanReaction(rx: Reaction): (p: Plan)
  {
    var n := Normalise(rx);
    var r := SideOf(Reactants, n.reactants, []);
    var q := SideOf(Products, n.products, r.pseudo);
    Plan(r.clauses, q.clauses, rx.reversible, |n.products.participants| > 0)
  }

  /** Each orphan id gets at most one closed pseudo clause in the whole
      equation: the pseudo list is shared by both sides and consulted
      before every injection. */
  lemma PseudoAtMostOnce(rx: Reaction)
    ensures NoDup(ClosedPseudoIds(PlanReaction(rx).reactants + PlanReaction(rx).products))
  {
    var n := Normalise(rx);
    SidesPseudo(n.reactants, n.products);
  }

  lemma SidesPseudo(a: Side, b: Side)
    ensures var r := SideOf(Reactants, a, []);
      NoDup(ClosedPseudoIds(r.clauses + SideOf(Products, b, r.pseudo).clauses))
  {
    var r := SideOf(Reactants, a, []);
    var q := SideOf(Products, b, r.pseudo);
    SidePseudo(Reactants, a.participants, Ids(a.participants), a.tracked, []);
    EmptyTail(r.pseudo);
    SidePseudo(Products, b.participants, Ids(b.participants), b.tracked, r.pseudo);
    ClosedPseudoIdsAppend(r.clauses, q.clauses);
    PrefixRejoin(r.pseudo, q.pseudo);
  }

  lemma {:induction false} ClosedPseudoIdsAppend(a: seq<Clause>, b: seq<Clause>)
    ensures ClosedPseudoIds(a + b) == ClosedPseudoIds(a) + ClosedPseudoIds(b)
    decreases |b|
  {
    if |b| == 0 {
      assert a + b == a;
    } else {
      ClosedPseudoIdsAppend(a, b[..|b| - 1]);
      assert (a + b)[..|a + b| - 1] == a + b[..|b| - 1];
    }
  }

  lemma {:induction false} ClosedSumAppend(x: string, a: seq<Clause>, b: seq<Clause>)
    ensures ClosedSum(x, a + b) == ClosedSum(x, a) + ClosedSum(x, b)
    decreases |b|
  {
    if |b| == 0 {
      assert a + b == a;
    } else {
      ClosedSumAppend(x, a, b[..|b| - 1]);
      assert (a + b)[..|a + b| - 1] == a + b[..|b| - 1];
    }
  }
}

=== FILE: plan_props.dfy ===
/** Properties of the clause lists chosen by ReactionPlan: how exchange
    partners are synthesised, what an untracked side looks like, and that
    the closed coefficients of every participant add back to its
    stoichiometry. */
module PlanProperties {
  import opened Text
  import opened AtomMapping
  import opened ReactionPlan

  /** The reaction with its sides exchanged. */
  function Swap(rx: Reaction): (sw: Reaction)
    ensures sw.reactants == rx.products && sw.products == rx.reactants && sw.reversible == rx.reversible
  {
    Reaction(rx.products, rx.reactants, rx.reversible)
  }

  /** Synthesis treats the two sides alike: exchanging the sides before
      or after it gives the same reaction. */
  lemma ExchangeSymmetric(rx: Reaction)
    ensures Normalise(Swap(rx)) == Swap(Normalise(rx))
  {
  }

  /** A reaction with one participant in all fills its empty side with
      one `.EX` partner of the same stoichiometry and keeps the other side;
      the partner takes a copy of the first tracked entry (suffixed `.EX`)
      when that entry has an id. Every other reaction is left as it is. */
  lemma ExchangeFillsEmptySide(rx: Reaction)
    ensures var n := Normalise(rx);
      var total := |rx.reactants.participants| + |rx.products.participants|;
      && (total == 1 ==>
            && |n.reactants.participants| == 1 && |n.products.participants| == 1
            && (|rx.reactants.participants| == 1 ==> n.reactants == rx.reactants)
            && (|rx.products.participants| == 1 ==> n.products == rx.products)
            && (|rx.reactants.participants| == 1 ==>
                  n.products.participants[0].id == rx.reactants.participants[0].id + ExchangeSuffix
                  && n.products.participants[0].stoich == rx.reactants.participants[0].stoich)
            && (|rx.products.participants| == 1 ==>
                  n.reactants.participants[0].id == rx.products.participants[0].id + ExchangeSuffix
                  && n.reactants.participants[0].stoich == rx.products.participants[0].stoich))
      && (total == 1 && |rx.products.participants| == 1 && |rx.products.tracked| > 0 && rx.products.tracked[0].id != "" ==>
            n.reactants.tracked == [Exchange(rx.products.tracked[0])])
      && (total == 1 && |rx.reactants.participants| == 1 && |rx.reactants.tracked| > 0 && rx.reactants.tracked[0].id != "" ==>
            n.products.tracked == [Exchange(rx.reactants.tracked[0])])
      && (total == 1 && |rx.products.participants| == 1 && !(|rx.products.tracked| > 0 && rx.products.tracked[0].id != "") ==>
            n.reactants.tracked == rx.reactants.tracked)
      && (total == 1 && |rx.reactants.participants| == 1 && !(|rx.reactants.tracked| > 0 && rx.reactants.tracked[0].id != "") ==>
            n.products.tracked == rx.products.tracked)
      && (total != 1 ==> n == rx)
  {
  }

  /** A participant with no tracked entry of its id is one bare clause
      with |s|; the tracked entries of the side are not looked at, so no
      orphan is injected. */
  lemma UntrackedParticipant(role: Role, p: Participant, sideIds: seq<string>, ts: seq<Tracked>, pseudo: seq<string>)
    requires p.id in sideIds && p.id !in TrackedIds(ts)
    ensures ParticipantClauses(role, p, sideIds, ts, pseudo) == Emitted([Bare(Abs(p.stoich), p.id)], pseudo)
  {
  }

  /** The bare clauses of an untracked list of participants. */
  function BareClauses(ps: seq<Participant>): (cs: seq<Clause>)
    ensures |cs| == |ps|
  {
    seq(|ps|, k requires 0 <= k < |ps| => Bare(Abs(ps[k].stoich), ps[k].id))
  }

  /** A side none of whose participants is tracked is one bare clause per
      participant, in order, and leaves the pseudo list alone, even when
      its tracked list holds orphans. */
  lemma {:induction false} UntrackedSide(role: Role, ps: seq<Participant>, sideIds: seq<string>, ts: seq<Tracked>, pseudo: seq<string>)
    requires forall k :: 0 <= k < |ps| ==> ps[k].id in sideIds && ps[k].id !in TrackedIds(ts)
    ensures SideClauses(role, ps, sideIds, ts, pseudo) == Emitted(BareClauses(ps), pseudo)
    decreases |ps|
  {
    if |ps| > 0 {
      UntrackedParticipant(role, ps[0], sideIds, ts, pseudo);
      UntrackedSide(role, ps[1..], sideIds, ts, pseudo);
      assert BareClauses(ps) == [Bare(Abs(ps[0].stoich), ps[0].id)] + BareClauses(ps[1..]);
    }
  }

  /** Sum of |s| over the participants with id x. */
  function SumFor(x: string, ps: seq<Participant>): (r: real)
    ensures r >= 0.0
    decreases |ps|
  {
    if |ps| == 0 then 0.0
    else (if ps[0].id == x then Abs(ps[0].stoich) else 0.0) + SumFor(x, ps[1..])
  }

  /** Clauses emitted for participant `id` hold nothing closed for another
      participant x of the same side. */
  lemma {:induction false} OtherParticipantSum(role: Role, id: string, x: string, sideIds: seq<string>, ts: seq<Tracked>, cs: seq<Clause>)
    requires x in sideIds && x != id
    requires AllFit(role, id, sideIds, ts, cs)
    ensures ClosedSum(x, cs) == 0.0
    decreases |cs|
  {
    if |cs| > 0 {
      var c := cs[|cs| - 1];
      assert FitsParticipant(role, id, sideIds, ts, c);
      OtherParticipantSum(role, id, x, sideIds, ts, cs[..|cs| - 1]);
    }
  }

  /** For every participant id x of a side, the closed clauses for x add
      up to the sum of |s| over the occurrences of x. */
  lemma {:induction false} SideBalance(role: Role, x: string, ps: seq<Participant>, sideIds: seq<string>, ts: seq<Tracked>, pseudo: seq<string>)
    requires forall k :: 0 <= k < |ps| ==> ps[k].id in sideIds
    requires x in sideIds
    ensures ClosedSum(x, SideClauses(role, ps, sideIds, ts, pseudo).clauses) == SumFor(x, ps)
    decreases |ps|
  {
    if |ps| > 0 {
      var first := ParticipantClauses(role, ps[0], sideIds, ts, pseudo);
      var rest := SideClauses(role, ps[1..], sideIds, ts, first.pseudo);
      SideBalance(role, x, ps[1..], sideIds, ts, first.pseudo);
      ClosedSumAppend(x, first.clauses, rest.clauses);
      if ps[0].id != x {
        ParticipantFits(role, ps[0], sideIds, ts, pseudo);
        OtherParticipantSum(role, ps[0].id, x, sideIds, ts, first.clauses);
      }
    }
  }

  /** Reaction-level balance: on each side of the equation (after exchange
      synthesis), the closed coefficients of every participant id add up
      to its total |s|. */
  lemma ReactionBalance(rx: Reaction, x: string)
    ensures var n := Normalise(rx);
      && (x in Ids(n.reactants.participants) ==>
            ClosedSum(x, PlanReaction(rx).reactants) == SumFor(x, n.reactants.participants))
      && (x in Ids(n.products.participants) ==>
            ClosedSum(x, PlanReaction(rx).products) == SumFor(x, n.products.participants))
  {
    var n := Normalise(rx);
    var r := SideOf(Reactants, n.reactants, []);
    if x in Ids(n.reactants.participants) {
      SideBalance(Reactants, x, n.reactants.participants, Ids(n.reactants.participants), n.reactants.tracked, []);
    }
    if x in Ids(n.products.participants) {
      SideBalance(Products, x, n.products.participants, Ids(n.products.participants), n.products.tracked, r.pseudo);
    }
  }

  /** Every clause of a planned reaction has the shape FitsSide describes:
      bare and mapped clauses are for a participant of their side and print
      |t| (raw t allowed for product splits); pseudo clauses are orphans of
      their side passing that side's orphan rule. */
  lemma PlanFits(rx: Reaction)
    ensures var n := Normalise(rx);
      && SideFits(Reactants, Ids(n.reactants.participants), n.reactants.tracked, PlanReaction(rx).reactants)
      && SideFits(Products, Ids(n.products.participants), n.products.tracked, PlanReaction(rx).products)
  {
    var n := Normalise(rx);
    var r := SideOf(Reactants, n.reactants, []);
    SideClausesFit(Reactants, n.reactants.participants, Ids(n.reactants.participants), n.reactants.tracked, []);
    SideClausesFit(Products, n.products.participants, Ids(n.products.participants), n.products.tracked, r.pseudo);
  }

  /** The plan does not depend on the reversibility flag beyond copying it. */
  lemma PlanIgnoresReversibility(rx: Reaction, b: bool)
    ensures PlanReaction(rx.(reversible := b)) == PlanReaction(rx).(reversible := b)
  {
  }
}

=== FILE: script_rules.dfy ===
/** Per-value rules of the MATLAB script writer: how measured MS averages
    and standard deviations are cleaned, which reactions are switched on,
    and how flux bounds are chosen when measured fluxes are given. */
module ScriptRules {
  import opened Wrappers

  /** A value written into the script: the MATLAB text `NaN`, or a number. */
  datatype Written = Blank | Number(x: real)

  /** Averages below this are written as NaN. */
  const AverageFloor: real := 0.000001
  /** Standard deviations below this are replaced. */
  const StdevFloor: real := 0.001
  /** Replacement for a standard deviation of exactly zero. */
  const ZeroStdevValue: real := 0.05

  /** An average below 1e-6 is written as NaN, any other is kept. */
  function CleanAverage(ave: real): (w: Written)
    ensures w.Blank? <==> ave < AverageFloor
    ensures w.Number? ==> w.x == ave
  {
    if ave < AverageFloor then Blank else Number(ave)
  }

  /** A standard deviation below 1e-3 becomes NaN when its average was
      blanked, 0.05 when it is exactly 0, and 1e-3 otherwise; larger
      values are kept. Every number written is therefore at least 1e-3. */
  function CleanStdev(ave: Written, stdev: real): (w: Written)
    ensures w.Blank? <==> ave.Blank? && stdev < StdevFloor
    ensures w.Number? ==> w.x >= StdevFloor
    ensures stdev >= StdevFloor ==> w == Number(stdev)
  {
    if stdev < StdevFloor then
      if ave.Blank? then Blank
      else if stdev == 0.0 then Number(ZeroStdevValue)
      else Number(StdevFloor)
    else Number(stdev)
  }

  /** One cleaned (value, standard deviation) entry of an MDV. */
  datatype MdvEntry = MdvEntry(val: Written, std: Written)

  function CleanEntry(ave: real, stdev: real): (e: MdvEntry)
  {
    var v := CleanAverage(ave);
    MdvEntry(v, CleanStdev(v, stdev))
  }

  /** Cleaning what was written as numbers changes nothing, and a blanked
      average always comes with a blank or a usable deviation: the rules
      are idempotent on their own output and never write a deviation
      below 1e-3. */
  lemma CleanIdempotent(ave: real, stdev: real)
    ensures var e := CleanEntry(ave, stdev);
      && (e.val.Number? && e.std.Number? ==> CleanEntry(e.val.x, e.std.x) == e)
      && (e.std.Number? ==> e.std.x >= StdevFloor)
      && (e.val.Number? ==> e.std.Number? && e.val.x >= AverageFloor)
  {
  }

  /** The rows of one measured MDV: entry k comes from average k and
      standard deviation k. A missing standard deviation is an IndexError. */
  method CleanMdv(aves: seq<real>, stdevs: seq<real>) returns (r: Option<seq<MdvEntry>>)
    ensures r.Some? <==> |stdevs| >= |aves|
    ensures r.Some? ==> |r.value| == |aves|
    ensures r.Some? ==> forall k :: 0 <= k < |aves| ==> r.value[k] == CleanEntry(aves[k], stdevs[k])
  {
    var rows: seq<MdvEntry> := [];
    var k := 0;
    while k < |aves|
      invariant 0 <= k <= |aves|
      invariant k <= |stdevs|
      invariant |rows| == k
      invariant forall j :: 0 <= j < k ==> rows[j] == CleanEntry(aves[j], stdevs[j])
    {
      if k >= |stdevs| {
        return None;
      }
      rows := rows + [CleanEntry(aves[k], stdevs[k])];
      k := k + 1;
    }
    return Some(rows);
  }

  // ---------------------------------------------------------------------
  // Reactions of the model script

  /** One reaction of the model: its id, initial flux and bounds. */
  datatype ModelReaction = ModelReaction(id: string, fluxVal: real, lowerBound: real, upperBound: real)

  /** One measured flux with its bounds. */
  datatype MeasuredFlux = MeasuredFlux(rxnId: string, fluxLb: real, fluxUb: real)

  /** `m.rates.on`: a reaction is switched off exactly when its flux and
      both bounds are 0. */
  function RateOn(r: ModelReaction): (on: bool)
    ensures !on <==> r.fluxVal == 0.0 && r.lowerBound == 0.0 && r.upperBound == 0.0
  {
    !(r.fluxVal == 0.0 && r.upperBound == 0.0 && r.lowerBound == 0.0)
  }

  /** What `rates.on` means for the fit: a reaction whose bounds allow a
      flux other than 0 is on; a reaction that is off is pinned to 0 by
      its bounds; a reaction pinned to 0 stays on only when its initial
      flux is not 0. */
  lemma RateOnBounds(r: ModelReaction)
    ensures r.lowerBound < r.upperBound ==> RateOn(r)
    ensures !RateOn(r) ==> r.lowerBound == r.upperBound == 0.0 && r.fluxVal == 0.0
    ensures r.lowerBound == r.upperBound == 0.0 ==> (RateOn(r) <==> r.fluxVal != 0.0)
  {
  }

  /** The bounds written for every reaction, as the writer's loops choose
      them: with measured fluxes, the inner loop breaks on its first record
      whether or not it matches, so only the first record is compared. */
  method WrittenBounds(rxns: seq<ModelReaction>, measured: seq<MeasuredFlux>) returns (lbs: seq<real>, ubs: seq<real>)
    ensures |lbs| == |rxns| && |ubs| == |rxns|
    ensures forall k :: 0 <= k < |rxns| ==>
      (|measured| > 0 && measured[0].rxnId == rxns[k].id ==> lbs[k] == measured[0].fluxLb && ubs[k] == measured[0].fluxUb)
    ensures forall k :: 0 <= k < |rxns| ==>
      (!(|measured| > 0 && measured[0].rxnId == rxns[k].id) ==> lbs[k] == rxns[k].lowerBound && ubs[k] == rxns[k].upperBound)
  {
    lbs := [];
    ubs := [];
    var k := 0;
    while k < |rxns|
      invariant 0 <= k <= |rxns|
      invariant |lbs| == k && |ubs| == k
      invariant forall j :: 0 <= j < k ==> lbs[j] == AsWrittenBound(rxns[j], measured).0
      invariant forall j :: 0 <= j < k ==> ubs[j] == AsWrittenBound(rxns[j], measured).1
    {
      var lb := rxns[k].lowerBound;
      var ub := rxns[k].upperBound;
      // The inner loop over measured fluxes leaves on its first pass in
      // both branches, so at most measured[0] is looked at.
      if |measured| > 0 {
        if rxns[k].id == measured[0].rxnId {
          lb := measured[0].fluxLb;
          ub := measured[0].fluxUb;
        } else {
          lb := rxns[k].lowerBound;
          ub := rxns[k].upperBound;
        }
      }
      lbs := lbs + [lb];
      ubs := ubs + [ub];
      k := k + 1;
    }
  }

  /** The (lower, upper) bound the writer produces for one reaction. */
  function AsWrittenBound(r: ModelReaction, measured: seq<MeasuredFlux>): (b: (real, real))
  {
    if |measured| > 0 && measured[0].rxnId == r.id then (measured[0].fluxLb, measured[0].fluxUb)
    else (r.lowerBound, r.upperBound)
  }

  /** Measured records after the first never affect the bounds written. */
  lemma LaterRecordsIgnored(r: ModelReaction, measured: seq<MeasuredFlux>, later: seq<MeasuredFlux>)
    requires |measured| > 0
    ensures AsWrittenBound(r, measured + later) == AsWrittenBound(r, measured[..1])
  {
  }

  /** The bound the loop evidently means to pick: that of the first
      measured record for the reaction, else the model's own. */
  function IntendedBound(r: ModelReaction, measured: seq<MeasuredFlux>): (b: (real, real))
    ensures (exists i :: 0 <= i < |measured| && measured[i].rxnId == r.id) ==>
      exists i :: 0 <= i < |measured| && measured[i].rxnId == r.id && b == (measured[i].fluxLb, measured[i].fluxUb)
        && forall j :: 0 <= j < i ==> measured[j].rxnId != r.id
    ensures (forall i :: 0 <= i < |measured| ==> measured[i].rxnId != r.id) ==> b == (r.lowerBound, r.upperBound)
    decreases |measured|
  {
    if |measured| == 0 then (r.lowerBound, r.upperBound)
    else if measured[0].rxnId == r.id then (measured[0].fluxLb, measured[0].fluxUb)
    else
      var b := IntendedBound(r, measured[1..]);
      assert forall i :: 1 <= i < |measured| ==> measured[i] == measured[1..][i - 1];
      b
  }

  /** The two agree whenever the first record is the one for the reaction
      or no record is. */
  lemma IntendedAgreesOnFirst(r: ModelReaction, measured: seq<MeasuredFlux>)
    requires |measured| > 0 && measured[0].rxnId == r.id
    ensures AsWrittenBound(r, measured) == IntendedBound(r, measured)
  {
  }

  /** A measured flux for the reaction listed behind a record for another
      reaction is ignored as written, but used by the intended rule. */
  lemma SecondRecordIgnored(r: ModelReaction, measured: seq<MeasuredFlux>, i: nat)
    requires 0 < i < |measured| && measured[i].rxnId == r.id
    requires forall j :: 0 <= j < i ==> measured[j].rxnId != r.id
    ensures AsWrittenBound(r, measured) == (r.lowerBound, r.upperBound)
    ensures IntendedBound(r, measured) == (measured[i].fluxLb, measured[i].fluxUb)
  {
  }

  /** For instance, a measured PGI flux behind a glucose uptake record. */
  lemma SecondRecordExample()
    ensures var r := ModelReaction("PGI", 1.0, -1000.0, 1000.0);
      var measured := [MeasuredFlux("GLCptspp", 8.0, 9.0), MeasuredFlux("PGI", 2.0, 3.0)];
      && AsWrittenBound(r, measured) == (-1000.0, 1000.0)
      && IntendedBound(r, measured) == (2.0, 3.0)
  {
    var measured := [MeasuredFlux("GLCptspp", 8.0, 9.0), MeasuredFlux("PGI", 2.0, 3.0)];
    SecondRecordIgnored(ModelReaction("PGI", 1.0, -1000.0, 1000.0), measured, 1);
  }
}

=== FILE: text.dfy ===
/** String operations with Python's semantics: slicing off a suffix,
    `str.join`, `str.split(sep)`, `str.replace`, substring tests and
    `str(int)`. Strings are `seq<char>`. */
module Text {

  /** Python `s[:-k]` for k >= 1: removes the last k characters, or
      everything when the string is shorter than that. */
  function DropLast(s: string, k: nat): (r: string)
    ensures |s| <= k ==> r == ""
    ensures |s| > k ==> |r| == |s| - k && r == s[..|s| - k]
  {
    if |s| <= k then "" else s[..|s| - k]
  }

  /** Python `sep.join(parts)`. */
  function Join(parts: seq<string>, sep: string): (r: string)
    decreases |parts|
  {
    if |parts| == 0 then ""
    else if |parts| == 1 then parts[0]
    else parts[0] + sep + Join(parts[1..], sep)
  }

  /** Python `''.join(parts)`. */
  function Concat(parts: seq<string>): (r: string)
    decreases |parts|
  {
    if |parts| == 0 then "" else parts[0] + Concat(parts[1..])
  }

  predicate IsPrefix(p: string, s: string)
  {
    |p| <= |s| && s[..|p|] == p
  }

  /** Python `p in s` for strings: p occurs somewhere in s. */
  predicate Contains(s: string, p: string)
    decreases |s|
  {
    IsPrefix(p, s) || (|s| > 0 && Contains(s[1..], p))
  }

  /** Python `s.split(sep)`: the pieces between the non-overlapping
      occurrences of sep, found from left to right. */
  function SplitOn(s: string, sep: string): (r: seq<string>)
    requires |sep| > 0
    ensures |r| >= 1
    decreases |s|
  {
    if |s| < |sep| then [s]
    else if s[..|sep|] == sep then [""] + SplitOn(s[|sep|..], sep)
    else
      var rest := SplitOn(s[1..], sep);
      [[s[0]] + rest[0]] + rest[1..]
  }

  /** Python `s.replace(pat, rep)` (and `re.sub` with a literal pattern
      and a literal replacement): every non-overlapping occurrence of pat,
      found from left to right, is replaced by rep. */
  function ReplaceAll(s: string, pat: string, rep: string): (r: string)
    requires |pat| > 0
    decreases |s|
  {
    if |s| < |pat| then s
    else if s[..|pat|] == pat then rep + ReplaceAll(s[|pat|..], pat, rep)
    else [s[0]] + ReplaceAll(s[1..], pat, rep)
  }

  /** Python `s.replace(c, '')` for a one-character c. */
  function RemoveChar(s: string, c: char): (r: string)
    ensures c !in r
    ensures forall x :: x in r <==> x in s && x != c
    decreases |s|
  {
    if |s| == 0 then ""
    else (if s[0] == c then "" else [s[0]]) + RemoveChar(s[1..], c)
  }

  function DigitChar(d: nat): (r: char)
    requires d < 10
  {
    "0123456789"[d]
  }

  /** Python `str(n)` for a natural number. */
  function NatToString(n: nat): (r: string)
    ensures |r| >= 1
    decreases n
  {
    if n < 10 then [DigitChar(n)] else NatToString(n / 10) + [DigitChar(n % 10)]
  }

  /** Python `str(i)` for an integer. */
  function IntToString(i: int): (r: string)
    ensures |r| >= 1
  {
    if i < 0 then "-" + NatToString(-i) else NatToString(i)
  }

  // ---------------------------------------------------------------------
  // Lemmas

  /** Generic sequence facts, stated once so that the proofs using them
      stay small. */
  lemma SeqAssoc<T>(a: seq<T>, b: seq<T>, c: seq<T>)
    ensures (a + b) + c == a + (b + c)
  {
  }

  lemma EmptyTail<T>(a: seq<T>)
    ensures a[|a|..] == [] && a[0..] == a && [] + a == a && a + [] == a
  {
  }

  /** A sequence is its prefix followed by the rest. */
  lemma PrefixRejoin<T>(a: seq<T>, c: seq<T>)
    requires |a| <= |c| && c[..|a|] == a
    ensures a + c[|a|..] == c
  {
  }

  /** The part of c after a, when a is a prefix of b and b of c. */
  lemma ExtendTail<T>(a: seq<T>, b: seq<T>, c: seq<T>)
    requires |a| <= |b| <= |c| && b[..|a|] == a && c[..|b|] == b
    ensures c[|a|..] == b[|a|..] + c[|b|..]
  {
    assert c[|a|..] == c[|a|..|b|] + c[|b|..];
  }

  lemma AppendAssoc(a: string, b: string, c: string)
    ensures (a + b) + c == a + (b + c)
  {
  }

  lemma PrefixOfAppend(a: string, b: string)
    ensures IsPrefix(a, a + b)
  {
    assert (a + b)[..|a|] == a;
  }

  lemma JoinSingle(x: string, sep: string)
    ensures Join([x], sep) == x
  {
  }

  lemma JoinPair(x: string, y: string, sep: string)
    ensures Join([x, y], sep) == x + sep + y
  {
    assert [x, y][1..] == [y];
  }

  lemma JoinCons(x: string, xs: seq<string>, sep: string)
    requires |xs| > 0
    ensures Join([x] + xs, sep) == x + sep + Join(xs, sep)
  {
    assert ([x] + xs)[1..] == xs;
  }

  /** Joining two non-empty lists is joining their joins. */
  lemma {:induction false} JoinAppend(xs: seq<string>, ys: seq<string>, sep: string)
    requires |xs| > 0 && |ys| > 0
    ensures Join(xs + ys, sep) == Join(xs, sep) + sep + Join(ys, sep)
    decreases |xs|
  {
    if |xs| == 1 {
      assert xs + ys == [xs[0]] + ys;
      JoinCons(xs[0], ys, sep);
    } else {
      var x := xs[0];
      JoinAppend(xs[1..], ys, sep);
      assert xs + ys == [x] + (xs[1..] + ys);
      JoinCons(x, xs[1..] + ys, sep);
      assert xs == [x] + xs[1..];
      JoinCons(x, xs[1..], sep);
      Regroup(x + sep, Join(xs[1..], sep), sep, Join(ys, sep));
    }
  }

  /** The join of the first n parts starts the join of all of them. */
  lemma JoinPrefix(parts: seq<string>, n: nat, sep: string)
    requires 0 < n <= |parts|
    ensures IsPrefix(Join(parts[..n], sep), Join(parts, sep))
  {
    var head := parts[..n];
    if n < |parts| {
      var tail := parts[n..];
      assert parts == head + tail;
      JoinAppend(head, tail, sep);
      PrefixOfAppend(Join(head, sep), sep + Join(tail, sep));
      AppendAssoc(Join(head, sep), sep, Join(tail, sep));
    } else {
      assert head == parts;
      PrefixOfAppend(Join(parts, sep), "");
      assert Join(parts, sep) + "" == Join(parts, sep);
    }
  }

  lemma Regroup(a: string, b: string, c: string, d: string)
    ensures a + (b + c + d) == a + b + c + d
  {
  }

  lemma {:induction false} ConcatAppend(xs: seq<string>, ys: seq<string>)
    ensures Concat(xs + ys) == Concat(xs) + Concat(ys)
    decreases |xs|
  {
    if |xs| == 0 {
      assert xs + ys == ys;
    } else {
      ConcatAppend(xs[1..], ys);
      assert (xs + ys)[1..] == xs[1..] + ys;
    }
  }

  /** Appending `suffix` after every part and concatenating gives the
      join of the parts followed by one final suffix. */
  lemma {:induction false} ConcatSuffixed(parts: seq<string>, suffix: string)
    requires |parts| > 0
    ensures Concat(seq(|parts|, k requires 0 <= k < |parts| => parts[k] + suffix))
         == Join(parts, suffix) + suffix
    decreases |parts|
  {
    var f := seq(|parts|, k requires 0 <= k < |parts| => parts[k] + suffix);
    if |parts| == 1 {
      assert Concat(f) == f[0] + Concat(f[1..]);
      assert f[1..] == [];
    } else {
      var g := seq(|parts| - 1, k requires 0 <= k < |parts| - 1 => parts[1..][k] + suffix);
      assert f[1..] == g;
      ConcatSuffixed(parts[1..], suffix);
      JoinCons(parts[0], parts[1..], suffix);
      assert parts == [parts[0]] + parts[1..];
    }
  }

  /** Splitting and re-joining with the same separator gives the string back. */
  lemma {:induction false} JoinSplit(s: string, sep: string)
    requires |sep| > 0
    ensures Join(SplitOn(s, sep), sep) == s
    decreases |s|
  {
    if |s| < |sep| {
    } else if s[..|sep|] == sep {
      JoinSplit(s[|sep|..], sep);
      JoinSplitAtSep(s, sep);
    } else {
      JoinSplit(s[1..], sep);
      JoinSplitOther(s, sep);
    }
  }

  lemma JoinSplitAtSep(s: string, sep: string)
    requires |sep| > 0 && |s| >= |sep| && s[..|sep|] == sep
    requires Join(SplitOn(s[|sep|..], sep), sep) == s[|sep|..]
    ensures Join(SplitOn(s, sep), sep) == s
  {
    var rest := SplitOn(s[|sep|..], sep);
    assert SplitOn(s, sep) == [""] + rest;
    JoinCons("", rest, sep);
    assert s == s[..|sep|] + s[|sep|..];
  }

  lemma JoinSplitOther(s: string, sep: string)
    requires |sep| > 0 && |s| >= |sep| && s[..|sep|] != sep
    requires Join(SplitOn(s[1..], sep), sep) == s[1..]
    ensures Join(SplitOn(s, sep), sep) == s
  {
    var rest := SplitOn(s[1..], sep);
    assert SplitOn(s, sep) == [[s[0]] + rest[0]] + rest[1..];
    JoinExtendFirst(s[0], rest, sep);
    assert s == [s[0]] + s[1..];
  }

  /** Prefixing the first part with a character prefixes the join. */
  lemma JoinExtendFirst(c: char, parts: seq<string>, sep: string)
    requires |parts| > 0
    ensures Join([[c] + parts[0]] + parts[1..], sep) == [c] + Join(parts, sep)
  {
    if |parts| > 1 {
      JoinCons([c] + parts[0], parts[1..], sep);
      JoinCons(parts[0], parts[1..], sep);
      assert parts == [parts[0]] + parts[1..];
    } else {
      assert [[c] + parts[0]] + parts[1..] == [[c] + parts[0]];
    }
  }

  /** A string that is exactly the pattern is replaced whole. */
  lemma ReplaceWhole(pat: string, rep: string)
    requires |pat| > 0
    ensures ReplaceAll(pat, pat, rep) == rep
  {
    assert pat[..|pat|] == pat;
    assert pat[|pat|..] == "";
  }

  /** `str.replace` is split-then-join: the two definitions agree. */
  lemma {:induction false} ReplaceIsSplitJoin(s: string, pat: string, rep: string)
    requires |pat| > 0
    ensures ReplaceAll(s, pat, rep) == Join(SplitOn(s, pat), rep)
    decreases |s|
  {
    if |s| < |pat| {
    } else if s[..|pat|] == pat {
      ReplaceIsSplitJoin(s[|pat|..], pat, rep);
      ReplaceAtPattern(s, pat, rep);
    } else {
      ReplaceIsSplitJoin(s[1..], pat, rep);
      ReplaceElsewhere(s, pat, rep);
    }
  }

  lemma ReplaceAtPattern(s: string, pat: string, rep: string)
    requires |pat| > 0 && |s| >= |pat| && s[..|pat|] == pat
    requires ReplaceAll(s[|pat|..], pat, rep) == Join(SplitOn(s[|pat|..], pat), rep)
    ensures ReplaceAll(s, pat, rep) == Join(SplitOn(s, pat), rep)
  {
    var rest := SplitOn(s[|pat|..], pat);
    assert SplitOn(s, pat) == [""] + rest;
    JoinCons("", rest, rep);
    EmptyTail(rep);
  }

  lemma ReplaceElsewhere(s: string, pat: string, rep: string)
    requires |pat| > 0 && |s| >= |pat| && s[..|pat|] != pat
    requires ReplaceAll(s[1..], pat, rep) == Join(SplitOn(s[1..], pat), rep)
    ensures ReplaceAll(s, pat, rep) == Join(SplitOn(s, pat), rep)
  {
    var rest := SplitOn(s[1..], pat);
    assert SplitOn(s, pat) == [[s[0]] + rest[0]] + rest[1..];
    JoinExtendFirst(s[0], rest, rep);
  }

  lemma {:induction false} NotContainsSuffix(s: string, p: string)
    requires |s| > 0 && !Contains(s, p)
    ensures !Contains(s[1..], p)
  {
  }

  /** A string without an occurrence of the pattern is left unchanged. */
  lemma {:induction false} ReplaceAbsent(s: string, pat: string, rep: string)
    requires |pat| > 0 && !Contains(s, pat)
    ensures ReplaceAll(s, pat, rep) == s
    decreases |s|
  {
    if |s| < |pat| {
    } else {
      assert !IsPrefix(pat, s);
      ReplaceAbsent(s[1..], pat, rep);
      assert s == [s[0]] + s[1..];
    }
  }

  /** For a one-character pattern, substring containment is membership. */
  lemma {:induction false} ContainsChar(s: string, c: char)
    ensures Contains(s, [c]) <==> c in s
    decreases |s|
  {
    if |s| > 0 {
      ContainsChar(s[1..], c);
      assert s == [s[0]] + s[1..];
    }
  }

  /** Replacing every occurrence of pat by a character c that does not
      occur in s, and then every c by pat, gives s back. */
  lemma {:induction false} ReplaceRoundTrip(s: string, pat: string, c: char)
    requires |pat| > 0 && c !in s
    ensures ReplaceAll(ReplaceAll(s, pat, [c]), [c], pat) == s
    decreases |s|
  {
    if |s| < |pat| {
      ContainsChar(s, c);
      ReplaceAbsent(s, [c], pat);
    } else if s[..|pat|] == pat {
      var t := ReplaceAll(s[|pat|..], pat, [c]);
      ReplaceRoundTrip(s[|pat|..], pat, c);
      assert ([c] + t)[..1] == [c];
      assert ([c] + t)[1..] == t;
      assert s == pat + s[|pat|..];
    } else {
      var t := ReplaceAll(s[1..], pat, [c]);
      ReplaceRoundTrip(s[1..], pat, c);
      assert ([s[0]] + t)[..1] != [c];
      assert ([s[0]] + t)[1..] == t;
      assert s == [s[0]] + s[1..];
    }
  }

  /** A prefix that avoids c survives replacing pat by c only if it was
      already a prefix before the replacement. */
  lemma {:induction false} PrefixOfReplaced(p: string, s: string, pat: string, c: char)
    requires |pat| > 0 && |p| > 0 && c !in p
    requires IsPrefix(p, ReplaceAll(s, pat, [c]))
    ensures IsPrefix(p, s)
    decreases |s|
  {
    var r := ReplaceAll(s, pat, [c]);
    if |s| < |pat| {
    } else if s[..|pat|] == pat {
      assert false;
    } else {
      var t := ReplaceAll(s[1..], pat, [c]);
      assert r == [s[0]] + t;
      assert p[0] == s[0];
      if |p| > 1 {
        assert p[1..] == t[..|p| - 1];
        PrefixOfReplaced(p[1..], s[1..], pat, c);
      }
      assert p == [p[0]] + p[1..];
    }
  }

  /** Replacing pat by a character c cannot create an occurrence of a
      pattern p that does not itself contain c. */
  lemma {:induction false} ReplaceKeepsAbsent(s: string, p: string, pat: string, c: char)
    requires |pat| > 0 && |p| > 0 && c !in p && !Contains(s, p)
    ensures !Contains(ReplaceAll(s, pat, [c]), p)
    decreases |s|
  {
    var r := ReplaceAll(s, pat, [c]);
    if Contains(r, p) {
      if IsPrefix(p, r) {
        PrefixOfReplaced(p, s, pat, c);
        assert false;
      } else {
        if |s| < |pat| {
          assert false;
        } else if s[..|pat|] == pat {
          var t := ReplaceAll(s[|pat|..], pat, [c]);
          assert r[1..] == t;
          ContainsDrop(s, |pat|, p);
          ReplaceKeepsAbsent(s[|pat|..], p, pat, c);
          assert false;
        } else {
          var t := ReplaceAll(s[1..], pat, [c]);
          assert r[1..] == t;
          ReplaceKeepsAbsent(s[1..], p, pat, c);
          assert false;
        }
      }
    }
  }

  /** A suffix of a string without p has no p either. */
  lemma {:induction false} ContainsDrop(s: string, k: nat, p: string)
    requires k <= |s| && !Contains(s, p)
    ensures !Contains(s[k..], p)
    decreases k
  {
    if k > 0 {
      ContainsDrop(s[1..], k - 1, p);
      assert s[1..][k - 1..] == s[k..];
    }
  }

  /** Replacing cannot introduce a character found in neither the string
      nor the replacement. */
  lemma {:induction false} ReplaceNoChar(s: string, pat: string, rep: string, c: char)
    requires |pat| > 0 && c !in s && c !in rep
    ensures c !in ReplaceAll(s, pat, rep)
    decreases |s|
  {
    if |s| >= |pat| {
      if s[..|pat|] == pat {
        ReplaceNoChar(s[|pat|..], pat, rep, c);
      } else {
        ReplaceNoChar(s[1..], pat, rep, c);
      }
    }
  }

  /** Replacing every c by a text without c leaves no c behind. */
  lemma {:induction false} ReplaceRemovesChar(s: string, c: char, rep: string)
    requires c !in rep
    ensures c !in ReplaceAll(s, [c], rep)
    decreases |s|
  {
    if |s| >= 1 {
      if s[..1] == [c] {
        ReplaceRemovesChar(s[1..], c, rep);
      } else {
        assert s[0] != c;
        ReplaceRemovesChar(s[1..], c, rep);
      }
    }
  }

  /** A pattern with a character the string lacks does not occur in it. */
  lemma {:induction false} MissingCharNotContained(s: string, pat: string, c: char)
    requires c in pat && c !in s
    ensures !Contains(s, pat)
    decreases |s|
  {
    if |s| > 0 {
      MissingCharNotContained(s[1..], pat, c);
    }
  }

  /** Occurrences of pat cannot start inside a prefix lacking pat's first
      character, so replacing skips that prefix. */
  lemma {:induction false} ReplaceAfterPrefix(a: string, rest: string, pat: string, rep: string)
    requires |pat| > 0 && pat[0] !in a
    ensures ReplaceAll(a + rest, pat, rep) == a + ReplaceAll(rest, pat, rep)
    decreases |a|
  {
    if |a| == 0 {
      assert a + rest == rest;
    } else {
      var s := a + rest;
      if |s| < |pat| {
        ReplaceShort(rest, pat, rep);
      } else {
        assert s[0] == a[0];
        assert s[..|pat|] != pat;
        assert s[1..] == a[1..] + rest;
        ReplaceAfterPrefix(a[1..], rest, pat, rep);
        assert a == [a[0]] + a[1..];
      }
    }
  }

  lemma ReplaceShort(s: string, pat: string, rep: string)
    requires |pat| > 0 && |s| < |pat|
    ensures ReplaceAll(s, pat, rep) == s
  {
  }

  /** A string without the separator character splits into itself. */
  lemma {:induction false} SplitWithoutSep(s: string, c: char)
    requires c !in s
    ensures SplitOn(s, [c]) == [s]
    decreases |s|
  {
    if |s| >= 1 {
      assert s[0] in s;
      assert s[..1] != [c];
      SplitWithoutSep(s[1..], c);
      assert s == [s[0]] + s[1..];
    }
  }
}

=== FILE: wrappers.dfy ===
/** Failure-carrying values. `None` stands for a Python exception
    (an IndexError on a list that is too short) in the modelled code. */
module Wrappers {

  datatype Option<+T> = None | Some(value: T)

}
